=== FILE: README.md ===
# structured-sweetpea core, modelled in Dafny

structured-sweetpea works with SweetPea experimental designs, which are held as
plain dictionaries. Each design has a list of factors and a crossing. A factor
has a name and a list of levels. A level is one of three kinds:

- static: a name and a weight;
- within-trial derived: a predicate over the current trial;
- window derived: a predicate that indexes earlier trials, as in `color[-1]`.

The tool works in two directions, and this project models the machinery both
share.

**Forward (text generation).** The expression scanners find the factor names a
predicate mentions, and the window width it needs. The level dispatcher picks
static, within-trial or window for each level. The factor builder joins level
fragments and unions their dependencies. The design builder orders the factors
with a Kahn pass sort. It then emits the declarations, the design list and the
crossing. It chooses `CrossBlock` for a flat crossing and `MultiCrossBlock` for
a nested one, and adds the tabulate step only for `CrossBlock`.

**Backward (labelling recorded trials).** `to_canonical` takes a trial table
and the factor list, and works in stages:

1. It orders the factors with a second, round-based topological sort. This sort
   drops self-references and undeclared names.
2. It checks each static column, applying an explicit map first and then an
   automatic sorted one-to-one remap.
3. It adds an empty column for each missing derived factor.
4. It labels every row of every derived column with the first level whose
   predicate holds. A predicate is evaluated by compiling its tokens
   (`color[-1]`, bare `word`, and so on) and substituting cell literals,
   guarded by row bounds.
5. If asked, it projects onto the factor columns.

**Validators.** Two schema rules check predicate strings: a within-trial one
must not index trials, and a window one must. A design constraint checks that
every crossed name is a declared factor.

## Modelling choices

- **Regular expressions.** Each is a hand-written scanner over `seq<char>` in
  `Lexer`: identifiers, quoted literals, `\b`-bounded identifiers,
  bracket-preceded names and bracketed signed integers. Whitespace follows
  Python's `str.isspace`.
- **Duplicated helpers.** The source defines `_strip_strings`, `_py` and the
  keyword set twice, identically. Each is defined once here.
- **Python's `eval`.** It is an oracle parameter `string -> Option<bool>`, where
  `None` stands for an exception.
- **The trial table.** It is a `Table`: a column list, a map from column name to
  a column of `Value`s, and a height. Rows are indexed 0 to height-1.
- **Errors.** Every raised error is a `Failure` of the `Error` datatype, so each
  error path is part of the contracts.

### Where the code departs from its intended design

In each case below, the model follows the code as written.

- **Token de-duplication.** The compiled tokens are not de-duplicated by
  (base, offset). Every occurrence of an indexed reference is its own token, as
  `_compile_tokens` collects them (`utils/convert/__init__.py:90-94`).
- **Window width.** A window expression with no negative offset makes
  `build_window` fail, because it takes `max` of an empty sequence. It does not
  get width 1. In the model this is `NoNegativeOffset`.
- **Unknown factor references.** There is no such error. The builder's sort
  reports an undeclared dependency as a cycle. The converter's sort silently
  drops undeclared names.

### Divergences between the source's own components

These are proved as lemmas in `Divergences`:

- **Three window tests that disagree.** The schema's window test, the level
  dispatcher's test and the converter's `"[-"` test give different answers.
  `color[0]==word[0]` passes the window rule, fails to build, and is treated as
  within-trial by the converter.
- **Two topological sorts that disagree.** On `a:{}, b:{a}, c:{}` the builder
  emits `a, b, c` and the converter emits `a, c, b`.
- **Two identifier scanners that disagree.** The scanner without `\b` reads
  `x>1e5` as mentioning `e5`. The `\b` scanner does not.
- **Where they do agree.** For a bracket-free expression with no identifier
  directly after a digit, all four reference scanners yield the same set of
  names.

## Model

Paths are relative to the repository root.

| member | source | states |
|---|---|---|
| BuilderExpr.Unique | src/mate_structure/sweetpea/builder/expr.py:8-15 | the output has no repeats, holds exactly the input's elements, and keeps them in order of first occurrence |
| Lexer.StripStringsLeavesNoLiteral | src/mate_structure/sweetpea/builder/expr.py:19-21 | after blanking quoted literals no complete quoted literal remains |
| Lexer.StripStringsIdempotent | src/mate_structure/sweetpea/builder/expr.py:19-21 | blanking quoted literals a second time changes nothing |
| Lexer.StripQuoteFree | src/mate_structure/sweetpea/builder/expr.py:19-21 | a string with no quote character is left as it is |
| Lexer.ScannersAgree | src/mate_structure/sweetpea/utils/convert/__init__.py:60 | when no identifier directly follows a digit, the `\b`-bounded identifier scan finds the same identifiers as the unbounded one |
| Lexer.BracketIntsFound | src/mate_structure/sweetpea/builder/level.py:63 | the bracketed-integer search finds something exactly when the list of bracketed integers is non-empty |
| Lexer.Strip | src/mate_structure/sweetpea/builder/factor.py:3-5 | the result is the input with leading and trailing whitespace removed and no more; it is empty exactly when the input is all whitespace |
| BuilderExpr.VarsWithin | src/mate_structure/sweetpea/builder/expr.py:5-31 | the names are distinct identifiers, none of them a keyword, and are exactly the identifiers outside quoted literals minus the keywords |
| BuilderExpr.VarsWithinFirstOccurrence | src/mate_structure/sweetpea/builder/expr.py:24-31 | the names come in order of first occurrence in the literal-free text |
| BuilderExpr.VarsWindow | src/mate_structure/sweetpea/builder/expr.py:34-42 | the names are distinct non-keyword identifiers: exactly the bracket-preceded names together with the bare `\b`-bounded identifiers |
| BuilderExpr.VarsWindowFirstOccurrence | src/mate_structure/sweetpea/builder/expr.py:39-42 | the names appear in order of first occurrence in the bracket-preceded list followed by the bare list, keywords skipped |
| BuilderExpr.VarsWindowIndexedFirst | src/mate_structure/sweetpea/builder/expr.py:39-42 | every bracket-preceded name comes before every name found only bare |
| BuilderExpr.BuildWithin | src/mate_structure/sweetpea/builder/expr.py:48-69 | width 0; the lambda's parameters and the call's arguments both equal the returned names; the body is the expression unchanged |
| BuilderExpr.MaxMagnitude | src/mate_structure/sweetpea/builder/expr.py:91 | the result bounds the magnitude of every element and is attained by one |
| BuilderExpr.BuildWindow | src/mate_structure/sweetpea/builder/expr.py:72-94 | fails exactly when no bracketed integer is negative; otherwise the width is at least 2, exceeds the magnitude of every negative offset and is one more than the magnitude of one of them, and parameters, arguments and returned names are the window scan |
| Examples.VarsWithinRedGreen | src/mate_structure/sweetpea/builder/expr.py:56-57 | `color=="red" and word=="green"` mentions `[color, word]` and nothing quoted |
| Examples.VarsWindowMixed | src/mate_structure/sweetpea/builder/expr.py:77-78 | `color[-1]==word[0] and word[-1]=="green"` gives `[color, word]` |
| Examples.WidthTwo | src/mate_structure/sweetpea/builder/expr.py:74-75 | `color[-1]==color[0]` needs a window of width 2 |
| Examples.WidthThree | src/mate_structure/sweetpea/builder/expr.py:80-81 | `color[-2]==color[0] and color[-1]==color[0]` needs width 3 |
| Examples.NoPastNoWindow | src/mate_structure/sweetpea/builder/expr.py:90-91 | `color[0]==word[0]` has no negative index, so `max` of the empty list fails |
| BuilderLevel.WrittenWeight | src/mate_structure/sweetpea/builder/level.py:22 | an absent weight becomes the default; a written one, even `None`, is kept |
| BuilderLevel.RegularLevel | src/mate_structure/sweetpea/builder/level.py:10-25 | succeeds exactly when the name is present and non-empty, giving a static level with the weight and no dependencies; otherwise fails with the missing-name error |
| BuilderLevel.WithinDerivedLevel | src/mate_structure/sweetpea/builder/level.py:28-41 | succeeds exactly when name and expression are both present and non-empty; the predicate is the within-trial build and the dependencies are its names |
| BuilderLevel.WindowDerivedLevel | src/mate_structure/sweetpea/builder/level.py:44-57 | a missing name or expression fails first; otherwise succeeds exactly when the window build does, with its predicate and its names as dependencies |
| BuilderLevel.LevelBuild | src/mate_structure/sweetpea/builder/level.py:63-83 | with no expression key it is a static level; otherwise it fails exactly on a missing name, an empty expression, or a bracketed integer with no negative one; the predicate is a window exactly when a bracketed integer occurs; dependencies are distinct non-keywords equal to the chosen scanner's names |
| Examples.SwitchLevel | src/mate_structure/sweetpea/builder/level.py:74-75 | the `switch` level `color[-1]!=color[0]` becomes a window of width 2 depending on `[color]` |
| BuilderFactor.Py | src/mate_structure/sweetpea/builder/factor.py:3-5 | the identifier is the stripped name with every space and hyphen replaced by `_` and every other character kept |
| BuilderFactor.PyIdempotent | src/mate_structure/sweetpea/builder/factor.py:3-5 | sanitising an already sanitised name changes nothing |
| BuilderFactor.BuildLevels | src/mate_structure/sweetpea/builder/factor.py:30-33 | succeeds exactly when every level builds; codes are the levels' codes in order; dependencies are the union of all levels'; a failure is the first failing level's error |
| BuilderFactor.FactorBuild | src/mate_structure/sweetpea/builder/factor.py:8-41 | a missing name fails first, then missing or empty levels; otherwise succeeds exactly when every level builds, with one code per level in order, the sanitised identifier, and the union of the levels' dependencies, unfiltered |
| BuilderFactor.StaticFactorNoDeps | src/mate_structure/sweetpea/builder/factor.py:30-33 | a factor whose levels are all static has no dependencies |
| Graph.StuckNoOrder | src/mate_structure/sweetpea/builder/experimental_design.py:30-32 | a set of names none of which can be placed after the rest rules out every topological order |
| BuilderDesign.PassParts | src/mate_structure/sweetpea/builder/experimental_design.py:24-29 | one pass splits the remaining entries into taken and left, losing none |
| BuilderDesign.PassTakenReady | src/mate_structure/sweetpea/builder/experimental_design.py:24-29 | each taken entry's dependencies are resolved before the pass or taken earlier in the same pass |
| BuilderDesign.PassKeepsOrder | src/mate_structure/sweetpea/builder/experimental_design.py:24-29 | the taken entries and the left entries each keep their order in the remaining dictionary |
| BuilderDesign.PassAt | src/mate_structure/sweetpea/builder/experimental_design.py:24-29 | the entry at each position is taken exactly when its dependencies lie within the resolved names and the names taken at earlier positions of the same pass; otherwise it is left |
| BuilderDesign.PassStuck | src/mate_structure/sweetpea/builder/experimental_design.py:30-32 | a pass that takes nothing means no remaining entry had its dependencies resolved |
| BuilderDesign.TopoOrder | src/mate_structure/sweetpea/builder/experimental_design.py:14-33 | a success lists every name once with each name after all its dependencies; a failure is a cycle error naming the remaining names, which form a blocking set that contains every other blocking set |
| BuilderDesign.TopoOrderComplete | src/mate_structure/sweetpea/builder/experimental_design.py:14-33 | the pass sort succeeds exactly when some topological order exists |
| BuilderDesign.UnresolvableDepFails | src/mate_structure/sweetpea/builder/experimental_design.py:22-32 | a dependency on an undeclared name, or on the factor itself, always makes the sort fail |
| Divergences.OnePass | src/mate_structure/sweetpea/builder/experimental_design.py:24-29 | when one pass takes every entry, the result is declaration order |
| BuilderDesign.Insert | src/mate_structure/sweetpea/builder/experimental_design.py:74 | storing under an existing key replaces that entry in place; a new key is appended |
| BuilderDesign.File | src/mate_structure/sweetpea/builder/experimental_design.py:71-74 | filing succeeds exactly when every factor built, and keys stay distinct |
| BuilderDesign.FileFirstFailure | src/mate_structure/sweetpea/builder/experimental_design.py:72-73 | a failure is the error of the first factor that did not build |
| BuilderDesign.FileKeys | src/mate_structure/sweetpea/builder/experimental_design.py:71-74 | the stored keys are the declared names without repeats, in order of first appearance |
| BuilderDesign.FileLastWins | src/mate_structure/sweetpea/builder/experimental_design.py:71-74 | each stored entry is the last one filed under its key |
| BuilderDesign.BuildAll | src/mate_structure/sweetpea/builder/experimental_design.py:71-74 | building every factor succeeds exactly when each factor builds, and keys stay distinct |
| BuilderDesign.BuildAllFirstFailure | src/mate_structure/sweetpea/builder/experimental_design.py:72-73 | a failure is the first failing factor's error |
| BuilderDesign.BuildAllKeys | src/mate_structure/sweetpea/builder/experimental_design.py:71-74 | the built table is keyed by the factor names, de-duplicated in first-appearance order |
| BuilderDesign.BuildAllLastWins | src/mate_structure/sweetpea/builder/experimental_design.py:72-74 | for a repeated factor name only the last declaration is kept |
| BuilderDesign.CrossingToCode | src/mate_structure/sweetpea/builder/experimental_design.py:36-52 | the output is nested exactly when the crossing is; each name is its sanitised identifier in the same position |
| BuilderDesign.CrossingCodeIdentifiers | src/mate_structure/sweetpea/builder/experimental_design.py:42-52 | no identifier in the crossing code contains a space or a hyphen |
| BuilderDesign.Emit | src/mate_structure/sweetpea/builder/experimental_design.py:77-103 | one declaration per ordered name, each the built code for that name; the design list is the ordered names sanitised; the block is `CrossBlock` exactly for a flat crossing, and tabulate is emitted exactly then |
| BuilderDesign.Assemble | src/mate_structure/sweetpea/builder/experimental_design.py:77-103 | succeeds exactly when the pass sort does; the declarations then follow exactly the pass sort's order, and a failure is the pass sort's error, naming the largest blocking set |
| BuilderDesign.ExperimentalDesignBuilder | src/mate_structure/sweetpea/builder/experimental_design.py:56-117 | missing or empty factors fail first, then a missing or empty crossing, then the first factor that does not build, then a cycle naming the largest blocking set; a success has declarations in exactly the pass sort's order, the matching design list, the crossing code, and the block and tabulate choice of the crossing's shape |
| ConvertOrder.WindowNotRegular | src/mate_structure/sweetpea/utils/convert/__init__.py:12-16 | a factor classified as a window has at least one expression, so it is not regular |
| ConvertOrder.ExprBases | src/mate_structure/sweetpea/utils/convert/__init__.py:31-34 | without `[-` the names are the within scan; with it, the window scan, which fails exactly when no bracketed integer is negative; names are distinct and never keywords |
| ConvertOrder.LevelsDeps | src/mate_structure/sweetpea/utils/convert/__init__.py:27-35 | the dependencies are exactly the declared names, other than the factor itself, that some level expression mentions |
| ConvertOrder.AllDeps | src/mate_structure/sweetpea/utils/convert/__init__.py:22-35 | there is one entry per declared name, and no entry contains undeclared names or its own name |
| ConvertOrder.AllDepsUnion | src/mate_structure/sweetpea/utils/convert/__init__.py:25-35 | a name's dependency set is the union over every declaration under that name |
| ConvertOrder.FactorGraph | src/mate_structure/sweetpea/utils/convert/__init__.py:22-35 | the graph lists the declared names once each, in first-appearance order, with no self-edges and no edges to undeclared names |
| ConvertOrder.RoundParts | src/mate_structure/sweetpea/utils/convert/__init__.py:42-49 | a round takes exactly the waiting entries whose dependencies are resolved and leaves the rest |
| ConvertOrder.RoundKeepsOrder | src/mate_structure/sweetpea/utils/convert/__init__.py:42-49 | the ready entries keep their declaration order |
| ConvertOrder.SortNames | src/mate_structure/sweetpea/utils/convert/__init__.py:37-49 | a success is a topological order that starts with the dependency-free names; a failure is a derived-cycle error naming the waiting names, which form a blocking set that contains every other blocking set |
| ConvertOrder.SortNamesComplete | src/mate_structure/sweetpea/utils/convert/__init__.py:37-49 | the round sort succeeds exactly when some topological order exists |
| ConvertOrder.NoDepsFirst | src/mate_structure/sweetpea/utils/convert/__init__.py:37-38 | the order begins with exactly the factors that have no dependencies, in declaration order |
| ConvertOrder.InsertMissingNoop | src/mate_structure/sweetpea/utils/convert/__init__.py:51-53 | when the order already holds every name, the insert-missing step changes nothing |
| ConvertOrder.LastNamed | src/mate_structure/sweetpea/utils/convert/__init__.py:22 | the factor found for a name is its last declaration |
| ConvertOrder.TopoSortFactors | src/mate_structure/sweetpea/utils/convert/__init__.py:21-54 | succeeds exactly when the round sort of the filtered graph does; the factors then follow exactly that order, each being the last declaration of its name; a failure names the largest blocking set |
| ConvertOrder.SortedAreKeys | src/mate_structure/sweetpea/utils/convert/__init__.py:51-54 | a sorted order contains every declared name and nothing else |
| ConvertTokens.TokenAt | src/mate_structure/sweetpea/utils/convert/__init__.py:59 | a token found at a position is shaped like one and ends inside the text; every match of the token pattern there (a whole name, the whitespace run after it, `[`, a signed integer, `]`) is exactly the token found, with the whole match as its text, group 1 as its base and the integer value of group 2 as its offset, so where nothing is found the pattern does not match |
| ConvertTokens.TokenAtMatches | src/mate_structure/sweetpea/utils/convert/__init__.py:91-92 | the token found at a position is such a match: its text is the matched slice, its base the name and its offset the value of the bracketed integer |
| Lexer.BracketAt | src/mate_structure/sweetpea/utils/convert/__init__.py:59 | `\[(-?\d+)\]` read at a position: a result is a `[`, a signed integer text whose `int` value is the result's value, and a `]` ending at the result's end; any such bracketed integer there is the result |
| Lexer.SignedIntExact | src/mate_structure/sweetpea/utils/convert/__init__.py:92 | a `-?\d+` text closed by `]` is read as its `int` value, ending after the `]` |
| ConvertTokens.BareTokens | src/mate_structure/sweetpea/utils/convert/__init__.py:97-100 | bare tokens have offset 0 and the name as their text; their names are the scanned identifiers minus keywords and already indexed names, with repeats kept |
| ConvertTokens.InsertByLengthSorted | src/mate_structure/sweetpea/utils/convert/__init__.py:103 | inserting into a longest-first list keeps it longest-first |
| ConvertTokens.SortByLengthStable | src/mate_structure/sweetpea/utils/convert/__init__.py:103 | the sort puts longer texts first and keeps the original order among texts of equal length |
| ConvertTokens.CompileTokens | src/mate_structure/sweetpea/utils/convert/__init__.py:68-104 | the tokens are a rearrangement of every indexed occurrence together with every bare occurrence that survives the filters, and no token's text is empty |
| ConvertExamples.PreviousAndCurrentTokens | src/mate_structure/sweetpea/utils/convert/__init__.py:77-78 | `color[-1] and color[0]` compiles to `color[-1]` at offset -1 then `color[0]` at offset 0 |
| ConvertExamples.LiteralTokens | src/mate_structure/sweetpea/utils/convert/__init__.py:80-81 | `'red' == word[-1]` compiles to the single token `word[-1]`; the quoted `red` is not a reference |
| ConvertExamples.LongerFirst | src/mate_structure/sweetpea/utils/convert/__init__.py:103 | of two tokens, the longer is placed first |
| ConvertTokens.Literal | src/mate_structure/sweetpea/utils/convert/__init__.py:124 | a string cell is written quoted around its text; a number is written as its decimal digits, with no leading zero and a leading minus when negative |
| ConvertTokens.ReplaceAbsent | src/mate_structure/sweetpea/utils/convert/__init__.py:125 | replacing a text that does not occur leaves the string unchanged |
| ConvertTokens.ReplaceFirst | src/mate_structure/sweetpea/utils/convert/__init__.py:125 | at the first occurrence of the pattern, the text before it is kept, the replacement follows, and replacing resumes after the occurrence |
| ConvertTokens.ReplaceSelf | src/mate_structure/sweetpea/utils/convert/__init__.py:125 | replacing a text by itself leaves the string unchanged |
| ConvertTokens.Substitute | src/mate_structure/sweetpea/utils/convert/__init__.py:119-125 | substitution fails only on a missing column, naming it; when every token's column exists it succeeds, with a text exactly when every token's row lies inside the table |
| ConvertTokens.SubstituteText | src/mate_structure/sweetpea/utils/convert/__init__.py:119-125 | with every token inside the table and every column present, the text is the expression with each token's text replaced by its cell's literal, one token after another in compiled order |
| ConvertTokens.SubstituteAnyOutOfRange | src/mate_structure/sweetpea/utils/convert/__init__.py:119-122 | if any token points outside the table, no substituted expression is produced |
| ConvertTokens.EvaluateExpr | src/mate_structure/sweetpea/utils/convert/__init__.py:106-131 | tokens are checked in compiled order: the first one out of range gives false (the source returns `None`, which its only caller treats as false), and the first one whose column is missing fails with that name; otherwise the result is true exactly when the evaluator returns true on the substituted text, and an evaluator exception gives false |
| ValueOrder.StrLeIsLex | src/mate_structure/sweetpea/utils/convert/__init__.py:163-164 | string comparison is the textbook lexicographic order |
| ValueOrder.StrLeTotal | src/mate_structure/sweetpea/utils/convert/__init__.py:163-164 | any two strings are comparable |
| ValueOrder.StrLeAntisymmetric | src/mate_structure/sweetpea/utils/convert/__init__.py:163-164 | strings that compare both ways are equal |
| ValueOrder.StrLeTransitive | src/mate_structure/sweetpea/utils/convert/__init__.py:163-164 | string comparison is transitive |
| ValueOrder.SortSorted | src/mate_structure/sweetpea/utils/convert/__init__.py:163-164 | sorting values of one kind gives a sorted result |
| ValueOrder.SortedUnique | src/mate_structure/sweetpea/utils/convert/__init__.py:163-164 | two sorted rearrangements of the same values of one kind are equal |
| ValueOrder.PySorted | src/mate_structure/sweetpea/utils/convert/__init__.py:163-164 | sorting succeeds exactly when there are at most one value or all values are of one orderable kind, giving a sorted rearrangement; otherwise it fails as unorderable |
| ValueOrder.ZipMapAt | src/mate_structure/sweetpea/utils/convert/__init__.py:163-164 | pairing two lists maps each distinct source element to the target at its position |
| Convert.AutoMap | src/mate_structure/sweetpea/utils/convert/__init__.py:162-166 | when the observed and declared sets differ in content but not in size the column is remapped, succeeding exactly when the observed values can be sorted, with image exactly the declared names; otherwise the column is unchanged |
| Convert.AutoMapRank | src/mate_structure/sweetpea/utils/convert/__init__.py:163-165 | the k-th smallest observed value becomes the k-th smallest declared name |
| Convert.SortedArrangements | src/mate_structure/sweetpea/utils/convert/__init__.py:163-164 | any sorted arrangement of the observed and declared values is the one the remap uses |
| Convert.CheckStatic | src/mate_structure/sweetpea/utils/convert/__init__.py:149-170 | a missing column fails with its name; a success changes only that column, whose values then are exactly the level names; a failure is an unorderable remap or a mismatch in both count and content; a column already matching with no explicit map is left unchanged |
| Convert.ExplicitMapApplied | src/mate_structure/sweetpea/utils/convert/__init__.py:157-159 | when the explicit map alone makes the column match, the result is the mapped column and nothing else changes |
| Convert.AutoMapMismatch | src/mate_structure/sweetpea/utils/convert/__init__.py:162-170 | when the remap still leaves a mismatch, the column was not remapped and differs from the declared names in both count and content |
| Convert.CheckStatics | src/mate_structure/sweetpea/utils/convert/__init__.py:148-170 | checking every static factor changes only static factors' columns |
| Convert.CheckStaticsPresent | src/mate_structure/sweetpea/utils/convert/__init__.py:151-152 | a successful check means every static factor's column exists |
| Convert.CheckStaticsConform | src/mate_structure/sweetpea/utils/convert/__init__.py:168-170 | after a successful check every static column holds exactly its factor's level names |
| Convert.AddColumn | src/mate_structure/sweetpea/utils/convert/__init__.py:175 | the new column is appended last and is all null; the rest is unchanged |
| Convert.AddDerived | src/mate_structure/sweetpea/utils/convert/__init__.py:173-175 | existing columns and their order are kept, and every added column is all null |
| Convert.AddDerivedCoversAll | src/mate_structure/sweetpea/utils/convert/__init__.py:173-175 | afterwards every derived factor has a column |
| Convert.LabelRow | src/mate_structure/sweetpea/utils/convert/__init__.py:186-195 | the label is null exactly when no level's predicate holds, and otherwise is the name of the first level whose predicate holds |
| Convert.LabelRowFailure | src/mate_structure/sweetpea/utils/convert/__init__.py:187-190 | a failure comes from the first level reached that has no expression or whose evaluation fails |
| Convert.LabelIsLevel | src/mate_structure/sweetpea/utils/convert/__init__.py:186-195 | every label is null or the name of one of the factor's levels |
| Convert.LabelColumnRow | src/mate_structure/sweetpea/utils/convert/__init__.py:184-198 | the i-th cell of a labelled column is the label of row i |
| Convert.LabelColumnFailure | src/mate_structure/sweetpea/utils/convert/__init__.py:185-195 | a failed column fails with the error of its first failing row, and every earlier row succeeded |
| Convert.LabelColumnSuccess | src/mate_structure/sweetpea/utils/convert/__init__.py:185-195 | labelling a column succeeds when every row does |
| Convert.LabelFactor | src/mate_structure/sweetpea/utils/convert/__init__.py:184-198 | only the factor's column changes, and its length is the row count |
| Convert.LabelFactorRow | src/mate_structure/sweetpea/utils/convert/__init__.py:184-198 | each cell of the relabelled column is the label of its row |
| Convert.LabelAll | src/mate_structure/sweetpea/utils/convert/__init__.py:181-198 | labelling every derived factor changes only derived factors' columns |
| Convert.LabelAllLabels | src/mate_structure/sweetpea/utils/convert/__init__.py:181-198 | every cell of every derived column is null or one of that factor's level names |
| Convert.LabelAllKeepsRegular | src/mate_structure/sweetpea/utils/convert/__init__.py:181-183 | a column that is not a derived factor's is not touched by labelling |
| Convert.Project | src/mate_structure/sweetpea/utils/convert/__init__.py:201-202 | the projection has exactly the given columns in order, with their cells unchanged |
| Convert.OrderedNames | src/mate_structure/sweetpea/utils/convert/__init__.py:144 | the sorted factors carry each declared name exactly once |
| Convert.ToCanonical | src/mate_structure/sweetpea/utils/convert/__init__.py:136-203 | a sort failure is passed on; a success keeps the row count; with `only_factors` the columns are exactly the factor names in sorted order, and otherwise the input's columns stay first and non-factor columns are untouched |
| Convert.ToCanonicalColumns | src/mate_structure/sweetpea/utils/convert/__init__.py:148-202 | in a successful result every factor has a column; a static column holds exactly its level names, and every derived cell is null or one of its level names |
| SchemaExpr.HasIndexingChars | src/mate_structure/sweetpea/schema/expr.py:8-11 | the indexing test holds exactly when there is a `[`, then a character other than `]`, then a later `]` |
| SchemaExpr.RulesPartition | src/mate_structure/sweetpea/schema/expr.py:31-62 | no value satisfies both rules, and a value satisfies one exactly when it is a string with a non-whitespace character |
| SchemaExpr.BlankRejected | src/mate_structure/sweetpea/schema/expr.py:31-62 | non-strings and empty or whitespace-only strings fail both rules |
| SchemaExpr.BracketedValid | src/mate_structure/sweetpea/schema/expr.py:57-62 | a string starting with a non-space and containing `[x]` for some `x` other than `]` passes the window rule and fails the within rule |
| SchemaExpr.WithinRuleExample | src/mate_structure/sweetpea/schema/expr.py:27-28 | the within rule's own example satisfies it and not the window rule |
| SchemaExpr.WindowRuleExample | src/mate_structure/sweetpea/schema/expr.py:53-54 | the window rule's own example satisfies it and not the within rule |
| SchemaDesign.CrossingDeclaredIff | src/mate_structure/sweetpea/schema/experimental_design.py:72-76 | the constraint holds exactly when every name of every block is a declared factor name |
| SchemaDesign.EmptyBlocksAccepted | src/mate_structure/sweetpea/schema/experimental_design.py:76 | an empty crossing, or one with only empty blocks, is accepted |
| SchemaDesign.NamesOnly | src/mate_structure/sweetpea/schema/experimental_design.py:75 | only the set of factor names matters, not their order or repeats |
| SchemaDesign.MoreFactorsAccepted | src/mate_structure/sweetpea/schema/experimental_design.py:75-76 | declaring more factors never turns acceptance into rejection |
| SchemaDesign.UndeclaredRejected | src/mate_structure/sweetpea/schema/experimental_design.py:76 | one undeclared name anywhere in the crossing is rejected |
| SchemaDesign.ExampleCrossingAccepted | src/mate_structure/sweetpea/schema/experimental_design.py:26-69 | the schema's example design satisfies the constraint |
| Divergences.ReferenceSetsAgree | src/mate_structure/sweetpea/utils/convert/__init__.py:68-104 | for a bracket-free expression with no identifier directly after a digit, the within scan, the window scan, the converter's dependency scan and the compiled tokens all give the same names |
| Divergences.ExponentRead | src/mate_structure/sweetpea/builder/expr.py:30 | `x>1e5` mentions `x` and `e5` to the builder but only `x` to the token compiler |
| Divergences.CurrentOnlyIndexing | src/mate_structure/sweetpea/builder/level.py:63-83 | `color[0]==word[0]` passes the window rule and fails the within rule; it fails to build as a level with no negative offset; and the converter does not treat it as a window factor |
| Divergences.SortsDiffer | src/mate_structure/sweetpea/builder/experimental_design.py:14-33 | on `a:{}, b:{a}, c:{}` the builder's sort gives `a, b, c` and the converter's gives `a, c, b` |

## Left out

- **pandas.** The trial table is a `Table` with rows 0 to height-1, standing for
  the default `RangeIndex`. Other index labels, the dtype machinery and
  `iterrows` are not modelled. NaN and `None` are both the single `Null` value.
  So a NaN cell, which the source substitutes as `nan`, is substituted here as
  `None`: `x[0] != 'red'` reaches the evaluator as `None != 'red'` rather than
  `nan != 'red'`.
  A NaN among numbers would sort in Python, but here it is unorderable.
- **`eval`.** Evaluating the substituted text is an oracle parameter
  (`string -> Option<bool>`); no Python semantics are modelled. The `repr` of
  cell values is modelled as plain quoting of strings and decimal digits of
  integers. Escaping inside `repr`, and floats, are not modelled.
- **The evaluator's table guard.** The labelling stages evaluate through a
  wrapper that answers false when the table is not well-formed. The tables it
  sees there are always well-formed, so the guard never decides anything.
- **Malformed factor dictionaries in the converter.** The converter's input is
  assumed to have a name and a level list for every factor. The source raises a
  `KeyError` on such dictionaries, which is not modelled.
- **An `expr` key whose value is `None`.** The level dispatcher tests whether
  the key is present, so the source would pass `None` to the regex search and
  raise a `TypeError`. The model has no present-but-`None` expression and
  treats such a level as having no expression.
- **Mixed crossings.** A crossing is either all names (`Flat`) or all lists of
  names (`Nested`). The builder decides the shape from the first element alone
  (builder/experimental_design.py lines 45 and 85), so the source also accepts a
  crossing that mixes the two. `[["a"], "bc"]` gives the nested code
  `[[a], [b, c]]` because it iterates the string's characters. It also gives a
  `MultiCrossBlock`. `["a", ["b"]]` makes `_py` call `.replace` on a list, which
  raises `AttributeError`. Neither case is modelled. The schema types the crossing as
  a list of lists of names.
- **Emitted text.** The builder's header, footer, import line and whitespace are
  not modelled. `minimum_trials` and the sampling-strategy name are passed
  through unchanged into the `Program` record.
- **Character classes.** `\w`, `\d` and `\b` are ASCII only. Python's regex
  module also matches other Unicode letters and digits. `\s` and `str.strip`
  follow `str.isspace` exactly.
- **Other modules are not part of this model:** the report module, the wrappers
  over the external SweetPea library, and the prompt and schema text classes.
  They are aggregation, adapters or declarations with no logic of their own.

=== FILE: builder_design.dfy ===
/** The forward direction's design builder (builder/experimental_design.py):
    builds every factor, orders the factors so that each follows the
    factors its derived levels read, and assembles the program: the factor
    declarations, the design list, the crossing and the block. */
module BuilderDesign {
  import opened Wrappers
  import opened Seqs
  import opened DataModel
  import opened Graph
  import opened BuilderFactor

  // ------------------------------------------------------------------
  // _topo_order
  // ------------------------------------------------------------------

  /** One `for` pass of `_topo_order` over the remaining entries: an entry is
      taken when its dependencies are resolved, counting the entries taken
      earlier in the same pass. Returns the taken and the left entries, each
      in their original order. */
  function Pass(rem: seq<Entry>, res: set<string>): (r: (seq<Entry>, seq<Entry>))
    ensures |r.0| + |r.1| == |rem|
    ensures r.0 == [] ==> r.1 == rem
  {
    if |rem| == 0 then ([], [])
    else
      var init, e := rem[..|rem| - 1], rem[|rem| - 1];
      var (t, l) := Pass(init, res);
      assert rem == init + [e];
      if e.deps <= res + Elems(Names(t)) then (t + [e], l) else (t, l + [e])
  }

  /** The pass splits the remaining entries between taken and left. */
  lemma {:induction false} PassParts(rem: seq<Entry>, res: set<string>)
    ensures forall e :: e in rem <==> e in Pass(rem, res).0 || e in Pass(rem, res).1
  {
    if |rem| > 0 {
      var init, e := rem[..|rem| - 1], rem[|rem| - 1];
      assert rem == init + [e];
      PassParts(init, res);
    }
  }

  /** Every taken entry depends only on resolved names and on names taken
      before it in the same pass. */
  lemma {:induction false} PassTakenReady(rem: seq<Entry>, res: set<string>, j: nat)
    requires j < |Pass(rem, res).0|
    ensures Pass(rem, res).0[j].deps <= res + Elems(Names(Pass(rem, res).0[..j]))
  {
    var init, e := rem[..|rem| - 1], rem[|rem| - 1];
    assert rem == init + [e];
    var t := Pass(init, res).0;
    if e.deps <= res + Elems(Names(t)) {
      var t' := t + [e];
      assert Pass(rem, res).0 == t';
      if j < |t| {
        PassTakenReady(init, res, j);
        assert t'[..j] == t[..j] && t'[j] == t[j];
      } else {
        assert t'[..j] == t;
      }
    } else {
      assert Pass(rem, res).0 == t;
      PassTakenReady(init, res, j);
    }
  }

  /** A pass that takes nothing found every remaining entry blocked. */
  lemma {:induction false} PassStuck(rem: seq<Entry>, res: set<string>)
    requires Pass(rem, res).0 == []
    ensures forall k :: 0 <= k < |rem| ==> !(rem[k].deps <= res)
  {
    if |rem| > 0 {
      var init, e := rem[..|rem| - 1], rem[|rem| - 1];
      assert rem == init + [e];
      PassStuck(init, res);
      assert Names(Pass(init, res).0) == [];
      assert forall k :: 0 <= k < |init| ==> rem[k] == init[k];
    }
  }

  /** Taken and left entries each keep their order in the remaining list. */
  lemma {:induction false} PassKeepsOrder(rem: seq<Entry>, res: set<string>)
    requires DistinctNames(rem)
    ensures InFirstOccurrenceOrder(Pass(rem, res).0, rem)
    ensures InFirstOccurrenceOrder(Pass(rem, res).1, rem)
  {
    if |rem| > 0 {
      var init, e := rem[..|rem| - 1], rem[|rem| - 1];
      assert rem == init + [e];
      DistinctNamesSnoc(init, e);
      PassKeepsOrder(init, res);
      var (t, l) := Pass(init, res);
      assert e !in init;
      OrderSnoc(t, init, e);
      OrderSnoc(l, init, e);
    }
  }

  /** The entry at position `k` is taken exactly when its dependencies are
      resolved or taken earlier in the same pass, and left otherwise: the
      pass visits the entries in order and sees the names it has taken so far. */
  lemma {:induction false} PassAt(rem: seq<Entry>, res: set<string>, k: nat)
    requires DistinctNames(rem) && k < |rem|
    ensures rem[k] in Pass(rem, res).0 <==> rem[k].deps <= res + Elems(Names(Pass(rem[..k], res).0))
    ensures rem[k] in Pass(rem, res).1 <==> !(rem[k].deps <= res + Elems(Names(Pass(rem[..k], res).0)))
    decreases |rem|
  {
    var init, e := rem[..|rem| - 1], rem[|rem| - 1];
    assert rem == init + [e];
    DistinctNamesSnoc(init, e);
    assert e !in init;
    if k == |rem| - 1 {
      assert rem[..k] == init && rem[k] == e;
      PassAtLast(init, e, res);
    } else {
      assert rem[k] == init[k] && rem[..k] == init[..k];
      PassAt(init, res, k);
      PassAtEarlier(init, e, res, rem[k]);
    }
  }

  /** The last entry is judged against the names taken before it. */
  lemma PassAtLast(init: seq<Entry>, e: Entry, res: set<string>)
    requires e !in init
    ensures e in Pass(init + [e], res).0 <==> e.deps <= res + Elems(Names(Pass(init, res).0))
    ensures e in Pass(init + [e], res).1 <==> !(e.deps <= res + Elems(Names(Pass(init, res).0)))
  {
    var rem := init + [e];
    assert rem[..|rem| - 1] == init && rem[|rem| - 1] == e;
    PassParts(init, res);
  }

  /** Visiting a new last entry does not move the earlier ones. */
  lemma PassAtEarlier(init: seq<Entry>, e: Entry, res: set<string>, x: Entry)
    requires x != e
    ensures x in Pass(init + [e], res).0 <==> x in Pass(init, res).0
    ensures x in Pass(init + [e], res).1 <==> x in Pass(init, res).1
  {
    var rem := init + [e];
    assert rem[..|rem| - 1] == init && rem[|rem| - 1] == e;
  }

  /** Taken and left entries keep the names distinct and apart. */
  lemma {:induction false} PassDistinct(rem: seq<Entry>, res: set<string>)
    requires DistinctNames(rem)
    ensures var (t, l) := Pass(rem, res);
      DistinctNames(t) && DistinctNames(l) && NameSet(t) !! NameSet(l) && NameSet(t) + NameSet(l) == NameSet(rem)
  {
    if |rem| > 0 {
      var init, e := rem[..|rem| - 1], rem[|rem| - 1];
      assert rem == init + [e];
      DistinctNamesSnoc(init, e);
      NameSetSnoc(init, e);
      PassDistinct(init, res);
      var (t, l) := Pass(init, res);
      DistinctNamesSnoc(t, e);
      DistinctNamesSnoc(l, e);
      NameSetSnoc(t, e);
      NameSetSnoc(l, e);
    }
  }

  /** Appending a pass's taken names to an order that already puts
      dependencies first keeps it so. */
  lemma ExtendDepsFirst(g: seq<Entry>, rem: seq<Entry>, o: seq<string>, t: seq<Entry>)
    requires DistinctNames(g)
    requires forall k :: 0 <= k < |rem| ==> rem[k] in g
    requires DepsFirst(o, g)
    requires t == Pass(rem, Elems(o)).0
    ensures DepsFirst(o + Names(t), g)
  {
    var o' := o + Names(t);
    forall k, i | 0 <= k < |g| && 0 <= i < |o'| && o'[i] == g[k].name
      ensures g[k].deps <= Elems(o'[..i])
    {
      if i < |o| {
        assert o'[..i] == o[..i] && o'[i] == o[i];
      } else {
        TakenDepsFirst(g, rem, o, k, i - |o|);
      }
    }
  }

  /** The step of `ExtendDepsFirst` for the `j`-th taken name. */
  lemma TakenDepsFirst(g: seq<Entry>, rem: seq<Entry>, o: seq<string>, k: nat, j: nat)
    requires DistinctNames(g)
    requires forall k :: 0 <= k < |rem| ==> rem[k] in g
    requires j < |Pass(rem, Elems(o)).0| && k < |g|
    requires g[k].name == Pass(rem, Elems(o)).0[j].name
    ensures g[k].deps <= Elems((o + Names(Pass(rem, Elems(o)).0))[..|o| + j])
  {
    var t := Pass(rem, Elems(o)).0;
    PassParts(rem, Elems(o));
    assert t[j] in rem;
    EntryByName(g, t[j], k);
    PassTakenReady(rem, Elems(o), j);
    assert (o + Names(t))[..|o| + j] == o + Names(t[..j]);
    ElemsConcat(o, Names(t[..j]));
  }

  /** The `while remaining` loop of `_topo_order`: `ordered` holds the names
      resolved so far, `rem` the remaining entries in insertion order. Each
      round runs one pass; a pass that takes nothing fails naming what
      remains. */
  function TopoLoop(g: seq<Entry>, rem: seq<Entry>, ordered: seq<string>): (r: Result<seq<string>, Error>)
    requires DistinctNames(g) && DistinctNames(rem) && Distinct(ordered)
    requires forall k :: 0 <= k < |rem| ==> rem[k] in g
    requires Elems(ordered) !! NameSet(rem) && Elems(ordered) + NameSet(rem) == NameSet(g)
    requires DepsFirst(ordered, g)
    ensures r.Success? ==> IsTopoOrder(r.value, g) && |ordered| <= |r.value| && r.value[..|ordered|] == ordered
    ensures r.Failure? ==> r.error.CyclicFactors? && Stuck(g, Elems(r.error.names))
    ensures r.Failure? ==> forall s :: Stuck(g, s) ==> s <= Elems(r.error.names)
    decreases |rem|
  {
    if |rem| == 0 then
      assert NameSet(rem) == {};
      Success(ordered)
    else
      var (t, l) := Pass(rem, Elems(ordered));
      if t == [] then
        PassStuckAll(g, rem, ordered);
        AllStuckWithinRemaining(g, rem, ordered);
        Failure(CyclicFactors(Names(rem)))
      else
        PassAdvances(g, rem, ordered);
        var r := TopoLoop(g, l, ordered + Names(t));
        assert r.Success? ==> r.value[..|ordered|] == (ordered + Names(t))[..|ordered|];
        r
  }

  /** A pass that takes nothing leaves the remaining names stuck. */
  lemma PassStuckAll(g: seq<Entry>, rem: seq<Entry>, ordered: seq<string>)
    requires DistinctNames(g) && |rem| > 0
    requires forall k :: 0 <= k < |rem| ==> rem[k] in g
    requires Elems(ordered) !! NameSet(rem) && Elems(ordered) + NameSet(rem) == NameSet(g)
    requires Pass(rem, Elems(ordered)).0 == []
    ensures Stuck(g, Elems(Names(rem)))
  {
    PassStuck(rem, Elems(ordered));
    NameSetIsElems(rem);
    StuckRemaining(g, rem, ordered);
  }

  /** A pass keeps the loop's invariant: the names ordered so far, extended
      by the taken ones, stay distinct, apart from the entries left, and after
      their dependencies. */
  lemma PassAdvances(g: seq<Entry>, rem: seq<Entry>, ordered: seq<string>)
    requires DistinctNames(g) && DistinctNames(rem) && Distinct(ordered)
    requires forall k :: 0 <= k < |rem| ==> rem[k] in g
    requires Elems(ordered) !! NameSet(rem) && Elems(ordered) + NameSet(rem) == NameSet(g)
    requires DepsFirst(ordered, g)
    ensures DistinctNames(Pass(rem, Elems(ordered)).1)
    ensures Distinct(ordered + Names(Pass(rem, Elems(ordered)).0))
    ensures forall k :: 0 <= k < |Pass(rem, Elems(ordered)).1| ==> Pass(rem, Elems(ordered)).1[k] in g
    ensures Elems(ordered + Names(Pass(rem, Elems(ordered)).0)) !! NameSet(Pass(rem, Elems(ordered)).1)
    ensures Elems(ordered + Names(Pass(rem, Elems(ordered)).0)) + NameSet(Pass(rem, Elems(ordered)).1) == NameSet(g)
    ensures DepsFirst(ordered + Names(Pass(rem, Elems(ordered)).0), g)
  {
    PassAdvancesNames(g, rem, ordered);
    var t := Pass(rem, Elems(ordered)).0;
    PassParts(rem, Elems(ordered));
    ExtendDepsFirst(g, rem, ordered, t);
  }

  lemma PassAdvancesNames(g: seq<Entry>, rem: seq<Entry>, ordered: seq<string>)
    requires DistinctNames(rem) && Distinct(ordered)
    requires forall k :: 0 <= k < |rem| ==> rem[k] in g
    requires Elems(ordered) !! NameSet(rem) && Elems(ordered) + NameSet(rem) == NameSet(g)
    ensures DistinctNames(Pass(rem, Elems(ordered)).1)
    ensures Distinct(ordered + Names(Pass(rem, Elems(ordered)).0))
    ensures forall k :: 0 <= k < |Pass(rem, Elems(ordered)).1| ==> Pass(rem, Elems(ordered)).1[k] in g
    ensures Elems(ordered + Names(Pass(rem, Elems(ordered)).0)) !! NameSet(Pass(rem, Elems(ordered)).1)
    ensures Elems(ordered + Names(Pass(rem, Elems(ordered)).0)) + NameSet(Pass(rem, Elems(ordered)).1) == NameSet(g)
  {
    var t, l := Pass(rem, Elems(ordered)).0, Pass(rem, Elems(ordered)).1;
    PassParts(rem, Elems(ordered));
    PassDistinct(rem, Elems(ordered));
    NameSetIsElems(t);
    DistinctConcat(ordered, Names(t));
    ElemsConcat(ordered, Names(t));
    assert forall k :: 0 <= k < |l| ==> l[k] in rem;
  }

  /** `_topo_order` over the built factors' (name, deps) entries in
      dictionary order. */
  function TopoOrder(g: seq<Entry>): (r: Result<seq<string>, Error>)
    requires DistinctNames(g)
    ensures r.Success? ==> IsTopoOrder(r.value, g)
    ensures r.Failure? ==> r.error.CyclicFactors? && Stuck(g, Elems(r.error.names))
    ensures r.Failure? ==> forall s :: Stuck(g, s) ==> s <= Elems(r.error.names)
  {
    NameSetIsElems(g);
    TopoLoop(g, g, [])
  }

  /** The sort succeeds exactly when the dependencies admit some order. */
  lemma TopoOrderComplete(g: seq<Entry>)
    requires DistinctNames(g)
    ensures TopoOrder(g).Success? <==> exists o :: IsTopoOrder(o, g)
  {
    var r := TopoOrder(g);
    if r.Failure? {
      forall o ensures !IsTopoOrder(o, g) {
        StuckNoOrder(g, Elems(r.error.names), o);
      }
    }
  }

  /** A dependency that is no declared name, the factor's own name
      included, admits no order, so `_topo_order` reports a cycle. */
  lemma UnresolvableDepFails(g: seq<Entry>, k: nat, x: string)
    requires DistinctNames(g) && k < |g| && x in g[k].deps
    requires x !in NameSet(g) || x == g[k].name
    ensures TopoOrder(g).Failure?
  {
    TopoOrderComplete(g);
    forall o | IsTopoOrder(o, g) ensures false {
      DepsOrdered(o, g, k, x);
    }
  }

  /** In a topological order each dependency is a declared name other than
      the dependent's own. */
  lemma DepsOrdered(o: seq<string>, g: seq<Entry>, k: nat, x: string)
    requires IsTopoOrder(o, g) && k < |g| && x in g[k].deps
    ensures x in NameSet(g) && x != g[k].name
  {
    assert g[k] in g;
    assert g[k].name in Elems(o);
    var i :| 0 <= i < |o| && o[i] == g[k].name;
    assert x in Elems(o[..i]);
    var j :| 0 <= j < i && o[..i][j] == x;
    assert o[j] in Elems(o);
  }

  // ------------------------------------------------------------------
  // The `built` dictionary
  // ------------------------------------------------------------------

  /** One entry of `built`: a factor name and what `factor_build` made of it. */
  datatype Built = Built(name: string, out: FactorOut)

  function Keys(d: seq<Built>): (r: seq<string>)
    ensures |r| == |d| && forall k :: 0 <= k < |d| ==> r[k] == d[k].name
  {
    seq(|d|, k requires 0 <= k < |d| => d[k].name)
  }

  /** `built[b.name] = b.out`: an existing key keeps its position and takes
      the new value; a new key goes last. */
  function Insert(d: seq<Built>, b: Built): (r: seq<Built>)
    requires Distinct(Keys(d))
    ensures Distinct(Keys(r))
    ensures b.name in Keys(d) ==> |r| == |d| && Keys(r) == Keys(d)
    ensures b.name !in Keys(d) ==> r == d + [b]
    ensures forall k :: 0 <= k < |d| ==> r[k] == if d[k].name == b.name then b else d[k]
  {
    if |d| == 0 then [b]
    else if d[0].name == b.name then
      InsertHere(d, b);
      [b] + d[1..]
    else
      KeysTail(d);
      var t := Insert(d[1..], b);
      InsertLater(d, b, t);
      [d[0]] + t
  }

  lemma KeysTail(d: seq<Built>)
    requires |d| > 0 && Distinct(Keys(d))
    ensures Keys(d[1..]) == Keys(d)[1..] && Distinct(Keys(d[1..]))
    ensures d[0].name !in Keys(d[1..])
  {
    assert Keys(d)[0] !in Keys(d)[1..];
  }

  /** Replacing the first entry, which has the key. */
  lemma InsertHere(d: seq<Built>, b: Built)
    requires |d| > 0 && Distinct(Keys(d)) && d[0].name == b.name
    ensures Keys([b] + d[1..]) == Keys(d)
    ensures forall k :: 0 <= k < |d| ==> ([b] + d[1..])[k] == if d[k].name == b.name then b else d[k]
  {
    KeysTail(d);
    forall k | 1 <= k < |d| ensures d[k].name != b.name {
      assert Keys(d)[k] == Keys(d[1..])[k - 1];
    }
  }

  /** Keeping the first entry, which has another key, in front of the
      insertion into the rest. */
  lemma InsertLater(d: seq<Built>, b: Built, t: seq<Built>)
    requires |d| > 0 && Distinct(Keys(d)) && d[0].name != b.name
    requires Distinct(Keys(t))
    requires b.name in Keys(d[1..]) ==> |t| == |d| - 1 && Keys(t) == Keys(d[1..])
    requires b.name !in Keys(d[1..]) ==> t == d[1..] + [b]
    requires forall k :: 0 <= k < |d| - 1 ==> t[k] == if d[1..][k].name == b.name then b else d[1..][k]
    ensures Distinct(Keys([d[0]] + t))
    ensures b.name in Keys(d) ==> |[d[0]] + t| == |d| && Keys([d[0]] + t) == Keys(d)
    ensures b.name !in Keys(d) ==> [d[0]] + t == d + [b]
    ensures forall k :: 0 <= k < |d| ==> ([d[0]] + t)[k] == if d[k].name == b.name then b else d[k]
  {
    KeysTail(d);
    InsertLaterKeys(d, b, t);
    InsertLaterEntries(d, b, t);
  }

  lemma InsertLaterKeys(d: seq<Built>, b: Built, t: seq<Built>)
    requires |d| > 0 && d[0].name != b.name
    requires Keys(d[1..]) == Keys(d)[1..] && Distinct(Keys(d[1..])) && d[0].name !in Keys(d[1..])
    requires Distinct(Keys(t))
    requires b.name in Keys(d[1..]) ==> |t| == |d| - 1 && Keys(t) == Keys(d[1..])
    requires b.name !in Keys(d[1..]) ==> t == d[1..] + [b]
    ensures Distinct(Keys([d[0]] + t))
    ensures b.name in Keys(d) ==> |[d[0]] + t| == |d| && Keys([d[0]] + t) == Keys(d)
    ensures b.name !in Keys(d) ==> [d[0]] + t == d + [b]
  {
    KeysCons(d[0], t);
    KeysCons(d[0], d[1..]);
    assert d == [d[0]] + d[1..];
    if b.name !in Keys(d[1..]) {
      KeysCons(b, []);
      assert t == d[1..] + [b];
      assert Keys(t) == Keys(d[1..]) + [b.name] by {
        assert Keys(d[1..] + [b])[..|d| - 1] == Keys(d[1..]);
      }
    }
    assert d[0].name !in Keys(t);
    DistinctCons(d[0].name, Keys(t));
  }

  lemma KeysCons(x: Built, t: seq<Built>)
    ensures Keys([x] + t) == [x.name] + Keys(t)
  {
  }

  lemma DistinctCons<T>(x: T, s: seq<T>)
    requires Distinct(s) && x !in s
    ensures Distinct([x] + s)
  {
    forall i, j | 0 <= i < j < |[x] + s| ensures ([x] + s)[i] != ([x] + s)[j] {
      if i == 0 {
        assert ([x] + s)[j] == s[j - 1];
      }
    }
  }

  lemma InsertLaterEntries(d: seq<Built>, b: Built, t: seq<Built>)
    requires |d| > 0 && |t| >= |d| - 1
    requires forall k :: 0 <= k < |d| - 1 ==> t[k] == if d[1..][k].name == b.name then b else d[1..][k]
    requires d[0].name != b.name
    ensures forall k :: 0 <= k < |d| ==> ([d[0]] + t)[k] == if d[k].name == b.name then b else d[k]
  {
    var r := [d[0]] + t;
    forall k | 1 <= k < |d| ensures r[k] == if d[k].name == b.name then b else d[k] {
      assert r[k] == t[k - 1] && d[k] == d[1..][k - 1];
    }
  }

  /** A factor after `factor_build`, with the key it is filed under. */
  datatype Outcome = Outcome(key: string, built: Result<FactorOut, Error>)

  function OutcomeKeys(os: seq<Outcome>): (r: seq<string>)
    ensures |r| == |os| && forall k :: 0 <= k < |os| ==> r[k] == os[k].key
  {
    seq(|os|, k requires 0 <= k < |os| => os[k].key)
  }

  /** The loop body `built[f["name"]] = factor_build(f)` over every factor,
      stopping at the first failure. */
  function File(os: seq<Outcome>): (r: Result<seq<Built>, Error>)
    ensures r.Success? <==> forall k :: 0 <= k < |os| ==> os[k].built.Success?
    ensures r.Success? ==> Distinct(Keys(r.value))
  {
    if |os| == 0 then Success([])
    else
      var init, o := os[..|os| - 1], os[|os| - 1];
      assert os == init + [o];
      var acc :- File(init);
      var out :- o.built;
      Success(Insert(acc, Built(o.key, out)))
  }

  lemma {:induction false} FileFirstFailure(os: seq<Outcome>)
    requires File(os).Failure?
    ensures exists i :: && 0 <= i < |os|
                        && (forall k :: 0 <= k < i ==> os[k].built.Success?)
                        && os[i].built == Failure(File(os).error)
  {
    var init, o := os[..|os| - 1], os[|os| - 1];
    FileFailureSnoc(os);
    if File(init).Failure? {
      FileFirstFailure(init);
      var i :| && 0 <= i < |init|
               && (forall k :: 0 <= k < i ==> init[k].built.Success?)
               && init[i].built == Failure(File(init).error);
      assert forall k :: 0 <= k <= i ==> os[k] == init[k];
    } else {
      assert forall k :: 0 <= k < |init| ==> os[k] == init[k];
    }
  }

  /** A failed filing failed either on the earlier outcomes or on the last one. */
  lemma FileFailureSnoc(os: seq<Outcome>)
    requires File(os).Failure?
    ensures |os| > 0
    ensures File(os[..|os| - 1]).Failure? ==> File(os).error == File(os[..|os| - 1]).error
    ensures File(os[..|os| - 1]).Success? ==> os[|os| - 1].built == Failure(File(os).error)
  {
  }

  lemma {:induction false} FileKeys(os: seq<Outcome>)
    requires File(os).Success?
    ensures Keys(File(os).value) == Dedup(OutcomeKeys(os))
  {
    if |os| > 0 {
      FileSnoc(os);
      FileKeys(os[..|os| - 1]);
      FileKeysStep(os);
    }
  }

  lemma FileKeysStep(os: seq<Outcome>)
    requires |os| > 0 && File(os).Success?
    requires File(os[..|os| - 1]).Success?
    requires Keys(File(os[..|os| - 1]).value) == Dedup(OutcomeKeys(os[..|os| - 1]))
    ensures Keys(File(os).value) == Dedup(OutcomeKeys(os))
  {
    var init, o := os[..|os| - 1], os[|os| - 1];
    FileSnoc(os);
    var acc := File(init).value;
    OutcomeKeysSnoc(os);
    DedupSnoc(OutcomeKeys(init), o.key);
    KeysInsert(acc, Built(o.key, o.built.value));
    assert o.key in Elems(Keys(acc)) <==> o.key in Keys(acc);
    assert o.key in Elems(OutcomeKeys(init)) <==> o.key in OutcomeKeys(init);
  }

  /** A successful filing is the filing of the earlier outcomes with the last
      one inserted. */
  lemma FileSnoc(os: seq<Outcome>)
    requires |os| > 0 && File(os).Success?
    ensures File(os[..|os| - 1]).Success? && os[|os| - 1].built.Success?
    ensures File(os).value == Insert(File(os[..|os| - 1]).value, Built(os[|os| - 1].key, os[|os| - 1].built.value))
  {
  }

  lemma OutcomeKeysSnoc(os: seq<Outcome>)
    requires |os| > 0
    ensures OutcomeKeys(os) == OutcomeKeys(os[..|os| - 1]) + [os[|os| - 1].key]
  {
  }

  lemma KeysInsert(d: seq<Built>, b: Built)
    requires Distinct(Keys(d))
    ensures Keys(Insert(d, b)) == if b.name in Keys(d) then Keys(d) else Keys(d) + [b.name]
  {
    if b.name !in Keys(d) {
      assert Keys(d + [b]) == Keys(d) + [b.name];
    }
  }

  /** The value filed under a key came from the last outcome with that key. */
  predicate FiledLast(os: seq<Outcome>, b: Built) {
    exists m :: && 0 <= m < |os|
                && os[m] == Outcome(b.name, Success(b.out))
                && forall m' :: m < m' < |os| ==> os[m'].key != b.name
  }

  lemma {:induction false} FileLastWins(os: seq<Outcome>)
    requires File(os).Success?
    ensures forall k :: 0 <= k < |File(os).value| ==> FiledLast(os, File(os).value[k])
  {
    if |os| > 0 {
      var init := os[..|os| - 1];
      FileSnoc(os);
      FileLastWins(init);
      var b := Built(os[|os| - 1].key, os[|os| - 1].built.value);
      var d := File(os).value;
      forall k | 0 <= k < |d| ensures FiledLast(os, d[k]) {
        if d[k] == b {
          assert os[|os| - 1] == Outcome(b.name, Success(b.out));
        } else {
          FiledLastKept(os, File(init).value, b, k);
        }
      }
    }
  }

  /** An entry the last insertion did not touch was filed last among the
      earlier outcomes, and no later outcome has its key. */
  lemma FiledLastKept(os: seq<Outcome>, acc: seq<Built>, b: Built, k: nat)
    requires |os| > 0 && Distinct(Keys(acc)) && b.name == os[|os| - 1].key
    requires forall j :: 0 <= j < |acc| ==> FiledLast(os[..|os| - 1], acc[j])
    requires k < |Insert(acc, b)| && Insert(acc, b)[k] != b
    ensures FiledLast(os, Insert(acc, b)[k])
  {
    InsertUntouched(acc, b, k);
    var a, init := acc[k], os[..|os| - 1];
    assert FiledLast(init, a);
    var m :| && 0 <= m < |init|
             && init[m] == Outcome(a.name, Success(a.out))
             && forall m' :: m < m' < |init| ==> init[m'].key != a.name;
    FiledLastSnoc(os, init, a, m);
  }

  /** An entry other than the inserted one is an earlier entry with another key. */
  lemma InsertUntouched(acc: seq<Built>, b: Built, k: nat)
    requires Distinct(Keys(acc))
    requires k < |Insert(acc, b)| && Insert(acc, b)[k] != b
    ensures k < |acc| && Insert(acc, b)[k] == acc[k] && acc[k].name != b.name
  {
  }

  /** An outcome filed last among the earlier outcomes stays filed last when
      the new outcome has another key. */
  lemma FiledLastSnoc(os: seq<Outcome>, init: seq<Outcome>, a: Built, m: nat)
    requires |os| > 0 && init == os[..|os| - 1] && os[|os| - 1].key != a.name
    requires m < |init| && init[m] == Outcome(a.name, Success(a.out))
    requires forall m' :: m < m' < |init| ==> init[m'].key != a.name
    ensures FiledLast(os, a)
  {
    assert os[m] == init[m];
    forall m' | m < m' < |os| ensures os[m'].key != a.name {
      if m' < |init| {
        assert os[m'] == init[m'];
      }
    }
  }

  /** The dictionary key each factor is filed under (`f["name"]`; a factor
      without a name fails before it is filed). */
  function FactorKeys(fs: seq<FactorSpec>): (r: seq<string>)
    ensures |r| == |fs| && forall k :: 0 <= k < |fs| ==> r[k] == fs[k].name.GetOr("")
  {
    seq(|fs|, k requires 0 <= k < |fs| => fs[k].name.GetOr(""))
  }

  function Outcomes(fs: seq<FactorSpec>): (r: seq<Outcome>)
    ensures |r| == |fs| && forall k :: 0 <= k < |fs| ==> r[k] == Outcome(fs[k].name.GetOr(""), FactorBuild(fs[k]))
  {
    seq(|fs|, k requires 0 <= k < |fs| => Outcome(fs[k].name.GetOr(""), FactorBuild(fs[k])))
  }

  /** The factor loop of `experimental_design_builder`: builds every factor
      in order and files it under its name; the first failure is raised. */
  function BuildAll(fs: seq<FactorSpec>): (r: Result<seq<Built>, Error>)
    ensures r.Success? <==> forall k :: 0 <= k < |fs| ==> FactorBuild(fs[k]).Success?
    ensures r.Success? ==> Distinct(Keys(r.value))
  {
    File(Outcomes(fs))
  }

  /** A failing factor list fails with the error of its first failing factor. */
  lemma BuildAllFirstFailure(fs: seq<FactorSpec>)
    requires BuildAll(fs).Failure?
    ensures exists i :: && 0 <= i < |fs|
                        && (forall k :: 0 <= k < i ==> FactorBuild(fs[k]).Success?)
                        && FactorBuild(fs[i]) == Failure(BuildAll(fs).error)
  {
    var os := Outcomes(fs);
    FileFirstFailure(os);
    var i :| && 0 <= i < |os|
             && (forall k :: 0 <= k < i ==> os[k].built.Success?)
             && os[i].built == Failure(File(os).error);
    assert forall k :: 0 <= k < i ==> FactorBuild(fs[k]).Success? by {
      forall k | 0 <= k < i ensures FactorBuild(fs[k]).Success? {
        assert os[k].built.Success?;
      }
    }
  }

  /** The keys are the factor names in order of first declaration. */
  lemma BuildAllKeys(fs: seq<FactorSpec>)
    requires BuildAll(fs).Success?
    ensures Keys(BuildAll(fs).value) == Dedup(FactorKeys(fs))
  {
    FileKeys(Outcomes(fs));
    assert OutcomeKeys(Outcomes(fs)) == FactorKeys(fs);
  }

  /** The factor that a key's value came from is the last declaration with
      that name: a repeated name keeps only its last declaration. */
  predicate LastDeclaration(fs: seq<FactorSpec>, b: Built) {
    exists m :: && 0 <= m < |fs|
                && fs[m].name == Some(b.name)
                && FactorBuild(fs[m]) == Success(b.out)
                && forall m' :: m < m' < |fs| ==> fs[m'].name != Some(b.name)
  }

  lemma BuildAllLastWins(fs: seq<FactorSpec>)
    requires BuildAll(fs).Success?
    ensures forall k :: 0 <= k < |BuildAll(fs).value| ==> LastDeclaration(fs, BuildAll(fs).value[k])
  {
    var d := File(Outcomes(fs)).value;
    FileLastWins(Outcomes(fs));
    forall k | 0 <= k < |d| ensures LastDeclaration(fs, d[k]) {
      FiledLastDeclaration(fs, d[k]);
    }
  }

  lemma FiledLastDeclaration(fs: seq<FactorSpec>, b: Built)
    requires FiledLast(Outcomes(fs), b)
    ensures LastDeclaration(fs, b)
  {
    var os := Outcomes(fs);
    var m :| && 0 <= m < |os|
             && os[m] == Outcome(b.name, Success(b.out))
             && forall m' :: m < m' < |os| ==> os[m'].key != b.name;
    assert FactorBuild(fs[m]) == Success(b.out);
    assert fs[m].name == Some(b.name);
    assert forall m' :: m < m' < |fs| ==> fs[m'].name != Some(b.name) by {
      forall m' | m < m' < |fs| ensures fs[m'].name != Some(b.name) {
        assert os[m'].key != b.name;
      }
    }
  }

  /** Each value is the code of a factor declared under its key. */
  lemma BuiltCodeNames(fs: seq<FactorSpec>)
    requires BuildAll(fs).Success?
    ensures forall k :: 0 <= k < |BuildAll(fs).value| ==> BuildAll(fs).value[k].out.code.name == BuildAll(fs).value[k].name
  {
    var d := BuildAll(fs).value;
    BuildAllLastWins(fs);
    forall k | 0 <= k < |d| ensures d[k].out.code.name == d[k].name {
      assert LastDeclaration(fs, d[k]);
      var m :| 0 <= m < |fs| && fs[m].name == Some(d[k].name) && FactorBuild(fs[m]) == Success(d[k].out);
    }
  }

  /** The dependency graph `_topo_order` sorts: each key with its deps. */
  function BuiltGraph(d: seq<Built>): (g: seq<Entry>)
    ensures |g| == |d| && forall k :: 0 <= k < |d| ==> g[k] == Entry(d[k].name, d[k].out.deps)
    ensures Names(g) == Keys(d)
  {
    seq(|d|, k requires 0 <= k < |d| => Entry(d[k].name, d[k].out.deps))
  }

  lemma BuiltGraphNames(d: seq<Built>)
    ensures Names(BuiltGraph(d)) == Keys(d)
  {
  }

  /** The position of a key. */
  function Find(d: seq<Built>, n: string): (k: nat)
    requires n in Keys(d)
    ensures k < |d| && d[k].name == n
  {
    if d[0].name == n then 0
    else
      assert Keys(d[1..]) == Keys(d)[1..];
      1 + Find(d[1..], n)
  }

  // ------------------------------------------------------------------
  // _crossing_to_code and the program
  // ------------------------------------------------------------------

  datatype CrossingCode = FlatCode(idents: seq<string>) | NestedCode(blocks: seq<seq<string>>)

  function PyAll(ns: seq<string>): (r: seq<string>)
    ensures |r| == |ns| && forall k :: 0 <= k < |ns| ==> r[k] == Py(ns[k])
  {
    seq(|ns|, k requires 0 <= k < |ns| => Py(ns[k]))
  }

  /** `_crossing_to_code`: keeps the crossing's shape and passes every name
      through `_py`. The source reads `crossing[0]`, so the crossing is not
      empty. */
  function CrossingToCode(c: Crossing): (r: CrossingCode)
    requires c.Flat? ==> c.names != []
    requires c.Nested? ==> c.blocks != []
    ensures r.NestedCode? <==> c.Nested?
    ensures c.Flat? ==> |r.idents| == |c.names| && forall k :: 0 <= k < |c.names| ==> r.idents[k] == Py(c.names[k])
    ensures c.Nested? ==>
              && |r.blocks| == |c.blocks|
              && forall k :: 0 <= k < |c.blocks| ==>
                   |r.blocks[k]| == |c.blocks[k]| && forall j :: 0 <= j < |c.blocks[k]| ==> r.blocks[k][j] == Py(c.blocks[k][j])
  {
    match c
    case Flat(ns) => FlatCode(PyAll(ns))
    case Nested(bs) => NestedCode(seq(|bs|, k requires 0 <= k < |bs| => PyAll(bs[k])))
  }

  /** Every identifier the crossing code mentions is free of spaces and hyphens. */
  lemma CrossingCodeIdentifiers(c: Crossing)
    requires c.Flat? ==> c.names != []
    requires c.Nested? ==> c.blocks != []
    ensures var r := CrossingToCode(c);
      && (r.FlatCode? ==> forall k :: 0 <= k < |r.idents| ==> ' ' !in r.idents[k] && '-' !in r.idents[k])
      && (r.NestedCode? ==> forall k, j :: 0 <= k < |r.blocks| && 0 <= j < |r.blocks[k]| ==>
            ' ' !in r.blocks[k][j] && '-' !in r.blocks[k][j])
  {
  }

  datatype Block = CrossBlock | MultiCrossBlock

  /** The structure of the emitted program: the factor declarations, the
      design list and the crossing in order, the `MinimumTrials` constraint,
      the sampling strategy, the block class and whether the trailing
      `tabulate_experiments` line is written. */
  datatype Program = Program(
    decls: seq<FactorCode>,
    design: seq<string>,
    crossing: CrossingCode,
    minimumTrials: int,
    strategy: string,
    block: Block,
    tabulate: bool)

  function DeclNames(p: Program): (r: seq<string>)
    ensures |r| == |p.decls| && forall k :: 0 <= k < |p.decls| ==> r[k] == p.decls[k].name
  {
    seq(|p.decls|, k requires 0 <= k < |p.decls| => p.decls[k].name)
  }

  function CrossingGiven(c: Option<Crossing>): bool {
    match c
    case None => false
    case Some(Flat(ns)) => ns != []
    case Some(Nested(bs)) => bs != []
  }

  /** The pieces of the program for a given factor order: the declarations
      and the design list follow the order, the block class follows the
      crossing's shape, and the tabulate line goes with `CrossBlock` only. */
  function Emit(built: seq<Built>, ordered: seq<string>, c: Crossing, minimumTrials: int, strategy: string): (p: Program)
    requires forall k :: 0 <= k < |ordered| ==> ordered[k] in Keys(built)
    requires CrossingGiven(Some(c))
    ensures |p.decls| == |ordered| && p.design == PyAll(ordered)
    ensures forall k :: 0 <= k < |p.decls| ==>
              exists j :: 0 <= j < |built| && built[j].name == ordered[k] && built[j].out.code == p.decls[k]
    ensures p.crossing == CrossingToCode(c)
    ensures p.block == CrossBlock <==> c.Flat?
    ensures p.tabulate <==> p.block == CrossBlock
    ensures p.minimumTrials == minimumTrials && p.strategy == strategy
  {
    var decls := seq(|ordered|, k requires 0 <= k < |ordered| => built[Find(built, ordered[k])].out.code);
    var block := if c.Flat? then CrossBlock else MultiCrossBlock;
    assert forall k :: 0 <= k < |ordered| ==>
             var j := Find(built, ordered[k]); built[j].name == ordered[k] && built[j].out.code == decls[k];
    Program(decls, PyAll(ordered), CrossingToCode(c), minimumTrials, strategy, block, block == CrossBlock)
  }

  /** The part of `experimental_design_builder` after every factor is built:
      order the factors, then emit the program in that order. */
  function Assemble(built: seq<Built>, c: Crossing, minimumTrials: int, strategy: string): (r: Result<Program, Error>)
    requires Distinct(Keys(built))
    requires forall k :: 0 <= k < |built| ==> built[k].out.code.name == built[k].name
    requires CrossingGiven(Some(c))
    ensures r.Success? <==> exists o :: IsTopoOrder(o, BuiltGraph(built))
    ensures r.Failure? ==> r.error.CyclicFactors? && Stuck(BuiltGraph(built), Elems(r.error.names))
    ensures r.Failure? ==> forall s :: Stuck(BuiltGraph(built), s) ==> s <= Elems(r.error.names)
    ensures r.Success? <==> TopoOrder(BuiltGraph(built)).Success?
    ensures r.Failure? ==> r == Failure(TopoOrder(BuiltGraph(built)).error)
    ensures r.Success? ==> DeclNames(r.value) == TopoOrder(BuiltGraph(built)).value
    ensures r.Success? ==>
              && IsTopoOrder(DeclNames(r.value), BuiltGraph(built))
              && (forall k :: 0 <= k < |r.value.decls| ==>
                    exists j :: 0 <= j < |built| && built[j].out.code == r.value.decls[k])
              && r.value.design == PyAll(DeclNames(r.value))
              && r.value.crossing == CrossingToCode(c)
              && (r.value.block == CrossBlock <==> c.Flat?)
              && (r.value.tabulate <==> r.value.block == CrossBlock)
              && r.value.minimumTrials == minimumTrials && r.value.strategy == strategy
  {
    var g := BuiltGraph(built);
    var o := TopoOrder(g);
    TopoOrderComplete(g);
    if o.Failure? then Failure(o.error)
    else
      OrderedAreKeys(built, o.value);
      var p := Emit(built, o.value, c, minimumTrials, strategy);
      assert DeclNames(p) == o.value;
      Success(p)
  }

  /** `experimental_design_builder`. */
  function ExperimentalDesignBuilder(d: DesignSpec, minimumTrials: int, strategy: string): (r: Result<Program, Error>)
    ensures d.factors.None? || d.factors.value == [] ==> r == Failure(FactorsMissing)
    ensures d.factors.Some? && d.factors.value != [] && !CrossingGiven(d.crossing) ==> r == Failure(CrossingMissing)
    ensures d.factors.Some? && d.factors.value != [] && CrossingGiven(d.crossing) && BuildAll(d.factors.value).Failure? ==>
              r == Failure(BuildAll(d.factors.value).error)
    ensures d.factors.Some? && d.factors.value != [] && CrossingGiven(d.crossing) && BuildAll(d.factors.value).Success? ==>
              var g := BuiltGraph(BuildAll(d.factors.value).value);
              && (r.Success? <==> exists o :: IsTopoOrder(o, g))
              && (r.Success? <==> TopoOrder(g).Success?)
              && (r.Success? ==> DeclNames(r.value) == TopoOrder(g).value)
              && (r.Failure? ==> r.error.CyclicFactors? && Stuck(g, Elems(r.error.names)))
              && (r.Failure? ==> forall s :: Stuck(g, s) ==> s <= Elems(r.error.names))
    ensures r.Success? ==>
              && d.factors.Some? && CrossingGiven(d.crossing) && BuildAll(d.factors.value).Success?
              && var built := BuildAll(d.factors.value).value;
                 && IsTopoOrder(DeclNames(r.value), BuiltGraph(built))
                 && (forall k :: 0 <= k < |r.value.decls| ==>
                       exists j :: 0 <= j < |built| && built[j].out.code == r.value.decls[k])
                 && r.value.design == PyAll(DeclNames(r.value))
                 && r.value.crossing == CrossingToCode(d.crossing.value)
                 && (r.value.block == CrossBlock <==> d.crossing.value.Flat?)
                 && (r.value.tabulate <==> r.value.block == CrossBlock)
                 && r.value.minimumTrials == minimumTrials && r.value.strategy == strategy
  {
    if d.factors.None? || d.factors.value == [] then Failure(FactorsMissing)
    else if !CrossingGiven(d.crossing) then Failure(CrossingMissing)
    else
      var b := BuildAll(d.factors.value);
      if b.Failure? then Failure(b.error)
      else
        BuiltCodeNames(d.factors.value);
        Assemble(b.value, d.crossing.value, minimumTrials, strategy)
  }

  lemma OrderedAreKeys(built: seq<Built>, ordered: seq<string>)
    requires IsTopoOrder(ordered, BuiltGraph(built))
    ensures forall k :: 0 <= k < |ordered| ==> ordered[k] in Keys(built)
  {
    var g := BuiltGraph(built);
    NameSetIsElems(g);
    BuiltGraphNames(built);
    forall k | 0 <= k < |ordered| ensures ordered[k] in Keys(built) {
      assert ordered[k] in Elems(ordered);
      assert ordered[k] in Elems(Keys(built));
    }
  }
}

=== FILE: builder_expr.dfy ===
/** The forward direction's expression scanners (builder/expr.py): which
    factor names a predicate mentions, and how many trials a window predicate
    spans. */
module BuilderExpr {
  import opened Wrappers
  import opened Seqs
  import opened Lexer
  import opened DataModel

  /** The predicate argument of a derived level as the builder writes it:
      `WithinTrial(lambda <params>: <body>, [<args>])` or
      `Window(lambda <params>: <body>, [<args>], <width>)`. */
  datatype Predicate =
    | WithinTrial(params: seq<string>, body: string, args: seq<string>)
    | Window(params: seq<string>, body: string, args: seq<string>, width: nat)

  /** What `build_within` / `build_window` return: the call, the referenced
      names and the width (0 for a within-trial predicate). */
  datatype Built = Built(call: Predicate, vars: seq<string>, width: nat)

  /** `_unique`: keeps the first occurrence of each element, in order. */
  method Unique(xs: seq<string>) returns (out: seq<string>)
    ensures Distinct(out)
    ensures Elems(out) == Elems(xs)
    ensures InFirstOccurrenceOrder(out, xs)
  {
    var seen: set<string> := {};
    out := [];
    for i := 0 to |xs|
      invariant seen == Elems(xs[..i])
      invariant out == Dedup(xs[..i])
    {
      UniqueStep(xs, i);
      if xs[i] !in seen {
        seen := seen + {xs[i]};
        out := out + [xs[i]];
      }
    }
    UniqueDone(xs, out);
  }

  lemma UniqueDone(xs: seq<string>, out: seq<string>)
    requires out == Dedup(xs[..|xs|])
    ensures Distinct(out) && Elems(out) == Elems(xs) && InFirstOccurrenceOrder(out, xs)
  {
    assert xs[..|xs|] == xs;
    DedupFirstOccurrence(xs, out);
  }

  lemma UniqueStep(xs: seq<string>, i: nat)
    requires i < |xs|
    ensures Elems(xs[..i + 1]) == Elems(xs[..i]) + {xs[i]}
    ensures xs[i] in Elems(xs[..i]) <==> xs[i] in xs[..i]
    ensures Dedup(xs[..i + 1]) == if xs[i] in xs[..i] then Dedup(xs[..i]) else Dedup(xs[..i]) + [xs[i]]
  {
    assert xs[..i + 1] == xs[..i] + [xs[i]];
    DedupSnoc(xs[..i], xs[i]);
    ElemsConcat(xs[..i], [xs[i]]);
  }

  /** `_vars_within`: the distinct identifiers outside string literals, in
      order of first occurrence, keywords removed. */
  function VarsWithin(expr: string): (r: seq<string>)
    ensures Distinct(r)
    ensures Elems(r) == Elems(Idents(StripStrings(expr))) - Keywords
    ensures forall k :: 0 <= k < |r| ==> IsIdentifier(r[k])
  {
    var ids := Idents(StripStrings(expr));
    WithoutDedupCommute(ids, Keywords);
    AllFrom(Without(Dedup(ids), Keywords), ids, IsIdentifier);
    Without(Dedup(ids), Keywords)
  }

  /** The order `_vars_within` promises: first occurrence among the
      non-keyword identifiers outside literals. */
  lemma VarsWithinFirstOccurrence(expr: string)
    ensures InFirstOccurrenceOrder(VarsWithin(expr), Without(Idents(StripStrings(expr)), Keywords))
  {
    var ids := Idents(StripStrings(expr));
    WithoutDedupFirstOccurrence(ids, Keywords, Without(ids, Keywords), VarsWithin(expr));
  }

  /** `_vars_window`: names written before a bracket first, then bare
      identifiers (at word boundaries), de-duplicated, keywords removed. */
  function VarsWindow(expr: string): (r: seq<string>)
    ensures Distinct(r)
    ensures Elems(r) == Elems(IndexedBases(StripStrings(expr))) + Elems(BoundedIdents(StripStrings(expr))) - Keywords
    ensures forall k :: 0 <= k < |r| ==> IsIdentifier(r[k])
  {
    var s := StripStrings(expr);
    var ids := IndexedBases(s) + BoundedIdents(s);
    ElemsConcat(IndexedBases(s), BoundedIdents(s));
    WithoutDedupCommute(ids, Keywords);
    assert forall k :: 0 <= k < |ids| ==> IsIdentifier(ids[k]);
    AllFrom(Without(Dedup(ids), Keywords), ids, IsIdentifier);
    Without(Dedup(ids), Keywords)
  }

  /** The order `_vars_window` promises: first occurrence among the
      non-keyword names of the bracket-preceded list followed by the bare list. */
  lemma VarsWindowFirstOccurrence(expr: string)
    ensures InFirstOccurrenceOrder(VarsWindow(expr),
              Without(IndexedBases(StripStrings(expr)) + BoundedIdents(StripStrings(expr)), Keywords))
  {
    var s := StripStrings(expr);
    var ids := IndexedBases(s) + BoundedIdents(s);
    WithoutDedupFirstOccurrence(ids, Keywords, Without(ids, Keywords), VarsWindow(expr));
  }

  /** Every name `_vars_window` lists after a bare-only name is bare-only too:
      the bracket-preceded names form a prefix. */
  lemma VarsWindowIndexedFirst(expr: string)
    ensures forall i, j :: 0 <= i < j < |VarsWindow(expr)| && VarsWindow(expr)[j] in IndexedBases(StripStrings(expr)) ==>
              VarsWindow(expr)[i] in IndexedBases(StripStrings(expr))
  {
    var s := StripStrings(expr);
    FirstPartFirst(IndexedBases(s), BoundedIdents(s), Keywords, VarsWindow(expr));
  }

  /** De-duplicating `a + b` (then filtering) lists the elements of `a` before
      the elements found only in `b`. */
  lemma FirstPartFirst<T>(a: seq<T>, b: seq<T>, bad: set<T>, r: seq<T>)
    requires r == Without(Dedup(a + b), bad)
    ensures forall i, j :: 0 <= i < j < |r| && r[j] in a ==> r[i] in a
  {
    var wa, wb := Without(a, bad), Without(b, bad);
    WithoutDedupCommute(a + b, bad);
    WithoutConcat(a, b, bad);
    assert r == Dedup(wa + wb);
    DedupPrefixFirst(wa, wb, r);
    forall i, j | 0 <= i < j < |r| && r[j] in a
      ensures r[i] in a
    {
      assert r[j] in Elems(r) && r[j] !in bad;
      assert r[j] in Elems(a);
      assert r[j] in Elems(wa);
      assert r[i] in Elems(wa);
    }
  }

  /** De-duplicating `a + b` lists the elements of `a` before the others. */
  lemma DedupPrefixFirst<T>(a: seq<T>, b: seq<T>, r: seq<T>)
    requires r == Dedup(a + b)
    ensures forall i, j :: 0 <= i < j < |r| && r[j] in a ==> r[i] in a
  {
    DedupFirstOccurrence(a + b, r);
    forall i, j | 0 <= i < j < |r| && r[j] in a
      ensures r[i] in a
    {
      var q :| 0 <= q < |a| && a[q] == r[j];
      assert (a + b)[q] == r[j] && (a + b)[..q] == a[..q];
    }
  }

  /** `build_within`. */
  function BuildWithin(expr: string): (b: Built)
    ensures b.width == 0 && b.call.WithinTrial?
    ensures b.call.params == b.vars && b.call.args == b.vars && b.call.body == expr
    ensures Distinct(b.vars)
    ensures Elems(b.vars) == Elems(Idents(StripStrings(expr))) - Keywords
  {
    var vars := VarsWithin(expr);
    Built(WithinTrial(vars, expr, vars), vars, 0)
  }

  /** The negative integers of a list, in order. */
  function Negatives(ks: seq<int>): (r: seq<int>)
    ensures forall k :: k in r <==> k in ks && k < 0
  {
    if |ks| == 0 then []
    else (if ks[0] < 0 then [ks[0]] else []) + Negatives(ks[1..])
  }

  /** `max(abs(k) for k in ks)`. */
  function MaxMagnitude(ks: seq<int>): (m: nat)
    requires |ks| > 0
    ensures forall k :: k in ks ==> -(m as int) <= k <= m
    ensures exists k :: k in ks && (k == m || k == -(m as int))
  {
    var a: nat := if ks[0] < 0 then -ks[0] else ks[0];
    assert ks[0] in ks;
    if |ks| == 1 then a
    else
      var m := MaxMagnitude(ks[1..]);
      assert forall k :: k in ks ==> k == ks[0] || k in ks[1..];
      var w :| w in ks[1..] && (w == m || w == -(m as int));
      assert w in ks;
      if a >= m then a else m
  }

  /** `build_window`: the width is one more than the largest magnitude among
      the negative bracketed offsets of the whole expression (string literals
      included); with none, `max()` of an empty sequence raises. */
  function BuildWindow(expr: string): (r: Result<Built, Error>)
    ensures r.Failure? <==> forall k :: k in BracketInts(expr) ==> k >= 0
    ensures r.Failure? ==> r.error == NoNegativeOffset
    ensures r.Success? ==>
              && r.value.call.Window?
              && r.value.call.params == r.value.vars && r.value.call.args == r.value.vars
              && r.value.call.body == expr && r.value.call.width == r.value.width
              && r.value.vars == VarsWindow(expr)
              && r.value.width >= 2
              && (forall k :: k in BracketInts(expr) && k < 0 ==> -k < r.value.width)
              && (exists k :: k in BracketInts(expr) && k == 1 - r.value.width)
  {
    var base := VarsWindow(expr);
    var negs := Negatives(BracketInts(expr));
    if |negs| == 0 then
      Failure(NoNegativeOffset)
    else
      var width := MaxMagnitude(negs) + 1;
      assert negs[0] in negs;
      Success(Built(Window(base, expr, base, width), base, width))
  }
}

=== FILE: builder_factor.dfy ===
/** The forward direction's factor builder (builder/factor.py) and the
    identifier sanitiser `_py` it shares with the design builder. */
module BuilderFactor {
  import opened Wrappers
  import opened Seqs
  import opened Lexer
  import opened DataModel
  import opened BuilderLevel

  /** One character of `.replace(" ", "_").replace("-", "_")`. */
  function Underscored(c: char): char {
    if c == ' ' || c == '-' then '_' else c
  }

  function UnderscoreAll(s: string): (r: string)
    ensures |r| == |s|
    ensures forall k :: 0 <= k < |s| ==> r[k] == Underscored(s[k])
  {
    if |s| == 0 then [] else [Underscored(s[0])] + UnderscoreAll(s[1..])
  }

  /** `_py`: strip surrounding whitespace, then turn every space and hyphen
      into an underscore; nothing else changes. */
  function Py(name: string): (r: string)
    ensures |r| == |Strip(name)|
    ensures forall k :: 0 <= k < |r| ==> r[k] != ' ' && r[k] != '-'
    ensures forall k :: 0 <= k < |r| ==>
              r[k] == Strip(name)[k] || (r[k] == '_' && (Strip(name)[k] == ' ' || Strip(name)[k] == '-'))
  {
    UnderscoreAll(Strip(name))
  }

  /** Sanitising a sanitised name changes nothing. */
  lemma PyIdempotent(name: string)
    ensures Py(Py(name)) == Py(name)
  {
    var p := Py(name);
    var t := Strip(name);
    if p != [] {
      assert !IsSpace(t[0]) && !IsSpace(t[|t| - 1]);
      assert !IsSpace(p[0]) && !IsSpace(p[|p| - 1]);
    }
    StripNoop(p);
    assert UnderscoreAll(p) == p;
  }

  /** The code `<ident> = Factor("<name>", [<levels>])`. */
  datatype FactorCode = FactorCode(ident: string, name: string, levels: seq<LevelCode>)

  /** A built factor: its code and the union of its levels' dependencies. */
  datatype FactorOut = FactorOut(code: FactorCode, deps: set<string>)

  /** The level loop of `factor_build`: builds the levels in order and stops
      at the first one that fails. */
  function BuildLevels(ls: seq<LevelSpec>): (r: Result<(seq<LevelCode>, set<string>), Error>)
    ensures r.Success? <==> forall k :: 0 <= k < |ls| ==> LevelBuild(ls[k]).Success?
    ensures r.Success? ==>
              && |r.value.0| == |ls|
              && (forall k :: 0 <= k < |ls| ==> r.value.0[k] == LevelBuild(ls[k]).value.code)
              && (forall x :: x in r.value.1 <==>
                    exists k :: 0 <= k < |ls| && LevelBuild(ls[k]).Success? && x in LevelBuild(ls[k]).value.deps)
    ensures r.Failure? ==>
              exists i :: && 0 <= i < |ls|
                          && (forall k :: 0 <= k < i ==> LevelBuild(ls[k]).Success?)
                          && LevelBuild(ls[i]) == Failure(r.error)
  {
    if |ls| == 0 then Success(([], {}))
    else
      var first := LevelBuild(ls[0]);
      if first.Failure? then Failure(first.error)
      else
        var rest := BuildLevels(ls[1..]);
        if rest.Failure? then
          LevelsFailureShift(ls, rest.error);
          Failure(rest.error)
        else
          LevelsCodesCons(ls, rest.value.0);
          LevelsDepsCons(ls, rest.value.1);
          Success(([first.value.code] + rest.value.0, Elems(first.value.deps) + rest.value.1))
  }

  /** A failure among the later levels is a failure of the whole list, after
      the successful first level. */
  lemma LevelsFailureShift(ls: seq<LevelSpec>, e: Error)
    requires |ls| > 0 && LevelBuild(ls[0]).Success?
    requires exists i :: && 0 <= i < |ls| - 1
                         && (forall k :: 0 <= k < i ==> LevelBuild(ls[1..][k]).Success?)
                         && LevelBuild(ls[1..][i]) == Failure(e)
    ensures exists i :: && 0 <= i < |ls|
                        && (forall k :: 0 <= k < i ==> LevelBuild(ls[k]).Success?)
                        && LevelBuild(ls[i]) == Failure(e)
  {
    var i :| && 0 <= i < |ls| - 1
             && (forall k :: 0 <= k < i ==> LevelBuild(ls[1..][k]).Success?)
             && LevelBuild(ls[1..][i]) == Failure(e);
    forall k | 0 <= k < i + 1 ensures LevelBuild(ls[k]).Success? {
      if k > 0 { assert ls[k] == ls[1..][k - 1]; }
    }
    assert ls[i + 1] == ls[1..][i];
  }

  /** The first level's code followed by those of the later levels are the
      codes of all levels, all of which build. */
  lemma LevelsCodesCons(ls: seq<LevelSpec>, codes: seq<LevelCode>)
    requires |ls| > 0 && LevelBuild(ls[0]).Success?
    requires forall k :: 0 <= k < |ls[1..]| ==> LevelBuild(ls[1..][k]).Success?
    requires |codes| == |ls[1..]| && forall k :: 0 <= k < |ls[1..]| ==> codes[k] == LevelBuild(ls[1..][k]).value.code
    ensures forall k :: 0 <= k < |ls| ==> LevelBuild(ls[k]).Success?
    ensures |[LevelBuild(ls[0]).value.code] + codes| == |ls|
    ensures forall k :: 0 <= k < |ls| ==> ([LevelBuild(ls[0]).value.code] + codes)[k] == LevelBuild(ls[k]).value.code
  {
    forall k | 1 <= k < |ls| ensures LevelBuild(ls[k]).Success? {
      assert ls[k] == ls[1..][k - 1];
    }
  }

  /** The first level's dependencies joined with those of the later levels
      are those of some level. */
  lemma LevelsDepsCons(ls: seq<LevelSpec>, rest: set<string>)
    requires |ls| > 0 && LevelBuild(ls[0]).Success?
    requires forall x :: x in rest <==>
               exists k :: 0 <= k < |ls[1..]| && LevelBuild(ls[1..][k]).Success? && x in LevelBuild(ls[1..][k]).value.deps
    ensures forall k :: 1 <= k < |ls| ==> ls[k] == ls[1..][k - 1]
    ensures forall x :: x in Elems(LevelBuild(ls[0]).value.deps) + rest <==>
              exists k :: 0 <= k < |ls| && LevelBuild(ls[k]).Success? && x in LevelBuild(ls[k]).value.deps
  {
    var first := LevelBuild(ls[0]).value.deps;
    forall x | x in Elems(first) + rest
      ensures exists k :: 0 <= k < |ls| && LevelBuild(ls[k]).Success? && x in LevelBuild(ls[k]).value.deps
    {
      if x !in first {
        var k :| 0 <= k < |ls| - 1 && LevelBuild(ls[1..][k]).Success? && x in LevelBuild(ls[1..][k]).value.deps;
        assert ls[k + 1] == ls[1..][k];
      }
    }
    forall x | exists k :: 0 <= k < |ls| && LevelBuild(ls[k]).Success? && x in LevelBuild(ls[k]).value.deps
      ensures x in Elems(first) + rest
    {
      var k :| 0 <= k < |ls| && LevelBuild(ls[k]).Success? && x in LevelBuild(ls[k]).value.deps;
      if k > 0 {
        assert ls[1..][k - 1] == ls[k];
      }
    }
  }

  /** `factor_build`: the name and the levels must be given; the code lists
      one fragment per level, in order; the dependencies are the union of the
      levels' dependencies, unfiltered (they may include the factor's own name
      or names no factor declares). */
  function FactorBuild(f: FactorSpec): (r: Result<FactorOut, Error>)
    ensures !Given(f.name) ==> r == Failure(FactorNameMissing)
    ensures Given(f.name) && (f.levels.None? || f.levels.value == []) ==> r == Failure(FactorLevelsMissing)
    ensures Given(f.name) && f.levels.Some? && f.levels.value != [] ==>
              (r.Success? <==> forall k :: 0 <= k < |f.levels.value| ==> LevelBuild(f.levels.value[k]).Success?)
    ensures r.Success? ==>
              && Given(f.name) && f.levels.Some?
              && r.value.code.name == f.name.value
              && r.value.code.ident == Py(f.name.value)
              && |r.value.code.levels| == |f.levels.value| > 0
              && (forall k :: 0 <= k < |f.levels.value| ==> r.value.code.levels[k] == LevelBuild(f.levels.value[k]).value.code)
              && (forall x :: x in r.value.deps <==>
                    exists k :: 0 <= k < |f.levels.value| && LevelBuild(f.levels.value[k]).Success? && x in LevelBuild(f.levels.value[k]).value.deps)
  {
    if !Given(f.name) then Failure(FactorNameMissing)
    else if f.levels.None? || f.levels.value == [] then Failure(FactorLevelsMissing)
    else
      var built :- BuildLevels(f.levels.value);
      Success(FactorOut(FactorCode(Py(f.name.value), f.name.value, built.0), built.1))
  }

  /** A factor whose levels are all static depends on nothing. */
  lemma StaticFactorNoDeps(f: FactorSpec)
    requires f.levels.Some? && forall k :: 0 <= k < |f.levels.value| ==> f.levels.value[k].expr.None?
    requires FactorBuild(f).Success?
    ensures FactorBuild(f).value.deps == {}
  {
    var ls := f.levels.value;
    forall x | x in FactorBuild(f).value.deps ensures false {
      var k :| 0 <= k < |ls| && LevelBuild(ls[k]).Success? && x in LevelBuild(ls[k]).value.deps;
    }
  }
}

=== FILE: builder_level.dfy ===
/** The forward direction's level builders (builder/level.py): a level
    without `expr` is static; one whose expression mentions a bracketed
    integer is a window level; any other is a within-trial level. */
module BuilderLevel {
  import opened Wrappers
  import opened Seqs
  import opened Lexer
  import opened DataModel
  import opened BuilderExpr

  /** The code a level turns into: `Level(name=…, weight=…)` or
      `DerivedLevel(…, <predicate>, <weight>)`. */
  datatype LevelCode =
    | StaticLevel(name: string, weight: Weight)
    | DerivedLevel(name: string, pred: Predicate, weight: Weight)

  /** A built level: its code and the factor names its predicate reads. */
  datatype LevelOut = LevelOut(code: LevelCode, deps: seq<string>)

  /** `data.get("weight", 1)`: a missing weight is written as 1. */
  function WrittenWeight(w: Weight): (r: Weight)
    ensures r != Absent
    ensures w != Absent ==> r == w
  {
    if w.Absent? then Int(1) else w
  }

  /** `regular_level_builder`. */
  function RegularLevel(l: LevelSpec): (r: Result<LevelOut, Error>)
    ensures r.Success? <==> Given(l.name)
    ensures r.Failure? ==> r.error == LevelNameMissing
    ensures r.Success? ==>
              && r.value.code == StaticLevel(l.name.value, WrittenWeight(l.weight))
              && r.value.deps == []
  {
    if !Given(l.name) then Failure(LevelNameMissing)
    else Success(LevelOut(StaticLevel(l.name.value, WrittenWeight(l.weight)), []))
  }

  /** `within_derived_level_builder`. */
  function WithinDerivedLevel(l: LevelSpec): (r: Result<LevelOut, Error>)
    ensures r.Success? <==> Given(l.name) && Given(l.expr)
    ensures r.Failure? ==> r.error == LevelNameOrExprMissing
    ensures r.Success? ==>
              && r.value.code.DerivedLevel?
              && r.value.code.name == l.name.value
              && r.value.code.weight == WrittenWeight(l.weight)
              && r.value.code.pred == BuildWithin(l.expr.value).call
              && r.value.deps == BuildWithin(l.expr.value).vars
  {
    if !Given(l.name) || !Given(l.expr) then Failure(LevelNameOrExprMissing)
    else
      var b := BuildWithin(l.expr.value);
      Success(LevelOut(DerivedLevel(l.name.value, b.call, WrittenWeight(l.weight)), b.vars))
  }

  /** `window_derived_level_builder`: the name and expression are checked
      before the window is sized. */
  function WindowDerivedLevel(l: LevelSpec): (r: Result<LevelOut, Error>)
    ensures !Given(l.name) || !Given(l.expr) ==> r == Failure(LevelNameOrExprMissing)
    ensures Given(l.name) && Given(l.expr) ==>
              (r.Success? <==> BuildWindow(l.expr.value).Success?)
    ensures r.Failure? ==> r.error == LevelNameOrExprMissing || r.error == NoNegativeOffset
    ensures r.Success? ==>
              && r.value.code.DerivedLevel?
              && r.value.code.name == l.name.value
              && r.value.code.weight == WrittenWeight(l.weight)
              && r.value.code.pred == BuildWindow(l.expr.value).value.call
              && r.value.deps == BuildWindow(l.expr.value).value.vars
  {
    if !Given(l.name) || !Given(l.expr) then Failure(LevelNameOrExprMissing)
    else
      var b :- BuildWindow(l.expr.value);
      Success(LevelOut(DerivedLevel(l.name.value, b.call, WrittenWeight(l.weight)), b.vars))
  }

  /** `level_builder`: a level without `expr` is static; an expression in
      which `\[-?\d+\]` occurs gives a window level; any other a within-trial
      level. Each derived level depends exactly on the names its expression
      builder lists. */
  function LevelBuild(l: LevelSpec): (r: Result<LevelOut, Error>)
    ensures l.expr.None? ==> (r.Success? <==> Given(l.name))
    ensures l.expr.None? && r.Success? ==>
              r.value.code == StaticLevel(l.name.value, WrittenWeight(l.weight)) && r.value.deps == []
    ensures l.expr.None? && r.Failure? ==> r.error == LevelNameMissing
    ensures l.expr.Some? ==>
              (r.Failure? <==> !Given(l.name) || l.expr.value == "" || (IndexSearch(l.expr.value) && BuildWindow(l.expr.value).Failure?))
    ensures l.expr.Some? && r.Success? ==>
              && r.value.code.DerivedLevel?
              && r.value.code.name == l.name.value
              && r.value.code.weight == WrittenWeight(l.weight)
              && (r.value.code.pred.Window? <==> IndexSearch(l.expr.value))
              && Distinct(r.value.deps)
              && (forall k :: 0 <= k < |r.value.deps| ==> r.value.deps[k] !in Keywords)
    ensures l.expr.Some? && r.Success? && r.value.code.pred.WithinTrial? ==>
              r.value.deps == VarsWithin(l.expr.value)
    ensures l.expr.Some? && r.Success? && r.value.code.pred.Window? ==>
              r.value.deps == VarsWindow(l.expr.value) && r.value.code.pred.width >= 2
    ensures l.expr.Some? && r.Failure? ==>
              r.error == (if Given(l.name) && l.expr.value != "" then NoNegativeOffset else LevelNameOrExprMissing)
  {
    if l.expr.None? then RegularLevel(l)
    else
      var e := l.expr.value;
      var r := if IndexSearch(e) then WindowDerivedLevel(l) else WithinDerivedLevel(l);
      assert r.Success? ==> forall k :: 0 <= k < |r.value.deps| ==> r.value.deps[k] in Elems(r.value.deps);
      r
  }
}

=== FILE: convert.dfy ===
/** `to_canonical`: checks a trial table's regular-factor columns against
    the design (remapping them when asked to, or when a one-to-one renaming
    is evident), adds the missing derived-factor columns, and labels every
    trial of every derived factor with the first level whose expression
    holds. The table is a value, so the caller's copy is never changed. */
module Convert {
  import opened Wrappers
  import opened Seqs
  import opened DataModel
  import opened Graph
  import opened ConvertOrder
  import opened ConvertTokens
  import opened ValueOrder

  function Strs(names: seq<string>): seq<Value> {
    seq(|names|, i requires 0 <= i < |names| => Str(names[i]))
  }

  /** `[lv["name"] for lv in f["levels"]]`. */
  function LevelNames(f: ConvFactor): seq<string> {
    seq(|f.levels|, i requires 0 <= i < |f.levels| => f.levels[i].name)
  }

  /** `u` is `t` with at most the cells of the columns in `changed` replaced. */
  predicate SameExcept(t: Table, u: Table, changed: set<string>) {
    && u.columns == t.columns
    && u.height == t.height
    && u.cells.Keys == t.cells.Keys
    && forall c :: c in t.cells && c !in changed ==> u.cells[c] == t.cells[c]
  }

  // ------------------------------------------------------------------
  // Regular columns
  // ------------------------------------------------------------------

  /** `series.map(m)` with a dict of strings: a value without an entry
      (any non-string among them) becomes missing. */
  function MapThrough(col: seq<Value>, m: map<string, string>): (r: seq<Value>)
    ensures |r| == |col|
  {
    seq(|col|, i requires 0 <= i < |col| => if col[i].Str? && col[i].s in m then Str(m[col[i].s]) else Value.Null)
  }

  /** The column after the explicit map, when `map_regular` has one for it. */
  function Explicit(col: seq<Value>, name: string, maps: map<string, map<string, string>>): (r: seq<Value>)
    ensures |r| == |col|
  {
    if name in maps then MapThrough(col, maps[name]) else col
  }

  /** The automatic renaming is tried: the value set differs from the level
      names but there are as many distinct values as levels. */
  predicate AutoApplies(col: seq<Value>, expected: seq<string>) {
    Elems(col) != Elems(Strs(expected)) && |Dedup(col)| == |expected|
  }

  function Apply(col: seq<Value>, m: map<Value, Value>): (r: seq<Value>)
    requires forall i :: 0 <= i < |col| ==> col[i] in m
    ensures |r| == |col|
  {
    seq(|col|, i requires 0 <= i < |col| => m[col[i]])
  }

  /** The automatic step: `zip(sorted(found), sorted(expected))` as a map
      applied to the column. When it applies and the values can be sorted,
      the column afterwards holds exactly the level names. */
  function AutoMap(col: seq<Value>, expected: seq<string>): (r: Result<seq<Value>, Error>)
    ensures !AutoApplies(col, expected) ==> r == Success(col)
    ensures AutoApplies(col, expected) ==> (r.Success? <==> |Dedup(col)| <= 1 || Comparable(Dedup(col)))
    ensures r.Failure? ==> r.error == Unorderable
    ensures r.Success? ==> |r.value| == |col|
    ensures AutoApplies(col, expected) && r.Success? ==> Elems(r.value) == Elems(Strs(expected))
  {
    if !AutoApplies(col, expected) then Success(col)
    else
      var sf :- PySorted(Dedup(col));
      var se := SortSeq(Strs(expected));
      AutoImage(col, sf, se);
      PermutationElems(se, Strs(expected));
      Success(Apply(col, ZipMap(sf, se)))
  }

  /** Every value of the column is a key of the zipped map, and the
      renamed column holds exactly the sorted level names' elements. */
  lemma AutoImage(col: seq<Value>, sf: seq<Value>, se: seq<Value>)
    requires multiset(sf) == multiset(Dedup(col)) && |se| == |sf|
    ensures forall i :: 0 <= i < |col| ==> col[i] in ZipMap(sf, se)
    ensures Elems(Apply(col, ZipMap(sf, se))) == Elems(se)
  {
    DistinctPermutation(Dedup(col), sf);
    PermutationElems(sf, Dedup(col));
    forall i | 0 <= i < |col| ensures col[i] in ZipMap(sf, se) {
      assert col[i] in Elems(col);
    }
    ImageWithin(col, sf, se);
    ImageCovers(col, sf, se);
  }

  lemma PermutationElems<T>(a: seq<T>, b: seq<T>)
    requires multiset(a) == multiset(b)
    ensures Elems(a) == Elems(b)
  {
    forall x ensures x in Elems(a) <==> x in Elems(b) {
      assert x in Elems(a) <==> x in multiset(a);
      assert x in Elems(b) <==> x in multiset(b);
    }
  }

  lemma ImageWithin(col: seq<Value>, sf: seq<Value>, se: seq<Value>)
    requires |se| == |sf| && Distinct(sf) && Elems(sf) == Elems(col)
    requires forall i :: 0 <= i < |col| ==> col[i] in ZipMap(sf, se)
    ensures Elems(Apply(col, ZipMap(sf, se))) <= Elems(se)
  {
    var r := Apply(col, ZipMap(sf, se));
    forall y | y in Elems(r) ensures y in Elems(se) {
      var i :| 0 <= i < |r| && r[i] == y;
      assert col[i] in Elems(sf);
      var k :| 0 <= k < |sf| && sf[k] == col[i];
      ZipMapAt(sf, se, k);
    }
  }

  lemma ImageCovers(col: seq<Value>, sf: seq<Value>, se: seq<Value>)
    requires |se| == |sf| && Distinct(sf) && Elems(sf) == Elems(col)
    requires forall i :: 0 <= i < |col| ==> col[i] in ZipMap(sf, se)
    ensures Elems(se) <= Elems(Apply(col, ZipMap(sf, se)))
  {
    var r := Apply(col, ZipMap(sf, se));
    forall y | y in Elems(se) ensures y in Elems(r) {
      var k :| 0 <= k < |se| && se[k] == y;
      assert sf[k] in Elems(sf);
      var i :| 0 <= i < |col| && col[i] == sf[k];
      ZipMapAt(sf, se, k);
      assert r[i] == y;
    }
  }

  /** The automatic renaming is by rank: the value that sorts `k`-th among
      the column's distinct values becomes the level name that sorts `k`-th. */
  lemma AutoMapRank(col: seq<Value>, expected: seq<string>, sf: seq<Value>, se: seq<Value>, i: nat, k: nat)
    requires AutoApplies(col, expected) && AutoMap(col, expected).Success?
    requires Sorted(sf) && multiset(sf) == multiset(Dedup(col))
    requires Sorted(se) && multiset(se) == multiset(Strs(expected))
    requires i < |col| && k < |sf| && col[i] == sf[k]
    ensures AutoMap(col, expected).value[i] == se[k]
  {
    var sf0 := PySorted(Dedup(col)).value;
    var se0 := SortSeq(Strs(expected));
    AutoMapUnfold(col, expected);
    SortedArrangements(col, expected, sf, se);
    DistinctPermutation(Dedup(col), sf);
    AutoImage(col, sf, se);
    ZipMapAt(sf, se, k);
  }

  lemma AutoMapUnfold(col: seq<Value>, expected: seq<string>)
    requires AutoApplies(col, expected) && AutoMap(col, expected).Success?
    ensures PySorted(Dedup(col)).Success?
    ensures |SortSeq(Strs(expected))| == |PySorted(Dedup(col)).value|
    ensures forall i :: 0 <= i < |col| ==> col[i] in ZipMap(PySorted(Dedup(col)).value, SortSeq(Strs(expected)))
    ensures AutoMap(col, expected).value == Apply(col, ZipMap(PySorted(Dedup(col)).value, SortSeq(Strs(expected))))
  {
    AutoImage(col, PySorted(Dedup(col)).value, SortSeq(Strs(expected)));
  }

  /** The sorted lists the automatic step builds are the only sorted
      arrangements there are. */
  lemma SortedArrangements(col: seq<Value>, expected: seq<string>, sf: seq<Value>, se: seq<Value>)
    requires AutoApplies(col, expected) && AutoMap(col, expected).Success?
    requires Sorted(sf) && multiset(sf) == multiset(Dedup(col))
    requires Sorted(se) && multiset(se) == multiset(Strs(expected))
    ensures sf == PySorted(Dedup(col)).value && se == SortSeq(Strs(expected))
  {
    var sf0 := PySorted(Dedup(col)).value;
    if |Dedup(col)| > 1 {
      ComparablePermutation(Dedup(col), sf0);
    }
    SortedUnique(sf0, sf);
    SortedNames(expected, se);
  }

  /** Sorting level names: the insertion sort gives the one sorted arrangement. */
  lemma SortedNames(expected: seq<string>, se: seq<Value>)
    requires Sorted(se) && multiset(se) == multiset(Strs(expected))
    ensures se == SortSeq(Strs(expected))
  {
    var strs := Strs(expected);
    assert Comparable(strs) by {
      assert forall k :: 0 <= k < |strs| ==> strs[k].Str?;
    }
    SortSorted(strs);
    ComparablePermutation(strs, SortSeq(strs));
    SortedUnique(SortSeq(strs), se);
  }

  /** The check of one regular factor `f`: its column must exist; after
      the optional explicit map and the automatic renaming its values must
      be exactly the level names, and it is replaced by the mapped column. */
  function CheckStatic(t: Table, f: ConvFactor, maps: map<string, map<string, string>>): (r: Result<Table, Error>)
    requires ValidTable(t)
    ensures f.name !in t.cells ==> r == Failure(MissingColumn(f.name))
    ensures r.Success? ==>
              && ValidTable(r.value)
              && SameExcept(t, r.value, {f.name})
              && Elems(r.value.cells[f.name]) == Elems(Strs(LevelNames(f)))
    ensures f.name in t.cells && r.Failure? ==>
              var col := Explicit(t.cells[f.name], f.name, maps);
              || (r.error == Unorderable && AutoApplies(col, LevelNames(f)) && |Dedup(col)| > 1 && !Comparable(Dedup(col)))
              || (r.error.LevelMismatch? && |Dedup(col)| != |f.levels| && Elems(col) != Elems(Strs(LevelNames(f))))
    ensures f.name in t.cells && f.name !in maps && Elems(t.cells[f.name]) == Elems(Strs(LevelNames(f))) ==>
              r == Success(t)
  {
    var name := f.name;
    if name !in t.cells then Failure(MissingColumn(name))
    else
      var expected := LevelNames(f);
      var col := Explicit(t.cells[name], name, maps);
      var col' :- AutoMap(col, expected);
      if Elems(col') != Elems(Strs(expected)) then
        AutoMapMismatch(col, expected);
        Failure(LevelMismatch(name, Dedup(col'), Strs(expected)))
      else if col' == t.cells[name] then
        assert t.cells[name := col'] == t.cells;
        Success(t)
      else
        ReplaceColumn(t, name, col');
        Success(t.(cells := t.cells[name := col']))
  }

  /** Replacing one column by another of the same height keeps the table valid
      and changes nothing else. */
  lemma ReplaceColumn(t: Table, c: string, col: seq<Value>)
    requires ValidTable(t) && c in t.cells && |col| == t.height
    ensures ValidTable(t.(cells := t.cells[c := col]))
    ensures SameExcept(t, t.(cells := t.cells[c := col]), {c})
  {
  }

  /** A column that still differs from the level names after the automatic
      step was left alone by it, and has a different number of distinct
      values than there are levels. */
  lemma AutoMapMismatch(col: seq<Value>, expected: seq<string>)
    requires AutoMap(col, expected).Success? && Elems(AutoMap(col, expected).value) != Elems(Strs(expected))
    ensures AutoMap(col, expected).value == col
    ensures |Dedup(col)| != |expected| && Elems(col) != Elems(Strs(expected))
  {
  }

  /** An explicit map that renames the column onto exactly the level names
      is applied as given; the automatic step is then not tried. */
  lemma ExplicitMapApplied(t: Table, f: ConvFactor, maps: map<string, map<string, string>>)
    requires ValidTable(t) && f.name in t.cells && f.name in maps
    requires Elems(MapThrough(t.cells[f.name], maps[f.name])) == Elems(Strs(LevelNames(f)))
    ensures CheckStatic(t, f, maps) == Success(t.(cells := t.cells[f.name := MapThrough(t.cells[f.name], maps[f.name])]))
  {
    var col := MapThrough(t.cells[f.name], maps[f.name]);
    assert !AutoApplies(col, LevelNames(f));
    if col == t.cells[f.name] {
      assert t.cells[f.name := col] == t.cells;
    }
  }

  function RegularNames(fs: seq<ConvFactor>): set<string> {
    set k | 0 <= k < |fs| && IsRegular(fs[k]) :: fs[k].name
  }

  /** `fs[k]`'s column holds exactly its level names. */
  predicate Conforms(t: Table, f: ConvFactor) {
    f.name in t.cells && Elems(t.cells[f.name]) == Elems(Strs(LevelNames(f)))
  }

  /** The first loop of `to_canonical`: `CheckStatic` for every regular
      factor, in order, stopping at the first failure. */
  function CheckStatics(fs: seq<ConvFactor>, t: Table, maps: map<string, map<string, string>>): (r: Result<Table, Error>)
    requires ValidTable(t)
    ensures r.Success? ==> ValidTable(r.value) && SameExcept(t, r.value, RegularNames(fs))
  {
    if |fs| == 0 then Success(t)
    else
      var init, f := fs[..|fs| - 1], fs[|fs| - 1];
      assert forall k :: 0 <= k < |init| ==> init[k] == fs[k];
      assert RegularNames(init) <= RegularNames(fs);
      var u :- CheckStatics(init, t, maps);
      if IsRegular(f) then
        assert f.name in RegularNames(fs);
        CheckStatic(u, f, maps)
      else Success(u)
  }

  /** The last factor's check leaves every other column as the earlier ones left it. */
  lemma CheckStaticsSnoc(fs: seq<ConvFactor>, init: seq<ConvFactor>, t: Table, maps: map<string, map<string, string>>)
    requires ValidTable(t) && |fs| > 0 && init == fs[..|fs| - 1]
    requires CheckStatics(fs, t, maps).Success?
    ensures CheckStatics(init, t, maps).Success?
    ensures SameExcept(CheckStatics(init, t, maps).value, CheckStatics(fs, t, maps).value, {fs[|fs| - 1].name})
  {
  }

  /** A factor conforming before a change to another column still conforms. */
  lemma ConformsKept(u: Table, u': Table, c: string, g: ConvFactor)
    requires Conforms(u, g) && SameExcept(u, u', {c}) && g.name != c
    ensures Conforms(u', g)
  {
  }

  /** A regular factor without a column makes the check fail. */
  lemma {:induction false} CheckStaticsPresent(fs: seq<ConvFactor>, t: Table, maps: map<string, map<string, string>>, k: nat)
    requires ValidTable(t) && CheckStatics(fs, t, maps).Success?
    requires k < |fs| && IsRegular(fs[k])
    ensures fs[k].name in t.cells
  {
    var init := fs[..|fs| - 1];
    assert forall j :: 0 <= j < |init| ==> init[j] == fs[j];
    if k < |fs| - 1 {
      CheckStaticsPresent(init, t, maps, k);
    }
  }

  /** With distinct factor names, every regular factor conforms afterwards. */
  lemma {:induction false} CheckStaticsConform(fs: seq<ConvFactor>, t: Table, maps: map<string, map<string, string>>, k: nat)
    requires ValidTable(t) && Distinct(FactorNames(fs))
    requires CheckStatics(fs, t, maps).Success?
    requires k < |fs| && IsRegular(fs[k])
    ensures Conforms(CheckStatics(fs, t, maps).value, fs[k])
  {
    var init, f := fs[..|fs| - 1], fs[|fs| - 1];
    var u := CheckStatics(init, t, maps).value;
    if k < |fs| - 1 {
      assert init[k] == fs[k];
      FactorNamesPrefix(fs, init);
      CheckStaticsConform(init, t, maps, k);
      assert FactorNames(fs)[k] != FactorNames(fs)[|fs| - 1];
      CheckStaticsSnoc(fs, init, t, maps);
      ConformsKept(u, CheckStatics(fs, t, maps).value, f.name, fs[k]);
    } else {
      assert fs[k] == fs[|fs| - 1];
    }
  }

  // ------------------------------------------------------------------
  // Derived columns
  // ------------------------------------------------------------------

  function Nulls(n: nat): (r: seq<Value>)
    ensures |r| == n
  {
    seq(n, _ => Value.Null)
  }

  /** `df[c] = None` for a new column `c`: appended, every cell `None`. */
  function AddColumn(t: Table, c: string): (r: Table)
    requires ValidTable(t) && c !in t.cells
    ensures ValidTable(r) && r.height == t.height && r.columns == t.columns + [c]
    ensures r.cells == t.cells[c := Nulls(t.height)]
  {
    var r := Table(t.columns + [c], t.cells[c := Nulls(t.height)], t.height);
    assert forall i :: 0 <= i < |t.columns| ==> r.columns[i] == t.columns[i];
    r
  }

  /** The second loop: a derived factor without a column gets one, all
      `None`, appended after the existing columns. */
  function AddDerived(fs: seq<ConvFactor>, t: Table): (r: Table)
    requires ValidTable(t)
    ensures ValidTable(r) && r.height == t.height
    ensures |t.columns| <= |r.columns| && r.columns[..|t.columns|] == t.columns
    ensures forall c :: c in t.cells ==> c in r.cells && r.cells[c] == t.cells[c]
    ensures forall c :: c in r.cells && c !in t.cells ==> r.cells[c] == Nulls(t.height)
  {
    if |fs| == 0 then t
    else
      var init, f := fs[..|fs| - 1], fs[|fs| - 1];
      var u := AddDerived(init, t);
      if IsRegular(f) || f.name in u.cells then u
      else
        AddColumnExtends(t, u, f.name);
        AddColumn(u, f.name)
  }

  /** Appending a new column to an extension of `t` extends `t`. */
  lemma AddColumnExtends(t: Table, u: Table, c: string)
    requires ValidTable(u) && c !in u.cells && u.height == t.height
    requires |t.columns| <= |u.columns| && u.columns[..|t.columns|] == t.columns
    requires forall x :: x in t.cells ==> x in u.cells && u.cells[x] == t.cells[x]
    requires forall x :: x in u.cells && x !in t.cells ==> u.cells[x] == Nulls(t.height)
    ensures |t.columns| <= |AddColumn(u, c).columns| && AddColumn(u, c).columns[..|t.columns|] == t.columns
    ensures forall x :: x in t.cells ==> x in AddColumn(u, c).cells && AddColumn(u, c).cells[x] == t.cells[x]
    ensures forall x :: x in AddColumn(u, c).cells && x !in t.cells ==> AddColumn(u, c).cells[x] == Nulls(t.height)
  {
    var v := AddColumn(u, c);
    AppendKeepsPrefix(u.columns, c, t.columns);
    AddColumnCells(t, u, c, v);
  }

  /** Appending to a sequence keeps every prefix it already had. */
  lemma AppendKeepsPrefix<T>(a: seq<T>, x: T, p: seq<T>)
    requires |p| <= |a| && a[..|p|] == p
    ensures |p| <= |a + [x]| && (a + [x])[..|p|] == p
  {
    assert (a + [x])[..|p|] == a[..|p|];
  }

  /** The cells half of `AddColumnExtends`. */
  lemma AddColumnCells(t: Table, u: Table, c: string, v: Table)
    requires c !in u.cells && v.cells == u.cells[c := Nulls(t.height)]
    requires forall x :: x in t.cells ==> x in u.cells && u.cells[x] == t.cells[x]
    requires forall x :: x in u.cells && x !in t.cells ==> u.cells[x] == Nulls(t.height)
    ensures forall x :: x in t.cells ==> x in v.cells && v.cells[x] == t.cells[x]
    ensures forall x :: x in v.cells && x !in t.cells ==> v.cells[x] == Nulls(t.height)
  {
  }

  /** Afterwards every derived factor has a column. */
  lemma {:induction false} AddDerivedCovers(fs: seq<ConvFactor>, t: Table, k: nat)
    requires ValidTable(t) && k < |fs| && !IsRegular(fs[k])
    ensures fs[k].name in AddDerived(fs, t).cells
  {
    var init := fs[..|fs| - 1];
    if k < |fs| - 1 {
      assert init[k] == fs[k];
      AddDerivedCovers(init, t, k);
    }
  }

  lemma AddDerivedCoversAll(fs: seq<ConvFactor>, t: Table)
    requires ValidTable(t)
    ensures forall k :: 0 <= k < |fs| && !IsRegular(fs[k]) ==> fs[k].name in AddDerived(fs, t).cells
  {
    forall k | 0 <= k < |fs| && !IsRegular(fs[k]) ensures fs[k].name in AddDerived(fs, t).cells {
      AddDerivedCovers(fs, t, k);
    }
  }

  // ------------------------------------------------------------------
  // Labelling
  // ------------------------------------------------------------------

  /** An evaluator of a level expression at a trial of a table. */
  type Evaluation = (Table, int, string) -> Result<bool, Error>

  /** `_evaluate_expr(expr, row, df, …)` with Python's `eval` as the oracle
      `eval`. Every table the converter builds is valid; the guard only
      makes the evaluator total. */
  function Evaluate(eval: string -> Option<bool>): Evaluation {
    (t: Table, row: int, e: string) => if ValidTable(t) then EvaluateExpr(e, row, t, eval) else Success(false)
  }

  /** The evaluator of one trial `row` of the table `t`. */
  function RowOf(ev: Evaluation, t: Table, row: int): string -> Result<bool, Error> {
    e => ev(t, row, e)
  }

  /** Level `k` is the first whose expression holds: it and every level
      before it have an expression, the earlier ones evaluate falsy, and
      `k`'s evaluates true. */
  predicate FirstMatch(ls: seq<ConvLevel>, k: int, holds: string -> Result<bool, Error>) {
    && 0 <= k < |ls|
    && (forall j :: 0 <= j <= k ==> ls[j].expr.Some?)
    && (forall j :: 0 <= j < k ==> holds(ls[j].expr.value) == Success(false))
    && holds(ls[k].expr.value) == Success(true)
  }

  /** No level matches: every level has an expression and all evaluate falsy. */
  predicate NoMatch(ls: seq<ConvLevel>, holds: string -> Result<bool, Error>) {
    forall j :: 0 <= j < |ls| ==> ls[j].expr.Some? && holds(ls[j].expr.value) == Success(false)
  }

  /** The label of one trial, given the evaluator `holds` of that trial:
      the first level whose expression holds, or `None`. Levels are tried
      in order, so a level without an expression raises only when every
      level before it evaluated falsy, and likewise for an evaluation error. */
  function LabelRow(ls: seq<ConvLevel>, holds: string -> Result<bool, Error>): (r: Result<Value, Error>)
    ensures r == Success(Value.Null) <==> NoMatch(ls, holds)
    ensures r.Success? && r.value != Value.Null ==> exists k :: FirstMatch(ls, k, holds) && r.value == Str(ls[k].name)
  {
    if |ls| == 0 then Success(Value.Null)
    else
      assert forall j :: 0 <= j < |ls[1..]| ==> ls[1..][j] == ls[j + 1];
      match ls[0].expr
      case None => Failure(ExprKeyMissing)
      case Some(e) =>
        var b :- holds(e);
        if b then
          assert FirstMatch(ls, 0, holds);
          Success(Str(ls[0].name))
        else
          var r := LabelRow(ls[1..], holds);
          if r.Success? && r.value != Value.Null then
            var k :| FirstMatch(ls[1..], k, holds) && r.value == Str(ls[1..][k].name);
            assert FirstMatch(ls, k + 1, holds);
            r
          else r
  }

  /** A failing label comes from the first level that lacks an expression
      or whose evaluation fails, every level before it evaluating falsy. */
  lemma {:induction false} LabelRowFailure(ls: seq<ConvLevel>, holds: string -> Result<bool, Error>)
    requires LabelRow(ls, holds).Failure?
    ensures exists k :: 0 <= k < |ls| && NoMatch(ls[..k], holds)
                        && (if ls[k].expr.None? then LabelRow(ls, holds).error == ExprKeyMissing
                            else holds(ls[k].expr.value) == Failure(LabelRow(ls, holds).error))
  {
    assert ls[..0] == [];
    if ls[0].expr.Some? && holds(ls[0].expr.value) == Success(false) {
      var r := LabelRow(ls[1..], holds);
      LabelRowFailure(ls[1..], holds);
      var k :| 0 <= k < |ls[1..]| && NoMatch(ls[1..][..k], holds)
               && (if ls[1..][k].expr.None? then r.error == ExprKeyMissing
                   else holds(ls[1..][k].expr.value) == Failure(r.error));
      assert ls[..k + 1] == [ls[0]] + ls[1..][..k];
      assert NoMatch(ls[..k + 1], holds);
    }
  }

  /** A label is a level name, or `None`. */
  predicate IsLabel(v: Value, f: ConvFactor) {
    v == Value.Null || (v.Str? && v.s in LevelNames(f))
  }

  /** `res` for rows `0 .. n - 1`, each labelled against the same table. */
  function LabelColumn(ls: seq<ConvLevel>, t: Table, ev: Evaluation, n: nat): (r: Result<seq<Value>, Error>)
    requires ValidTable(t) && n <= t.height
    ensures r.Success? ==> |r.value| == n
  {
    if n == 0 then Success([])
    else
      var c :- LabelColumn(ls, t, ev, n - 1);
      var v :- LabelRow(ls, RowOf(ev, t, n - 1));
      Success(c + [v])
  }

  /** Each cell of the column is its own trial's label. */
  lemma {:induction false} LabelColumnRow(ls: seq<ConvLevel>, t: Table, ev: Evaluation, n: nat, i: nat)
    requires ValidTable(t) && n <= t.height && i < n
    requires LabelColumn(ls, t, ev, n).Success?
    ensures LabelRow(ls, RowOf(ev, t, i)) == Success(LabelColumn(ls, t, ev, n).value[i])
  {
    if i < n - 1 {
      LabelColumnRow(ls, t, ev, n - 1, i);
    }
  }

  /** Trial `i` is the first whose labelling fails, and it fails with `e`. */
  predicate FirstFailing(ls: seq<ConvLevel>, t: Table, ev: Evaluation, i: nat, e: Error)
    requires ValidTable(t) && i < t.height
  {
    && LabelRow(ls, RowOf(ev, t, i)) == Failure(e)
    && forall j :: 0 <= j < i ==> LabelRow(ls, RowOf(ev, t, j)).Success?
  }

  /** The column fails with the error of its first failing trial. */
  lemma {:induction false} LabelColumnFailure(ls: seq<ConvLevel>, t: Table, ev: Evaluation, n: nat)
    requires ValidTable(t) && n <= t.height
    requires LabelColumn(ls, t, ev, n).Failure?
    ensures exists i :: 0 <= i < n && FirstFailing(ls, t, ev, i, LabelColumn(ls, t, ev, n).error)
  {
    var c := LabelColumn(ls, t, ev, n - 1);
    var e := LabelColumn(ls, t, ev, n).error;
    if c.Failure? {
      assert c.error == e;
      LabelColumnFailure(ls, t, ev, n - 1);
      var i :| 0 <= i < n - 1 && FirstFailing(ls, t, ev, i, e);
      assert 0 <= i < n && FirstFailing(ls, t, ev, i, e);
    } else {
      LastRowFails(ls, t, ev, n, e);
    }
  }

  /** When the first `n - 1` trials are labelled and the column still fails,
      the last trial is the first failing one. */
  lemma LastRowFails(ls: seq<ConvLevel>, t: Table, ev: Evaluation, n: nat, e: Error)
    requires ValidTable(t) && 0 < n <= t.height
    requires LabelColumn(ls, t, ev, n - 1).Success? && LabelColumn(ls, t, ev, n) == Failure(e)
    ensures FirstFailing(ls, t, ev, n - 1, e)
  {
    forall j | 0 <= j < n - 1 ensures LabelRow(ls, RowOf(ev, t, j)).Success? {
      LabelColumnRow(ls, t, ev, n - 1, j);
    }
  }

  /** A column whose every trial is labelled is labelled. */
  lemma {:induction false} LabelColumnSuccess(ls: seq<ConvLevel>, t: Table, ev: Evaluation, n: nat)
    requires ValidTable(t) && n <= t.height
    requires forall i :: 0 <= i < n ==> LabelRow(ls, RowOf(ev, t, i)).Success?
    ensures LabelColumn(ls, t, ev, n).Success?
  {
    if n > 0 {
      LabelColumnSuccess(ls, t, ev, n - 1);
    }
  }

  /** The third loop's body for one derived factor: every trial is labelled
      against the table as it stood before this factor's column was
      replaced (so an expression naming the factor itself reads its old
      cells), then the column is replaced. */
  function LabelFactor(f: ConvFactor, t: Table, ev: Evaluation): (r: Result<Table, Error>)
    requires ValidTable(t) && f.name in t.cells
    ensures r.Success? ==> ValidTable(r.value) && SameExcept(t, r.value, {f.name})
    ensures r.Success? ==> |r.value.cells[f.name]| == t.height
  {
    var col :- LabelColumn(f.levels, t, ev, t.height);
    Success(t.(cells := t.cells[f.name := col]))
  }

  /** Every trial is labelled against the table as it stood before. */
  lemma LabelFactorRow(f: ConvFactor, t: Table, ev: Evaluation, i: nat)
    requires ValidTable(t) && f.name in t.cells && i < t.height
    requires LabelFactor(f, t, ev).Success?
    ensures LabelRow(f.levels, RowOf(ev, t, i)) == Success(LabelFactor(f, t, ev).value.cells[f.name][i])
  {
    LabelColumnRow(f.levels, t, ev, t.height, i);
  }

  /** A trial's label is one of the factor's level names, or `None`. */
  lemma LabelIsLevel(f: ConvFactor, holds: string -> Result<bool, Error>)
    ensures LabelRow(f.levels, holds).Success? ==> IsLabel(LabelRow(f.levels, holds).value, f)
  {
    var r := LabelRow(f.levels, holds);
    if r.Success? && r.value != Value.Null {
      var k :| FirstMatch(f.levels, k, holds) && r.value == Str(f.levels[k].name);
      assert LevelNames(f)[k] == f.levels[k].name;
    }
  }

  function DerivedNames(fs: seq<ConvFactor>): set<string> {
    set k | 0 <= k < |fs| && !IsRegular(fs[k]) :: fs[k].name
  }

  /** The third loop: every derived factor is labelled in order, each one
      against the table the earlier ones left. */
  function LabelAll(fs: seq<ConvFactor>, t: Table, ev: Evaluation): (r: Result<Table, Error>)
    requires ValidTable(t)
    requires forall k :: 0 <= k < |fs| && !IsRegular(fs[k]) ==> fs[k].name in t.cells
    ensures r.Success? ==> ValidTable(r.value) && SameExcept(t, r.value, DerivedNames(fs))
  {
    if |fs| == 0 then Success(t)
    else
      var init, f := fs[..|fs| - 1], fs[|fs| - 1];
      assert forall k :: 0 <= k < |init| ==> init[k] == fs[k];
      assert DerivedNames(init) <= DerivedNames(fs);
      var u :- LabelAll(init, t, ev);
      if IsRegular(f) then Success(u)
      else
        assert f.name in DerivedNames(fs);
        LabelFactor(f, u, ev)
  }

  /** With distinct factor names, every derived column ends up holding labels only. */
  lemma {:induction false} LabelAllLabels(fs: seq<ConvFactor>, t: Table, ev: Evaluation, k: nat, i: nat)
    requires ValidTable(t) && Distinct(FactorNames(fs))
    requires forall k :: 0 <= k < |fs| && !IsRegular(fs[k]) ==> fs[k].name in t.cells
    requires LabelAll(fs, t, ev).Success?
    requires k < |fs| && !IsRegular(fs[k]) && i < t.height
    ensures IsLabel(LabelAll(fs, t, ev).value.cells[fs[k].name][i], fs[k])
  {
    var init := fs[..|fs| - 1];
    if k < |fs| - 1 {
      DerivedPresentPrefix(fs, init, t);
      assert FactorNames(fs)[k] != FactorNames(fs)[|fs| - 1];
      LabelAllKeepsEarlier(fs, t, ev, fs[k].name);
      FactorNamesPrefix(fs, init);
      assert init[k] == fs[k];
      LabelAllLabels(init, t, ev, k, i);
    } else {
      LabelAllLast(fs, t, ev, i);
    }
  }

  /** The last factor's labelling leaves every other column as it was. */
  lemma LabelAllKeepsEarlier(fs: seq<ConvFactor>, t: Table, ev: Evaluation, c: string)
    requires ValidTable(t) && |fs| > 0
    requires forall k :: 0 <= k < |fs| && !IsRegular(fs[k]) ==> fs[k].name in t.cells
    requires LabelAll(fs, t, ev).Success?
    requires c in t.cells && c != fs[|fs| - 1].name
    ensures LabelAll(fs[..|fs| - 1], t, ev).Success?
    ensures LabelAll(fs, t, ev).value.cells[c] == LabelAll(fs[..|fs| - 1], t, ev).value.cells[c]
  {
    var init, f := fs[..|fs| - 1], fs[|fs| - 1];
    DerivedPresentPrefix(fs, init, t);
    var u := LabelAll(init, t, ev).value;
    if !IsRegular(f) {
      assert LabelAll(fs, t, ev) == LabelFactor(f, u, ev);
      assert SameExcept(u, LabelAll(fs, t, ev).value, {f.name});
    }
  }

  lemma FactorNamesPrefix(fs: seq<ConvFactor>, init: seq<ConvFactor>)
    requires |fs| > 0 && init == fs[..|fs| - 1] && Distinct(FactorNames(fs))
    ensures Distinct(FactorNames(init))
  {
    assert FactorNames(init) == FactorNames(fs)[..|fs| - 1];
    DistinctPrefix(FactorNames(fs), |fs| - 1);
  }

  /** The columns the labelling needs are there for every prefix too. */
  lemma DerivedPresentPrefix(fs: seq<ConvFactor>, init: seq<ConvFactor>, t: Table)
    requires |fs| > 0 && init == fs[..|fs| - 1]
    requires forall k :: 0 <= k < |fs| && !IsRegular(fs[k]) ==> fs[k].name in t.cells
    ensures forall k :: 0 <= k < |init| && !IsRegular(init[k]) ==> init[k].name in t.cells
  {
    assert forall j :: 0 <= j < |init| ==> init[j] == fs[j];
  }

  /** The last derived factor's column holds labels only. */
  lemma LabelAllLast(fs: seq<ConvFactor>, t: Table, ev: Evaluation, i: nat)
    requires ValidTable(t) && |fs| > 0 && !IsRegular(fs[|fs| - 1]) && i < t.height
    requires forall k :: 0 <= k < |fs| && !IsRegular(fs[k]) ==> fs[k].name in t.cells
    requires LabelAll(fs, t, ev).Success?
    ensures IsLabel(LabelAll(fs, t, ev).value.cells[fs[|fs| - 1].name][i], fs[|fs| - 1])
  {
    var init, f := fs[..|fs| - 1], fs[|fs| - 1];
    assert forall j :: 0 <= j < |init| ==> init[j] == fs[j];
    var u := LabelAll(init, t, ev).value;
    assert LabelAll(fs, t, ev) == LabelFactor(f, u, ev);
    LabelFactorRow(f, u, ev, i);
    LabelIsLevel(f, RowOf(ev, u, i));
  }

  /** A regular factor's column is not touched by the labelling. */
  lemma LabelAllKeepsRegular(fs: seq<ConvFactor>, t: Table, ev: Evaluation, c: string)
    requires ValidTable(t)
    requires forall k :: 0 <= k < |fs| && !IsRegular(fs[k]) ==> fs[k].name in t.cells
    requires LabelAll(fs, t, ev).Success?
    requires c in t.cells && c !in DerivedNames(fs)
    ensures LabelAll(fs, t, ev).value.cells[c] == t.cells[c]
  {
  }

  // ------------------------------------------------------------------
  // to_canonical
  // ------------------------------------------------------------------

  /** `df[names]`: the listed columns, in the listed order. */
  function Project(t: Table, names: seq<string>): (r: Table)
    requires ValidTable(t) && Distinct(names)
    requires forall i :: 0 <= i < |names| ==> names[i] in t.cells
    ensures ValidTable(r) && r.columns == names && r.height == t.height
    ensures forall c :: c in r.cells ==> c in t.cells && r.cells[c] == t.cells[c]
  {
    Table(names, map c | c in Elems(names) :: t.cells[c], t.height)
  }

  /** `to_canonical(df, factors, only_factors=…, map_regular=…)`, with
      Python's `eval` as the oracle `eval`. */
  function ToCanonical(t: Table, fs: seq<ConvFactor>, onlyFactors: bool, maps: map<string, map<string, string>>,
                       eval: string -> Option<bool>): (r: Result<Table, Error>)
    requires ValidTable(t)
    ensures TopoSortFactors(fs).Failure? ==> r == Failure(TopoSortFactors(fs).error)
    ensures r.Success? ==> TopoSortFactors(fs).Success? && ValidTable(r.value) && r.value.height == t.height
    ensures r.Success? && onlyFactors ==> r.value.columns == FactorNames(TopoSortFactors(fs).value)
    ensures r.Success? && !onlyFactors ==>
              && |t.columns| <= |r.value.columns| && r.value.columns[..|t.columns|] == t.columns
              && forall c :: c in t.cells && c !in FactorNames(fs) ==> c in r.value.cells && r.value.cells[c] == t.cells[c]
  {
    var o :- TopoSortFactors(fs);
    var u :- CheckStatics(o, t, maps);
    var v := AddDerived(o, u);
    AddDerivedCoversAll(o, u);
    var w :- LabelAll(o, v, Evaluate(eval));
    Stages(fs, o, t, u, v, w, maps, eval);
    if onlyFactors then Success(Project(w, FactorNames(o))) else Success(w)
  }

  /** What the three loops leave behind: a column for every sorted factor,
      and every column outside the factors untouched. */
  lemma Stages(fs: seq<ConvFactor>, o: seq<ConvFactor>, t: Table, u: Table, v: Table, w: Table,
               maps: map<string, map<string, string>>, eval: string -> Option<bool>)
    requires ValidTable(t)
    requires TopoSortFactors(fs) == Success(o)
    requires CheckStatics(o, t, maps) == Success(u)
    requires v == AddDerived(o, u)
    requires (forall k :: 0 <= k < |o| && !IsRegular(o[k]) ==> o[k].name in v.cells) && LabelAll(o, v, Evaluate(eval)) == Success(w)
    ensures Distinct(FactorNames(o))
    ensures forall i :: 0 <= i < |o| ==> FactorNames(o)[i] in w.cells
    ensures forall c :: c in t.cells && c !in FactorNames(fs) ==> c in w.cells && w.cells[c] == t.cells[c]
  {
    OrderedNames(fs, o);
    StagedPresentAll(o, t, u, v, w, maps, Evaluate(eval));
    StagedUntouchedAll(fs, o, t, u, v, w, maps, Evaluate(eval));
  }

  lemma StagedPresentAll(o: seq<ConvFactor>, t: Table, u: Table, v: Table, w: Table,
                         maps: map<string, map<string, string>>, ev: Evaluation)
    requires ValidTable(t)
    requires CheckStatics(o, t, maps) == Success(u)
    requires v == AddDerived(o, u)
    requires forall k :: 0 <= k < |o| && !IsRegular(o[k]) ==> o[k].name in v.cells
    requires LabelAll(o, v, ev) == Success(w)
    ensures forall i :: 0 <= i < |o| ==> FactorNames(o)[i] in w.cells
  {
    forall i | 0 <= i < |o| ensures FactorNames(o)[i] in w.cells {
      StagedPresent(o, t, u, v, w, maps, ev, i);
    }
  }

  lemma StagedUntouchedAll(fs: seq<ConvFactor>, o: seq<ConvFactor>, t: Table, u: Table, v: Table, w: Table,
                           maps: map<string, map<string, string>>, ev: Evaluation)
    requires ValidTable(t) && Elems(FactorNames(o)) == Elems(FactorNames(fs))
    requires CheckStatics(o, t, maps) == Success(u)
    requires v == AddDerived(o, u)
    requires forall k :: 0 <= k < |o| && !IsRegular(o[k]) ==> o[k].name in v.cells
    requires LabelAll(o, v, ev) == Success(w)
    ensures forall c :: c in t.cells && c !in FactorNames(fs) ==> c in w.cells && w.cells[c] == t.cells[c]
  {
    forall c | c in t.cells && c !in FactorNames(fs) ensures c in w.cells && w.cells[c] == t.cells[c] {
      assert c !in Elems(FactorNames(fs));
      StagedUntouched(o, t, u, v, w, maps, ev, c);
    }
  }

  /** A sorted factor's column is there after the three loops. */
  lemma StagedPresent(o: seq<ConvFactor>, t: Table, u: Table, v: Table, w: Table,
                      maps: map<string, map<string, string>>, ev: Evaluation, i: nat)
    requires ValidTable(t)
    requires CheckStatics(o, t, maps) == Success(u)
    requires v == AddDerived(o, u)
    requires forall k :: 0 <= k < |o| && !IsRegular(o[k]) ==> o[k].name in v.cells
    requires LabelAll(o, v, ev) == Success(w)
    requires i < |o|
    ensures FactorNames(o)[i] in w.cells
  {
    if IsRegular(o[i]) {
      CheckStaticsPresent(o, t, maps, i);
      assert o[i].name in u.cells;
    } else {
      AddDerivedCovers(o, u, i);
    }
  }

  /** A column no factor names passes through the three loops unchanged. */
  lemma StagedUntouched(o: seq<ConvFactor>, t: Table, u: Table, v: Table, w: Table,
                        maps: map<string, map<string, string>>, ev: Evaluation, c: string)
    requires ValidTable(t)
    requires CheckStatics(o, t, maps) == Success(u)
    requires v == AddDerived(o, u)
    requires forall k :: 0 <= k < |o| && !IsRegular(o[k]) ==> o[k].name in v.cells
    requires LabelAll(o, v, ev) == Success(w)
    requires c in t.cells && c !in Elems(FactorNames(o))
    ensures c in w.cells && w.cells[c] == t.cells[c]
  {
    assert c !in RegularNames(o) && c !in DerivedNames(o);
  }

  /** The sorted factors carry exactly the declared names, once each. */
  lemma OrderedNames(fs: seq<ConvFactor>, o: seq<ConvFactor>)
    requires TopoSortFactors(fs) == Success(o)
    ensures Distinct(FactorNames(o))
    ensures Elems(FactorNames(o)) == Elems(FactorNames(fs))
  {
    var g := FactorGraph(fs).value;
    NameSetIsElems(g);
  }

  /** Every factor of the sorted list has its column in the result: a
      regular one holding exactly its level names, a derived one holding
      labels only. */
  lemma ToCanonicalColumns(t: Table, fs: seq<ConvFactor>, onlyFactors: bool, maps: map<string, map<string, string>>,
                           eval: string -> Option<bool>, k: nat, i: nat)
    requires ValidTable(t)
    requires ToCanonical(t, fs, onlyFactors, maps, eval).Success?
    requires k < |TopoSortFactors(fs).value| && i < t.height
    ensures var r, f := ToCanonical(t, fs, onlyFactors, maps, eval).value, TopoSortFactors(fs).value[k];
            && f.name in r.cells
            && (IsRegular(f) ==> Elems(r.cells[f.name]) == Elems(Strs(LevelNames(f))))
            && (!IsRegular(f) ==> IsLabel(r.cells[f.name][i], f))
  {
    var o := TopoSortFactors(fs).value;
    var u := CheckStatics(o, t, maps).value;
    var v := AddDerived(o, u);
    AddDerivedCoversAll(o, u);
    var w := LabelAll(o, v, Evaluate(eval)).value;
    Stages(fs, o, t, u, v, w, maps, eval);
    ToCanonicalStages(t, fs, onlyFactors, maps, eval, o, u, v, w);
    StagedColumn(o, t, u, v, w, maps, Evaluate(eval), k, i);
    if onlyFactors {
      assert FactorNames(o)[k] == o[k].name;
    }
  }

  /** A successful conversion went through all three loops, and its table is
      the labelled one, cut down to the factors' columns when asked to. */
  lemma ToCanonicalStages(t: Table, fs: seq<ConvFactor>, onlyFactors: bool, maps: map<string, map<string, string>>,
                          eval: string -> Option<bool>, o: seq<ConvFactor>, u: Table, v: Table, w: Table)
    requires ValidTable(t)
    requires TopoSortFactors(fs) == Success(o) && CheckStatics(o, t, maps) == Success(u)
    requires v == AddDerived(o, u) && forall k :: 0 <= k < |o| && !IsRegular(o[k]) ==> o[k].name in v.cells
    requires LabelAll(o, v, Evaluate(eval)) == Success(w)
    requires Distinct(FactorNames(o)) && forall i :: 0 <= i < |o| ==> FactorNames(o)[i] in w.cells
    ensures ToCanonical(t, fs, onlyFactors, maps, eval) == Success(if onlyFactors then Project(w, FactorNames(o)) else w)
  {
  }

  /** With distinct names, a regular factor's name is no derived factor's name. */
  lemma RegularNotDerived(o: seq<ConvFactor>, k: nat)
    requires Distinct(FactorNames(o)) && k < |o| && IsRegular(o[k])
    ensures o[k].name !in DerivedNames(o)
  {
    forall j | 0 <= j < |o| && !IsRegular(o[j])
      ensures o[j].name != o[k].name
    {
      assert j != k;
      assert FactorNames(o)[j] != FactorNames(o)[k];
    }
  }

  /** After the three loops, a sorted factor's column is there, holding its
      level names if it is regular and labels if it is derived. */
  lemma StagedColumn(o: seq<ConvFactor>, t: Table, u: Table, v: Table, w: Table,
                     maps: map<string, map<string, string>>, ev: Evaluation, k: nat, i: nat)
    requires ValidTable(t) && Distinct(FactorNames(o))
    requires CheckStatics(o, t, maps) == Success(u)
    requires v == AddDerived(o, u)
    requires forall k :: 0 <= k < |o| && !IsRegular(o[k]) ==> o[k].name in v.cells
    requires LabelAll(o, v, ev) == Success(w)
    requires k < |o| && i < t.height
    ensures o[k].name in w.cells
    ensures IsRegular(o[k]) ==> Elems(w.cells[o[k].name]) == Elems(Strs(LevelNames(o[k])))
    ensures !IsRegular(o[k]) ==> IsLabel(w.cells[o[k].name][i], o[k])
  {
    var f := o[k];
    if IsRegular(f) {
      CheckStaticsConform(o, t, maps, k);
      RegularNotDerived(o, k);
      LabelAllKeepsRegular(o, v, ev, f.name);
    } else {
      LabelAllLabels(o, v, ev, k, i);
    }
  }
}

=== FILE: convert_examples.dfy ===
/** The converter's documented token examples, evaluated on the model, with
    the scanning steps they need. */
module ConvertExamples {
  import opened Wrappers
  import opened Seqs
  import opened Lexer
  import opened ConvertTokens

  // ------------------------------------------------------------------
  // steps of the token scanner
  // ------------------------------------------------------------------

  /** A position that cannot start an identifier starts no token. */
  lemma TokenAtNone(s: string, i: nat)
    requires i < |s| && !IsIdentStart(s[i])
    ensures IndexedTokensFrom(s, i) == IndexedTokensFrom(s, i + 1)
  {
    assert TokenAt(s, i) == None;
  }

  /** A word whose following whitespace (from `j` to `m`) does not lead to `[`
      starts no token, nor does any of its suffixes. */
  lemma {:induction false} TokensWordSkip(s: string, i: nat, j: nat, m: nat)
    requires i <= j <= m <= |s|
    requires forall k :: i <= k < j ==> IsWordChar(s[k])
    requires j == |s| || !IsWordChar(s[j])
    requires forall k :: j <= k < m ==> IsSpace(s[k])
    requires m == |s| || (!IsSpace(s[m]) && s[m] != '[')
    ensures IndexedTokensFrom(s, i) == IndexedTokensFrom(s, j)
    decreases j - i
  {
    if i < j {
      WordEndAt(s, i, j);
      SpaceEndAt(s, j, m);
      TokensWordSkip(s, i + 1, j, m);
    }
  }

  /** A name from `i` to `j`, then `[` and a bracketed integer, is a token. */
  lemma TokenAtName(s: string, i: nat, j: nat, v: int, e: nat)
    requires i < j < |s| && IsIdentStart(s[i])
    requires forall k :: i <= k < j ==> IsWordChar(s[k])
    requires s[j] == '[' && SignedIntAt(s, j + 1) == Some(OffsetMatch(v, e))
    ensures TokenAt(s, i) == Some((Token(s[i..e], s[i..j], v), e))
  {
    WordEndAt(s, i, j);
    SpaceEndAt(s, j, j);
    BracketedFromSigned(s, j, e, v);
  }

  /** The scanner takes a token found at `i` and resumes after it. */
  lemma TokenTaken(s: string, i: nat, t: Token, e: nat)
    requires i < |s| && TokenAt(s, i) == Some((t, e))
    ensures IndexedTokensFrom(s, i) == [t] + IndexedTokensFrom(s, e)
  {
  }

  /** `name[-d]` with one digit `d`, the name running from `i` to `j`. */
  lemma TokenNegDigit(s: string, i: nat, j: nat)
    requires i < j && j + 4 <= |s| && IsIdentStart(s[i])
    requires forall k :: i <= k < j ==> IsWordChar(s[k])
    requires s[j] == '[' && s[j + 1] == '-' && IsDigit(s[j + 2]) && s[j + 3] == ']'
    ensures IndexedTokensFrom(s, i) ==
              [Token(s[i..j + 4], s[i..j], ('0' as int) - (s[j + 2] as int))] + IndexedTokensFrom(s, j + 4)
  {
    var v, e := ('0' as int) - (s[j + 2] as int), j + 4;
    SignedNegDigit(s, j + 1);
    assert SignedIntAt(s, j + 1) == Some(OffsetMatch(v, e));
    TokenFromSigned(s, i, j, v, e);
  }

  /** `name[d]` with one digit `d`, the name running from `i` to `j`. */
  lemma TokenDigit(s: string, i: nat, j: nat)
    requires i < j && j + 3 <= |s| && IsIdentStart(s[i])
    requires forall k :: i <= k < j ==> IsWordChar(s[k])
    requires s[j] == '[' && IsDigit(s[j + 1]) && s[j + 2] == ']'
    ensures IndexedTokensFrom(s, i) ==
              [Token(s[i..j + 3], s[i..j], (s[j + 1] as int) - ('0' as int))] + IndexedTokensFrom(s, j + 3)
  {
    var v, e := (s[j + 1] as int) - ('0' as int), j + 3;
    SignedDigit(s, j + 1);
    assert SignedIntAt(s, j + 1) == Some(OffsetMatch(v, e));
    TokenFromSigned(s, i, j, v, e);
  }

  /** A name, `[` and a bracketed integer ending at `e`: the scanner takes
      that token and resumes at `e`. */
  lemma TokenFromSigned(s: string, i: nat, j: nat, v: int, e: nat)
    requires i < j < |s| && IsIdentStart(s[i])
    requires forall k :: i <= k < j ==> IsWordChar(s[k])
    requires s[j] == '[' && SignedIntAt(s, j + 1) == Some(OffsetMatch(v, e))
    ensures IndexedTokensFrom(s, i) == [Token(s[i..e], s[i..j], v)] + IndexedTokensFrom(s, e)
  {
    TokenAtName(s, i, j, v, e);
    TokenTaken(s, i, Token(s[i..e], s[i..j], v), e);
  }

  /** When every scanned identifier is a keyword or an indexed base, no bare
      token is added. */
  lemma NoBareTokens(vars: seq<string>, indexed: set<string>)
    requires forall k :: 0 <= k < |vars| ==> vars[k] in Keywords + indexed
    ensures BareTokens(vars, indexed) == []
  {
  }

  /** With no bare token to add, the compiled tokens are the indexed ones,
      longest first. */
  lemma OnlyIndexedTokens(expr: string, ts: seq<Token>, vars: seq<string>)
    requires IndexedTokens(expr) == ts && BoundedIdents(StripStrings(expr)) == vars
    requires forall k :: 0 <= k < |vars| ==> vars[k] in Keywords + Elems(Bases(ts))
    ensures CompileTokens(expr) == SortByLength(ts)
  {
    NoBareTokens(vars, Elems(Bases(ts)));
    assert ts + [] == ts;
  }

  // ------------------------------------------------------------------
  // _compile_tokens("color[-1] and color[0]")
  // ------------------------------------------------------------------

  lemma CurrentChars(s: string)
    requires s == "color[-1] and color[0]"
    ensures IsIdentStart(s[14]) && forall k :: 14 <= k < 19 ==> IsWordChar(s[k])
    ensures s[19] == '[' && IsDigit(s[20]) && s[21] == ']'
    ensures s[14..22] == "color[0]" && s[14..19] == "color" && (s[20] as int) - ('0' as int) == 0
  {
  }

  lemma CurrentEnd(s: string)
    requires s == "color[-1] and color[0]"
    ensures IndexedTokensFrom(s, 22) == []
  {
  }

  lemma CurrentToken(s: string)
    requires s == "color[-1] and color[0]"
    ensures IndexedTokensFrom(s, 14) == [Token("color[0]", "color", 0)]
  {
    CurrentChars(s);
    CurrentEnd(s);
    TokenDigit(s, 14, 19);
  }

  lemma AndChars(s: string)
    requires s == "color[-1] and color[0]"
    ensures |s| == 22 && !IsIdentStart(s[9]) && !IsIdentStart(s[13])
    ensures forall k :: 10 <= k < 13 ==> IsWordChar(s[k])
    ensures !IsWordChar(s[13]) && IsSpace(s[13]) && !IsSpace(s[14]) && s[14] != '['
  {
  }

  /** A space, a word, a space: no token starts in `s[i..i + 5]` when the
      word `s[i + 1..i + 4]` is not followed by `[`. */
  lemma SpacedWordNoToken(s: string, i: nat)
    requires i + 5 < |s| && !IsIdentStart(s[i]) && !IsIdentStart(s[i + 4])
    requires forall k :: i + 1 <= k < i + 4 ==> IsWordChar(s[k])
    requires !IsWordChar(s[i + 4]) && IsSpace(s[i + 4]) && !IsSpace(s[i + 5]) && s[i + 5] != '['
    ensures IndexedTokensFrom(s, i) == IndexedTokensFrom(s, i + 5)
  {
    TokenAtNone(s, i + 4);
    TokensWordSkip(s, i + 1, i + 4, i + 5);
    TokenAtNone(s, i);
  }

  lemma AndNoToken(s: string)
    requires s == "color[-1] and color[0]"
    ensures IndexedTokensFrom(s, 9) == IndexedTokensFrom(s, 14)
  {
    AndChars(s);
    SpacedWordNoToken(s, 9);
  }

  lemma PreviousChars(s: string)
    requires s == "color[-1] and color[0]"
    ensures IsIdentStart(s[0]) && forall k :: 0 <= k < 5 ==> IsWordChar(s[k])
    ensures s[5] == '[' && s[6] == '-' && IsDigit(s[7]) && s[8] == ']'
    ensures s[0..9] == "color[-1]" && s[0..5] == "color" && ('0' as int) - (s[7] as int) == -1
  {
  }

  lemma PreviousToken(s: string)
    requires s == "color[-1] and color[0]"
    ensures IndexedTokensFrom(s, 0) == [Token("color[-1]", "color", -1)] + IndexedTokensFrom(s, 9)
  {
    PreviousChars(s);
    TokenNegDigit(s, 0, 5);
  }

  lemma PreviousAndCurrentIndexed(s: string)
    requires s == "color[-1] and color[0]"
    ensures IndexedTokens(s) == [Token("color[-1]", "color", -1), Token("color[0]", "color", 0)]
  {
    CurrentToken(s);
    AndNoToken(s);
    PreviousToken(s);
  }

  lemma BareChars(s: string)
    requires s == "color[-1] and color[0]"
    ensures |s| == 22 && forall k :: 0 <= k < |s| ==> !IsQuote(s[k])
    ensures IsIdentStart(s[0]) && forall k :: 0 <= k < 5 ==> IsWordChar(s[k])
    ensures !IsWordChar(s[5]) && forall k :: 5 <= k < 10 ==> !IsIdentStart(s[k])
    ensures IsIdentStart(s[10]) && !IsWordChar(s[9]) && forall k :: 10 <= k < 13 ==> IsWordChar(s[k])
    ensures !IsWordChar(s[13]) && !IsIdentStart(s[13])
    ensures IsIdentStart(s[14]) && forall k :: 14 <= k < 19 ==> IsWordChar(s[k])
    ensures !IsWordChar(s[19]) && forall k :: 19 <= k < 22 ==> !IsIdentStart(s[k])
    ensures s[0..5] == "color" && s[10..13] == "and" && s[14..19] == "color"
  {
  }

  /** Three bounded words at 0, 10 and 14 of a 22-character string, with
      nothing else starting an identifier. */
  lemma ThreeWords(s: string)
    requires |s| == 22
    requires IsIdentStart(s[0]) && forall k :: 0 <= k < 5 ==> IsWordChar(s[k])
    requires !IsWordChar(s[5]) && forall k :: 5 <= k < 10 ==> !IsIdentStart(s[k])
    requires IsIdentStart(s[10]) && !IsWordChar(s[9]) && forall k :: 10 <= k < 13 ==> IsWordChar(s[k])
    requires !IsWordChar(s[13]) && !IsIdentStart(s[13])
    requires IsIdentStart(s[14]) && forall k :: 14 <= k < 19 ==> IsWordChar(s[k])
    requires !IsWordChar(s[19]) && forall k :: 19 <= k < 22 ==> !IsIdentStart(s[k])
    ensures BoundedIdents(s) == [s[0..5], s[10..13], s[14..19]]
  {
    assert BoundedIdentsFrom(s, 22) == [];
    BoundedWordThenSkip(s, 14, 19, 22);
    BoundedWordThenSkip(s, 10, 13, 14);
    BoundedWordThenSkip(s, 0, 5, 10);
  }

  lemma PreviousAndCurrentBare(s: string)
    requires s == "color[-1] and color[0]"
    ensures BoundedIdents(StripStrings(s)) == ["color", "and", "color"]
  {
    BareChars(s);
    StripQuoteFree(s);
    ThreeWords(s);
  }

  /** Both references are tokens, the longer first; `and` and the repeated
      bare `color` add nothing. */
  lemma PreviousAndCurrentTokens(s: string)
    requires s == "color[-1] and color[0]"
    ensures CompileTokens(s) == [Token("color[-1]", "color", -1), Token("color[0]", "color", 0)]
  {
    var t1, t2 := Token("color[-1]", "color", -1), Token("color[0]", "color", 0);
    PreviousAndCurrentIndexed(s);
    PreviousAndCurrentBare(s);
    assert Bases([t1, t2]) == ["color", "color"];
    OnlyIndexedTokens(s, [t1, t2], ["color", "and", "color"]);
    LongerFirst(t1, t2);
  }

  lemma LongerFirst(t1: Token, t2: Token)
    requires |t1.text| > |t2.text|
    ensures SortByLength([t1, t2]) == [t1, t2]
  {
    assert [t1, t2][1..] == [t2];
    assert SortByLength([t2]) == [t2];
  }

  // ------------------------------------------------------------------
  // _compile_tokens("'red' == word[-1]")
  // ------------------------------------------------------------------

  lemma WordChars(s: string)
    requires s == "'red' == word[-1]"
    ensures IsIdentStart(s[9]) && forall k :: 9 <= k < 13 ==> IsWordChar(s[k])
    ensures s[13] == '[' && s[14] == '-' && IsDigit(s[15]) && s[16] == ']'
    ensures s[9..17] == "word[-1]" && s[9..13] == "word" && ('0' as int) - (s[15] as int) == -1
    ensures IndexedTokensFrom(s, 17) == []
  {
  }

  lemma WordToken(s: string)
    requires s == "'red' == word[-1]"
    ensures IndexedTokensFrom(s, 9) == [Token("word[-1]", "word", -1)]
  {
    WordChars(s);
    TokenNegDigit(s, 9, 13);
  }

  lemma LiteralIndexed(s: string)
    requires s == "'red' == word[-1]"
    ensures IndexedTokens(s) == [Token("word[-1]", "word", -1)]
  {
    WordToken(s);
    LiteralNoToken(s);
  }

  lemma RedChars(s: string)
    requires s == "'red' == word[-1]"
    ensures |s| == 17 && !IsIdentStart(s[0])
    ensures forall k :: 1 <= k < 4 ==> IsWordChar(s[k])
    ensures !IsWordChar(s[4]) && !IsSpace(s[4]) && s[4] != '['
    ensures forall k :: 4 <= k < 9 ==> !IsIdentStart(s[k])
  {
  }

  /** A quoted word of three letters, then five characters that start no name. */
  lemma QuotedWordNoToken(s: string)
    requires |s| > 9 && !IsIdentStart(s[0])
    requires forall k :: 1 <= k < 4 ==> IsWordChar(s[k])
    requires !IsWordChar(s[4]) && !IsSpace(s[4]) && s[4] != '['
    requires forall k :: 4 <= k < 9 ==> !IsIdentStart(s[k])
    ensures IndexedTokensFrom(s, 0) == IndexedTokensFrom(s, 9)
  {
    TokenAtNone(s, 8);
    TokenAtNone(s, 7);
    TokenAtNone(s, 6);
    TokenAtNone(s, 5);
    TokenAtNone(s, 4);
    TokensWordSkip(s, 1, 4, 4);
    TokenAtNone(s, 0);
  }

  /** `red` inside the literal is followed by a quote, not a bracket. */
  lemma LiteralNoToken(s: string)
    requires s == "'red' == word[-1]"
    ensures IndexedTokensFrom(s, 0) == IndexedTokensFrom(s, 9)
  {
    RedChars(s);
    QuotedWordNoToken(s);
  }

  lemma LiteralQuoteChars(s: string)
    requires s == "'red' == word[-1]"
    ensures |s| == 17 && IsQuote(s[0]) && s[4] == s[0]
    ensures forall m :: 0 < m < 4 ==> s[m] != s[0]
    ensures forall m :: 4 < m < 17 ==> !IsQuote(s[m])
    ensures s[5..] == " == word[-1]"
  {
  }

  lemma LiteralStripped(s: string)
    requires s == "'red' == word[-1]"
    ensures StripStrings(s) == "  == word[-1]"
  {
    LiteralQuoteChars(s);
    StripLeadingLiteral(s, 4);
  }

  lemma LiteralBare(s: string)
    requires s == "'red' == word[-1]"
    ensures BoundedIdents(StripStrings(s)) == ["word"]
  {
    LiteralStripped(s);
    var t := StripStrings(s);
    BoundedSkip(t, 9, 13);
    BoundedWord(t, 5, 9);
    assert t[5..9] == "word";
    BoundedSkip(t, 0, 5);
  }

  /** The name inside the literal is no token, and the indexed `word` is not
      repeated as a bare one. */
  lemma LiteralTokens(s: string)
    requires s == "'red' == word[-1]"
    ensures CompileTokens(s) == [Token("word[-1]", "word", -1)]
  {
    var t := Token("word[-1]", "word", -1);
    LiteralIndexed(s);
    LiteralBare(s);
    assert Bases([t]) == ["word"];
    OnlyIndexedTokens(s, [t], ["word"]);
    assert SortByLength([t]) == [t];
  }
}

=== FILE: convert_order.dfy ===
/** The backward direction's factor order (utils/convert/__init__.py): the
    regular/window classification and `topo_sort_factors`, which keeps only
    dependencies on other declared factors and orders the factors in rounds. */
module ConvertOrder {
  import opened Wrappers
  import opened Seqs
  import opened DataModel
  import opened Graph
  import opened Lexer
  import opened BuilderExpr

  // ------------------------------------------------------------------
  // Rounds of the `while waiting` loop
  // ------------------------------------------------------------------

  /** One round: the waiting entries whose dependencies are all resolved
      (`ready`), and the rest, each in their original order. Unlike the
      builder's pass, the resolved set is fixed for the whole round. */
  function Round(w: seq<Entry>, res: set<string>): (r: (seq<Entry>, seq<Entry>))
    ensures |r.0| + |r.1| == |w|
  {
    if |w| == 0 then ([], [])
    else
      var init, e := w[..|w| - 1], w[|w| - 1];
      var (t, l) := Round(init, res);
      if e.deps <= res then (t + [e], l) else (t, l + [e])
  }

  /** The round splits the waiting entries by readiness. */
  lemma {:induction false} RoundParts(w: seq<Entry>, res: set<string>)
    ensures forall e :: e in Round(w, res).0 <==> e in w && e.deps <= res
    ensures forall e :: e in Round(w, res).1 <==> e in w && !(e.deps <= res)
  {
    if |w| > 0 {
      var init, e := w[..|w| - 1], w[|w| - 1];
      assert w == init + [e];
      RoundParts(init, res);
    }
  }

  /** The ready entries keep their relative order. */
  lemma {:induction false} RoundKeepsOrder(w: seq<Entry>, res: set<string>)
    requires DistinctNames(w)
    ensures InFirstOccurrenceOrder(Round(w, res).0, w)
  {
    if |w| > 0 {
      var init, e := w[..|w| - 1], w[|w| - 1];
      assert w == init + [e];
      DistinctNamesSnoc(init, e);
      RoundKeepsOrder(init, res);
      var t := Round(init, res).0;
      assert Round(w, res).0 == if e.deps <= res then t + [e] else t;
      assert e !in init;
      OrderSnoc(t, init, e);
    }
  }

  /** Ready and left entries keep the names distinct and apart. */
  lemma {:induction false} RoundDistinct(w: seq<Entry>, res: set<string>)
    requires DistinctNames(w)
    ensures var (t, l) := Round(w, res);
      DistinctNames(t) && DistinctNames(l) && NameSet(t) !! NameSet(l) && NameSet(t) + NameSet(l) == NameSet(w)
  {
    if |w| > 0 {
      var init, e := w[..|w| - 1], w[|w| - 1];
      assert w == init + [e];
      DistinctNamesSnoc(init, e);
      NameSetSnoc(init, e);
      RoundDistinct(init, res);
      var (t, l) := Round(init, res);
      DistinctNamesSnoc(t, e);
      DistinctNamesSnoc(l, e);
      NameSetSnoc(t, e);
      NameSetSnoc(l, e);
    }
  }

  /** The `while waiting` loop: each round appends every ready name in
      waiting order; a round with nothing ready fails naming the waiting
      factors. */
  function Rounds(g: seq<Entry>, w: seq<Entry>, ordered: seq<string>): (r: Result<seq<string>, Error>)
    requires DistinctNames(g) && DistinctNames(w) && Distinct(ordered)
    requires forall k :: 0 <= k < |w| ==> w[k] in g
    requires Elems(ordered) !! NameSet(w) && Elems(ordered) + NameSet(w) == NameSet(g)
    requires DepsFirst(ordered, g)
    ensures r.Success? ==> IsTopoOrder(r.value, g) && |ordered| <= |r.value| && r.value[..|ordered|] == ordered
    ensures r.Failure? ==> r.error.CyclicDerivedFactors? && Stuck(g, Elems(r.error.names))
    ensures r.Failure? ==> forall s :: Stuck(g, s) ==> s <= Elems(r.error.names)
    decreases |w|
  {
    if |w| == 0 then
      assert NameSet(w) == {};
      Success(ordered)
    else
      var (t, l) := Round(w, Elems(ordered));
      if t == [] then
        RoundStuck(g, w, ordered);
        AllStuckWithinRemaining(g, w, ordered);
        Failure(CyclicDerivedFactors(Names(w)))
      else
        RoundAdvances(g, w, ordered);
        var r := Rounds(g, l, ordered + Names(t));
        if r.Success? then PrefixShorter(r.value, ordered, Names(t)); r else r
  }

  /** A round with nothing ready leaves the waiting names stuck. */
  lemma RoundStuck(g: seq<Entry>, w: seq<Entry>, ordered: seq<string>)
    requires DistinctNames(g) && |w| > 0
    requires forall k :: 0 <= k < |w| ==> w[k] in g
    requires Elems(ordered) !! NameSet(w) && Elems(ordered) + NameSet(w) == NameSet(g)
    requires Round(w, Elems(ordered)).0 == []
    ensures Stuck(g, Elems(Names(w)))
  {
    RoundParts(w, Elems(ordered));
    assert forall k :: 0 <= k < |w| ==> !(w[k].deps <= Elems(ordered)) by {
      assert forall k :: 0 <= k < |w| ==> w[k] in w;
    }
    NameSetIsElems(w);
    StuckRemaining(g, w, ordered);
  }

  /** A round keeps the loop's invariant: the names ordered so far, extended
      by the ready ones, stay distinct, apart from the entries left, and after
      their dependencies. */
  lemma RoundAdvances(g: seq<Entry>, w: seq<Entry>, ordered: seq<string>)
    requires DistinctNames(g) && DistinctNames(w) && Distinct(ordered)
    requires forall k :: 0 <= k < |w| ==> w[k] in g
    requires Elems(ordered) !! NameSet(w) && Elems(ordered) + NameSet(w) == NameSet(g)
    requires DepsFirst(ordered, g)
    ensures DistinctNames(Round(w, Elems(ordered)).1)
    ensures Distinct(ordered + Names(Round(w, Elems(ordered)).0))
    ensures forall k :: 0 <= k < |Round(w, Elems(ordered)).1| ==> Round(w, Elems(ordered)).1[k] in g
    ensures Elems(ordered + Names(Round(w, Elems(ordered)).0)) !! NameSet(Round(w, Elems(ordered)).1)
    ensures Elems(ordered + Names(Round(w, Elems(ordered)).0)) + NameSet(Round(w, Elems(ordered)).1) == NameSet(g)
    ensures DepsFirst(ordered + Names(Round(w, Elems(ordered)).0), g)
  {
    RoundAdvancesNames(g, w, ordered);
    var t := Round(w, Elems(ordered)).0;
    RoundParts(w, Elems(ordered));
    ExtendReady(g, ordered, t);
  }

  lemma RoundAdvancesNames(g: seq<Entry>, w: seq<Entry>, ordered: seq<string>)
    requires DistinctNames(w) && Distinct(ordered)
    requires forall k :: 0 <= k < |w| ==> w[k] in g
    requires Elems(ordered) !! NameSet(w) && Elems(ordered) + NameSet(w) == NameSet(g)
    ensures DistinctNames(Round(w, Elems(ordered)).1)
    ensures Distinct(ordered + Names(Round(w, Elems(ordered)).0))
    ensures forall k :: 0 <= k < |Round(w, Elems(ordered)).1| ==> Round(w, Elems(ordered)).1[k] in g
    ensures Elems(ordered + Names(Round(w, Elems(ordered)).0)) !! NameSet(Round(w, Elems(ordered)).1)
    ensures Elems(ordered + Names(Round(w, Elems(ordered)).0)) + NameSet(Round(w, Elems(ordered)).1) == NameSet(g)
  {
    var t, l := Round(w, Elems(ordered)).0, Round(w, Elems(ordered)).1;
    RoundParts(w, Elems(ordered));
    RoundDistinct(w, Elems(ordered));
    assert forall k :: 0 <= k < |l| ==> l[k] in w;
    ExtendOrdered(g, w, t, l, ordered);
  }

  /** Moving the names of `t` from the waiting part `w = t + l` (as sets)
      to the ordered part keeps the two apart and their union the same. */
  lemma ExtendOrdered(g: seq<Entry>, w: seq<Entry>, t: seq<Entry>, l: seq<Entry>, ordered: seq<string>)
    requires Distinct(ordered) && DistinctNames(t)
    requires NameSet(t) !! NameSet(l) && NameSet(t) + NameSet(l) == NameSet(w)
    requires Elems(ordered) !! NameSet(w) && Elems(ordered) + NameSet(w) == NameSet(g)
    ensures Distinct(ordered + Names(t))
    ensures Elems(ordered + Names(t)) !! NameSet(l)
    ensures Elems(ordered + Names(t)) + NameSet(l) == NameSet(g)
  {
    NameSetIsElems(t);
    DistinctConcat(ordered, Names(t));
    ElemsConcat(ordered, Names(t));
  }

  /** The order of the declared names: first every name without
      dependencies in declaration order, then the rounds. */
  function SortNames(g: seq<Entry>): (r: Result<seq<string>, Error>)
    requires DistinctNames(g)
    ensures r.Success? ==> IsTopoOrder(r.value, g)
    ensures r.Success? ==> |Round(g, {}).0| <= |r.value| && r.value[..|Round(g, {}).0|] == Names(Round(g, {}).0)
    ensures r.Failure? ==> r.error.CyclicDerivedFactors? && Stuck(g, Elems(r.error.names))
    ensures r.Failure? ==> forall s :: Stuck(g, s) ==> s <= Elems(r.error.names)
  {
    FirstRound(g);
    Rounds(g, Round(g, {}).1, Names(Round(g, {}).0))
  }

  /** After the names without dependencies, the rounds' invariant holds. */
  lemma FirstRound(g: seq<Entry>)
    requires DistinctNames(g)
    ensures var (t, w) := Round(g, {});
      && DistinctNames(w) && Distinct(Names(t))
      && (forall k :: 0 <= k < |w| ==> w[k] in g)
      && Elems(Names(t)) !! NameSet(w) && Elems(Names(t)) + NameSet(w) == NameSet(g)
      && DepsFirst(Names(t), g)
  {
    var o: seq<string> := [];
    assert Elems(o) == {};
    assert forall k :: 0 <= k < |g| ==> g[k] in g;
    RoundAdvances(g, g, o);
    assert o + Names(Round(g, {}).0) == Names(Round(g, {}).0);
  }

  /** The sort succeeds exactly when the dependencies admit some order. */
  lemma SortNamesComplete(g: seq<Entry>)
    requires DistinctNames(g)
    ensures SortNames(g).Success? <==> exists o :: IsTopoOrder(o, g)
  {
    var r := SortNames(g);
    if r.Failure? {
      forall o ensures !IsTopoOrder(o, g) {
        StuckNoOrder(g, Elems(r.error.names), o);
      }
    }
  }

  /** The names without dependencies come first, in declaration order. */
  lemma NoDepsFirst(g: seq<Entry>)
    requires DistinctNames(g) && SortNames(g).Success?
    ensures var t := Round(g, {}).0;
      && (forall e :: e in t <==> e in g && e.deps == {})
      && InFirstOccurrenceOrder(t, g)
      && SortNames(g).value[..|t|] == Names(t)
  {
    RoundParts(g, {});
    RoundKeepsOrder(g, {});
  }

  // ------------------------------------------------------------------
  // Classification
  // ------------------------------------------------------------------

  /** `"[-" in s`. */
  predicate HasNegBracket(s: string) {
    exists i :: 0 <= i < |s| - 1 && s[i] == '[' && s[i + 1] == '-'
  }

  /** `is_regular`: no level carries an expression. */
  predicate IsRegular(f: ConvFactor) {
    forall k :: 0 <= k < |f.levels| ==> f.levels[k].expr.None?
  }

  /** `is_window`: some level's expression contains `[-`; a level without an
      expression reads as the empty string. */
  predicate IsWindowFactor(f: ConvFactor) {
    exists k :: 0 <= k < |f.levels| && HasNegBracket(f.levels[k].expr.GetOr(""))
  }

  /** A window factor is never regular. */
  lemma WindowNotRegular(f: ConvFactor)
    ensures IsWindowFactor(f) ==> !IsRegular(f)
  {
    if IsWindowFactor(f) {
      var k :| 0 <= k < |f.levels| && HasNegBracket(f.levels[k].expr.GetOr(""));
      assert f.levels[k].expr.Some?;
    }
  }

  // ------------------------------------------------------------------
  // Dependencies
  // ------------------------------------------------------------------

  /** The base names `topo_sort_factors` reads from one expression: those of
      `build_window` when the text contains `[-` (which raises when there is
      no negative bracketed integer), else those of `build_within`. */
  function ExprBases(expr: string): (r: Result<seq<string>, Error>)
    ensures r.Failure? <==> HasNegBracket(expr) && forall k :: k in BracketInts(expr) ==> k >= 0
    ensures r.Failure? ==> r.error == NoNegativeOffset
    ensures r.Success? ==> Distinct(r.value) && Elems(r.value) !! Keywords
    ensures r.Success? && !HasNegBracket(expr) ==> Elems(r.value) == Elems(Idents(StripStrings(expr))) - Keywords
    ensures r.Success? && HasNegBracket(expr) ==>
              Elems(r.value) == Elems(IndexedBases(StripStrings(expr))) + Elems(BoundedIdents(StripStrings(expr))) - Keywords
  {
    if HasNegBracket(expr) then
      var b :- BuildWindow(expr);
      Success(b.vars)
    else Success(BuildWithin(expr).vars)
  }

  /** The dependencies one factor's levels contribute: every base name of
      every level expression that is a declared factor other than `n`. The
      first level whose expression fails raises. */
  function LevelsDeps(n: string, ls: seq<ConvLevel>, declared: set<string>): (r: Result<set<string>, Error>)
    ensures r.Success? <==> forall k :: 0 <= k < |ls| && ls[k].expr.Some? ==> ExprBases(ls[k].expr.value).Success?
    ensures r.Success? ==> r.value <= declared && n !in r.value
    ensures r.Success? ==> forall x :: x in r.value <==>
              x in declared && x != n &&
              exists k :: 0 <= k < |ls| && ls[k].expr.Some? && ExprBases(ls[k].expr.value).Success? &&
                          x in ExprBases(ls[k].expr.value).value
  {
    if |ls| == 0 then Success({})
    else
      var here: set<string> :-
        if ls[0].expr.None? then Success({})
        else
          var bs :- ExprBases(ls[0].expr.value);
          Success(set b | b in bs && b in declared && b != n);
      var rest :- LevelsDeps(n, ls[1..], declared);
      LevelsDepsRest(ls, rest);
      Success(here + rest)
  }

  /** What the later levels contribute comes from some level. */
  lemma LevelsDepsRest(ls: seq<ConvLevel>, rest: set<string>)
    requires |ls| > 0
    requires forall x :: x in rest ==>
               exists k :: 0 <= k < |ls[1..]| && ls[1..][k].expr.Some? && ExprBases(ls[1..][k].expr.value).Success? &&
                           x in ExprBases(ls[1..][k].expr.value).value
    ensures forall k :: 1 <= k < |ls| ==> ls[k] == ls[1..][k - 1]
    ensures forall x :: x in rest ==>
              exists k :: 0 <= k < |ls| && ls[k].expr.Some? && ExprBases(ls[k].expr.value).Success? &&
                          x in ExprBases(ls[k].expr.value).value
  {
    forall x | x in rest
      ensures exists k :: 0 <= k < |ls| && ls[k].expr.Some? && ExprBases(ls[k].expr.value).Success? &&
                          x in ExprBases(ls[k].expr.value).value
    {
      var k :| 0 <= k < |ls| - 1 && ls[1..][k].expr.Some? && ExprBases(ls[1..][k].expr.value).Success? &&
               x in ExprBases(ls[1..][k].expr.value).value;
      assert ls[k + 1] == ls[1..][k];
    }
  }

  function FactorNames(fs: seq<ConvFactor>): (r: seq<string>)
    ensures |r| == |fs| && forall k :: 0 <= k < |fs| ==> r[k] == fs[k].name
  {
    seq(|fs|, k requires 0 <= k < |fs| => fs[k].name)
  }

  /** The `for f in factors` loop filling `deps`: every factor adds its
      levels' dependencies to the entry of its name, so a repeated name
      accumulates the dependencies of all its declarations. */
  function AllDeps(fs: seq<ConvFactor>, declared: set<string>): (r: Result<map<string, set<string>>, Error>)
    ensures r.Success? <==> forall k :: 0 <= k < |fs| ==> LevelsDeps(fs[k].name, fs[k].levels, declared).Success?
    ensures r.Success? ==> r.value.Keys == Elems(FactorNames(fs))
    ensures r.Success? ==> forall n :: n in r.value ==> r.value[n] <= declared && n !in r.value[n]
  {
    if |fs| == 0 then Success(map[])
    else
      var init, f := fs[..|fs| - 1], fs[|fs| - 1];
      assert fs == init + [f];
      assert forall k :: 0 <= k < |init| ==> fs[k] == init[k];
      var m :- AllDeps(init, declared);
      var d :- LevelsDeps(f.name, f.levels, declared);
      assert FactorNames(fs) == FactorNames(init) + [f.name];
      ElemsConcat(FactorNames(init), [f.name]);
      Success(m[f.name := (if f.name in m then m[f.name] else {}) + d])
  }

  /** The last declaration adds its dependencies to its name's entry. */
  lemma AllDepsSnoc(fs: seq<ConvFactor>, declared: set<string>)
    requires |fs| > 0 && AllDeps(fs, declared).Success?
    ensures AllDeps(fs[..|fs| - 1], declared).Success?
    ensures LevelsDeps(fs[|fs| - 1].name, fs[|fs| - 1].levels, declared).Success?
    ensures var m, f := AllDeps(fs[..|fs| - 1], declared).value, fs[|fs| - 1];
      AllDeps(fs, declared).value ==
        m[f.name := (if f.name in m then m[f.name] else {}) + LevelsDeps(f.name, f.levels, declared).value]
  {
  }

  /** Declaration `k` of `fs` names `n` and its levels depend on `x`. */
  predicate Contributes(fs: seq<ConvFactor>, declared: set<string>, n: string, x: string, k: int) {
    && 0 <= k < |fs| && fs[k].name == n
    && LevelsDeps(n, fs[k].levels, declared).Success? && x in LevelsDeps(n, fs[k].levels, declared).value
  }

  /** A name's dependencies are the union over all its declarations. */
  lemma {:induction false} AllDepsUnion(fs: seq<ConvFactor>, declared: set<string>, n: string, x: string)
    requires AllDeps(fs, declared).Success? && n in AllDeps(fs, declared).value
    ensures x in AllDeps(fs, declared).value[n] <==> exists k :: Contributes(fs, declared, n, x, k)
  {
    var init, f := fs[..|fs| - 1], fs[|fs| - 1];
    AllDepsSnoc(fs, declared);
    var m := AllDeps(init, declared).value;
    if n in m {
      AllDepsUnion(init, declared, n, x);
    }
    if x in AllDeps(fs, declared).value[n] {
      AllDepsUnionIn(fs, init, declared, n, x);
    }
    if k :| Contributes(fs, declared, n, x, k) {
      AllDepsUnionFrom(fs, init, declared, n, x, k);
    }
  }

  /** A dependency in the map comes from the last declaration or an earlier one. */
  lemma AllDepsUnionIn(fs: seq<ConvFactor>, init: seq<ConvFactor>, declared: set<string>, n: string, x: string)
    requires |fs| > 0 && AllDeps(fs, declared).Success? && n in AllDeps(fs, declared).value
    requires x in AllDeps(fs, declared).value[n]
    requires init == fs[..|fs| - 1]
    requires AllDeps(init, declared).Success? && n in AllDeps(init, declared).value ==>
               (x in AllDeps(init, declared).value[n] <==> exists k :: Contributes(init, declared, n, x, k))
    ensures exists k :: Contributes(fs, declared, n, x, k)
  {
    var f := fs[|fs| - 1];
    AllDepsSnoc(fs, declared);
    if n == f.name && x in LevelsDeps(f.name, f.levels, declared).value {
      assert Contributes(fs, declared, n, x, |fs| - 1);
    } else {
      var k :| Contributes(init, declared, n, x, k);
      assert fs[k] == init[k];
      assert Contributes(fs, declared, n, x, k);
    }
  }

  /** A declaration's dependency is in the map. */
  lemma AllDepsUnionFrom(fs: seq<ConvFactor>, init: seq<ConvFactor>, declared: set<string>, n: string, x: string, k: int)
    requires |fs| > 0 && AllDeps(fs, declared).Success? && Contributes(fs, declared, n, x, k)
    requires init == fs[..|fs| - 1]
    requires AllDeps(init, declared).Success? && n in AllDeps(init, declared).value ==>
               (x in AllDeps(init, declared).value[n] <==> exists k :: Contributes(init, declared, n, x, k))
    ensures n in AllDeps(fs, declared).value && x in AllDeps(fs, declared).value[n]
  {
    AllDepsSnoc(fs, declared);
    var m, f := AllDeps(init, declared).value, fs[|fs| - 1];
    var d := LevelsDeps(f.name, f.levels, declared).value;
    var r := AllDeps(fs, declared).value;
    if k < |init| {
      assert fs[k] == init[k];
      assert FactorNames(init)[k] == n;
      assert n in m;
      assert Contributes(init, declared, n, x, k);
      assert x in m[n];
      if n == f.name {
        assert r[n] == m[n] + d;
      } else {
        assert r[n] == m[n];
      }
    } else {
      assert |init| == |fs| - 1;
      assert k == |fs| - 1;
      assert fs[k] == fs[|fs| - 1];
      assert x in d;
    }
  }

  /** The graph `topo_sort_factors` orders: one entry per distinct name, in
      order of first declaration. */
  function DepGraph(keys: seq<string>, m: map<string, set<string>>): (g: seq<Entry>)
    ensures |g| == |keys| && forall k :: 0 <= k < |keys| ==> g[k] == Entry(keys[k], if keys[k] in m then m[keys[k]] else {})
  {
    seq(|keys|, k requires 0 <= k < |keys| => Entry(keys[k], if keys[k] in m then m[keys[k]] else {}))
  }

  /** The declared factors' dependency graph, when every expression parses. */
  function FactorGraph(fs: seq<ConvFactor>): (r: Result<seq<Entry>, Error>)
    ensures r.Success? ==> DistinctNames(r.value) && Names(r.value) == Dedup(FactorNames(fs))
    ensures r.Success? ==> forall k :: 0 <= k < |r.value| ==>
              r.value[k].name !in r.value[k].deps && r.value[k].deps <= NameSet(r.value)
  {
    var m :- AllDeps(fs, Elems(FactorNames(fs)));
    GraphOfDeps(fs, m);
    Success(DepGraph(Dedup(FactorNames(fs)), m))
  }

  lemma GraphOfDeps(fs: seq<ConvFactor>, m: map<string, set<string>>)
    requires forall n :: n in m ==> m[n] <= Elems(FactorNames(fs)) && n !in m[n]
    ensures var g := DepGraph(Dedup(FactorNames(fs)), m);
      && DistinctNames(g) && Names(g) == Dedup(FactorNames(fs))
      && forall k :: 0 <= k < |g| ==> g[k].name !in g[k].deps && g[k].deps <= NameSet(g)
  {
    var keys := Dedup(FactorNames(fs));
    var g := DepGraph(keys, m);
    assert Names(g) == keys;
    NameSetIsElems(g);
  }

  // ------------------------------------------------------------------
  // topo_sort_factors
  // ------------------------------------------------------------------

  /** The closing `for n in name2factor: if n not in ordered:
      ordered.insert(0, n)` loop. */
  function InsertMissing(keys: seq<string>, o: seq<string>): (r: seq<string>)
    ensures Elems(r) == Elems(o) + Elems(keys)
  {
    if |keys| == 0 then o
    else
      var init, n := keys[..|keys| - 1], keys[|keys| - 1];
      assert keys == init + [n];
      ElemsConcat(init, [n]);
      var r := InsertMissing(init, o);
      if n in r then r else ElemsConcat([n], r); [n] + r
  }

  /** Once every key is ordered, the closing loop inserts nothing. */
  lemma {:induction false} InsertMissingNoop(keys: seq<string>, o: seq<string>)
    requires forall k :: 0 <= k < |keys| ==> keys[k] in o
    ensures InsertMissing(keys, o) == o
  {
    if |keys| > 0 {
      InsertMissingNoop(keys[..|keys| - 1], o);
      assert keys[|keys| - 1] in o;
    }
  }

  /** `name2factor[n]`: the last factor declared under `n`. */
  function LastNamed(fs: seq<ConvFactor>, n: string): (f: ConvFactor)
    requires n in FactorNames(fs)
    ensures exists m :: 0 <= m < |fs| && fs[m] == f && forall m' :: m < m' < |fs| ==> fs[m'].name != n
    ensures f.name == n
  {
    var init, g := fs[..|fs| - 1], fs[|fs| - 1];
    assert fs == init + [g];
    if g.name == n then
      assert fs[|fs| - 1] == g;
      g
    else
      assert FactorNames(init) == FactorNames(fs)[..|fs| - 1];
      assert n in FactorNames(init);
      var f := LastNamed(init, n);
      var m :| 0 <= m < |init| && init[m] == f && forall m' :: m < m' < |init| ==> init[m'].name != n;
      assert fs[m] == f;
      f
  }

  /** A factor is the last declaration of its name. */
  predicate LastDeclared(fs: seq<ConvFactor>, f: ConvFactor) {
    exists m :: 0 <= m < |fs| && fs[m] == f && forall m' :: m < m' < |fs| ==> fs[m'].name != f.name
  }

  /** `[name2factor[n] for n in ordered]`. */
  function PickFactors(fs: seq<ConvFactor>, o: seq<string>): (r: seq<ConvFactor>)
    requires forall i :: 0 <= i < |o| ==> o[i] in FactorNames(fs)
    ensures FactorNames(r) == o
    ensures forall i :: 0 <= i < |r| ==> LastDeclared(fs, r[i])
  {
    var r := seq(|o|, i requires 0 <= i < |o| => LastNamed(fs, o[i]));
    assert FactorNames(r) == o;
    r
  }

  /** `topo_sort_factors`. */
  function TopoSortFactors(fs: seq<ConvFactor>): (r: Result<seq<ConvFactor>, Error>)
    ensures FactorGraph(fs).Failure? ==> r == Failure(FactorGraph(fs).error)
    ensures FactorGraph(fs).Success? ==> (r.Success? <==> exists o :: IsTopoOrder(o, FactorGraph(fs).value))
    ensures FactorGraph(fs).Success? && r.Failure? ==>
              r.error.CyclicDerivedFactors? && Stuck(FactorGraph(fs).value, Elems(r.error.names))
    ensures FactorGraph(fs).Success? ==>
              var g := FactorGraph(fs).value;
              && (r.Success? <==> SortNames(g).Success?)
              && (r.Success? ==> FactorNames(r.value) == SortNames(g).value)
              && (r.Failure? ==> forall s :: Stuck(g, s) ==> s <= Elems(r.error.names))
    ensures r.Success? ==>
              && FactorGraph(fs).Success?
              && IsTopoOrder(FactorNames(r.value), FactorGraph(fs).value)
              && forall i :: 0 <= i < |r.value| ==> LastDeclared(fs, r.value[i])
  {
    var g :- FactorGraph(fs);
    SortNamesComplete(g);
    var o :- SortNames(g);
    SortedAreKeys(fs, g, o);
    InsertMissingNoop(Names(g), o);
    Success(PickFactors(fs, InsertMissing(Names(g), o)))
  }

  lemma SortedAreKeys(fs: seq<ConvFactor>, g: seq<Entry>, o: seq<string>)
    requires Names(g) == Dedup(FactorNames(fs)) && IsTopoOrder(o, g)
    ensures forall k :: 0 <= k < |Names(g)| ==> Names(g)[k] in o
    ensures forall i :: 0 <= i < |o| ==> o[i] in FactorNames(fs)
  {
    NameSetIsElems(g);
    forall k | 0 <= k < |Names(g)| ensures Names(g)[k] in o {
      assert Names(g)[k] in Elems(o);
    }
    forall i | 0 <= i < |o| ensures o[i] in FactorNames(fs) {
      assert o[i] in Elems(o);
      assert o[i] in Elems(FactorNames(fs));
    }
  }
}

=== FILE: convert_tokens.dfy ===
/** The backward direction's expression evaluation (utils/convert/__init__.py):
    the factor references of a predicate as (text, base, offset) tokens,
    ordered longest first, and the per-row evaluator that substitutes cell
    values for the tokens and hands the text to an evaluation oracle. */
module ConvertTokens {
  import opened Wrappers
  import opened Seqs
  import opened Lexer
  import opened DataModel

  /** `(token_string, base_name, index)`. */
  datatype Token = Token(text: string, base: string, offset: int)

  // ------------------------------------------------------------------
  // _compile_tokens
  // ------------------------------------------------------------------

  /** A token text: a base name, optional whitespace, and a bracketed integer. */
  predicate TokenShaped(t: Token) {
    && IsIdentifier(t.base)
    && |t.base| < |t.text|
    && t.text[..|t.base|] == t.base
    && t.text[|t.text| - 1] == ']'
  }

  /** `[A-Za-z_][A-Za-z0-9_]*` matches `name` at `i`, and no further name
      character follows, so no shorter name can be followed by `\s*\[`. */
  predicate NameAt(s: string, i: nat, name: string) {
    && i + |name| <= |s|
    && IsIdentifier(name) && s[i..i + |name|] == name
    && (i + |name| == |s| || !IsWordChar(s[i + |name|]))
  }

  /** `_TOKEN_RE` matches at `i` as token `t`, ending just before `e`: a name,
      the whitespace run after it, and a bracketed integer whose value is the
      offset; the token's text is the whole match. */
  predicate TokenMatchAt(s: string, i: nat, t: Token, e: nat) {
    && e <= |s| && i <= e
    && t.text == s[i..e]
    && NameAt(s, i, t.base)
    && BracketedIntAt(s, SpaceEnd(s, i + |t.base|), e, t.offset)
  }

  /** The name at `i` is the word `WordEnd` finds ... */
  lemma NameAtWord(s: string, i: nat)
    requires i < |s| && IsIdentStart(s[i])
    ensures NameAt(s, i, s[i..WordEnd(s, i)])
  {
    IdentifierSlice(s, i);
  }

  /** ... and only that word is a name at `i`. */
  lemma WordOfNameAt(s: string, i: nat, name: string)
    requires NameAt(s, i, name)
    ensures i < |s| && IsIdentStart(s[i]) && WordEnd(s, i) == i + |name|
  {
    assert s[i] == name[0];
    forall k | i <= k < i + |name| ensures IsWordChar(s[k]) {
      assert s[k] == name[k - i];
    }
    WordEndAt(s, i, i + |name|);
  }

  /** The token matched at `i`, when `_TOKEN_RE` matches there. */
  function TokenAt(s: string, i: nat): (r: Option<(Token, nat)>)
    requires i < |s|
    ensures r.Some? ==> TokenShaped(r.value.0) && i < r.value.1 <= |s|
    ensures forall t: Token, e: nat :: TokenMatchAt(s, i, t, e) ==> r == Some((t, e))
  {
    AllMatchesDetermined(s, i);
    if !IsIdentStart(s[i]) then None
    else
      var j := WordEnd(s, i);
      var b := BracketAt(s, SpaceEnd(s, j));
      if b.None? then None
      else
        TokenSliceShaped(s, i, j, b.value.end, b.value.value);
        Some((Token(s[i..b.value.end], s[i..j], b.value.value), b.value.end))
  }

  /** What `TokenAt` returns is a match of `_TOKEN_RE` at `i`. */
  lemma TokenAtMatches(s: string, i: nat)
    requires i < |s| && TokenAt(s, i).Some?
    ensures TokenMatchAt(s, i, TokenAt(s, i).value.0, TokenAt(s, i).value.1)
  {
    var j := WordEnd(s, i);
    var b := BracketAt(s, SpaceEnd(s, j));
    TokenSliceMatches(s, i, j, b.value.end, b.value.value);
  }

  /** The name at `i`, the whitespace after it and a bracketed integer make
      a match of `_TOKEN_RE`. */
  lemma TokenSliceMatches(s: string, i: nat, j: nat, e: nat, v: int)
    requires i < |s| && IsIdentStart(s[i]) && j == WordEnd(s, i)
    requires BracketedIntAt(s, SpaceEnd(s, j), e, v)
    ensures TokenMatchAt(s, i, Token(s[i..e], s[i..j], v), e)
  {
    assert i + |s[i..j]| == j;
    NameAtWord(s, i);
  }

  /** A match at `i` starts with the word `WordEnd` finds there, and its
      bracketed integer follows the whitespace after that word. */
  lemma MatchBracket(s: string, i: nat, t: Token, e: nat)
    requires TokenMatchAt(s, i, t, e)
    ensures i < |s| && IsIdentStart(s[i])
    ensures BracketedIntAt(s, SpaceEnd(s, WordEnd(s, i)), e, t.offset)
  {
    WordOfNameAt(s, i, t.base);
  }

  /** ... so it is the one `BracketAt` finds there. */
  lemma MatchBracketAt(s: string, i: nat, t: Token, e: nat)
    requires TokenMatchAt(s, i, t, e)
    ensures i < |s| && IsIdentStart(s[i])
    ensures BracketAt(s, SpaceEnd(s, WordEnd(s, i))) == Some(OffsetMatch(t.offset, e))
  {
    MatchBracket(s, i, t, e);
  }

  /** A match's text and name are slices of `s` fixed by `i` and its end. */
  lemma MatchSlices(s: string, i: nat, t: Token, e: nat)
    requires TokenMatchAt(s, i, t, e)
    ensures i < |s| && t == Token(s[i..e], s[i..WordEnd(s, i)], t.offset)
  {
    WordOfNameAt(s, i, t.base);
  }

  /** What any match at `i` fixes: the token is determined by its end, and
      the bracketed integer it holds is the one `BracketAt` finds. */
  lemma AllMatchesDetermined(s: string, i: nat)
    ensures forall t: Token, e: nat :: TokenMatchAt(s, i, t, e) ==>
              && i < |s| && IsIdentStart(s[i])
              && BracketAt(s, SpaceEnd(s, WordEnd(s, i))) == Some(OffsetMatch(t.offset, e))
              && t == Token(s[i..e], s[i..WordEnd(s, i)], t.offset)
  {
    forall t: Token, e: nat | TokenMatchAt(s, i, t, e)
      ensures && i < |s| && IsIdentStart(s[i])
              && BracketAt(s, SpaceEnd(s, WordEnd(s, i))) == Some(OffsetMatch(t.offset, e))
              && t == Token(s[i..e], s[i..WordEnd(s, i)], t.offset)
    {
      MatchBracketAt(s, i, t, e);
      MatchSlices(s, i, t, e);
    }
  }

  /** A word starting at `i` and a text running from `i` past it to a `]`
      make a token of that shape. */
  lemma TokenSliceShaped(s: string, i: nat, j: nat, e: nat, v: int)
    requires i < |s| && IsIdentStart(s[i]) && j == WordEnd(s, i)
    requires j < e <= |s| && s[e - 1] == ']'
    ensures TokenShaped(Token(s[i..e], s[i..j], v))
  {
    IdentifierSlice(s, i);
    assert s[i..e][..j - i] == s[i..j];
  }

  /** `_TOKEN_RE.finditer(s[i..])` for `([A-Za-z_]\w*)\s*\[(-?\d+)\]`, run on
      the whole expression, string literals included. */
  function IndexedTokensFrom(s: string, i: nat): (r: seq<Token>)
    requires i <= |s|
    ensures forall k :: 0 <= k < |r| ==> TokenShaped(r[k])
    decreases |s| - i
  {
    if i == |s| then []
    else
      match TokenAt(s, i)
      case Some((t, e)) => [t] + IndexedTokensFrom(s, e)
      case None => IndexedTokensFrom(s, i + 1)
  }

  function IndexedTokens(s: string): seq<Token> {
    IndexedTokensFrom(s, 0)
  }

  function Bases(ts: seq<Token>): (r: seq<string>)
    ensures |r| == |ts| && forall k :: 0 <= k < |ts| ==> r[k] == ts[k].base
  {
    seq(|ts|, k requires 0 <= k < |ts| => ts[k].base)
  }

  /** The bare-variable step: every `\b`-delimited identifier of the
      literal-free text, in order and with repeats, that is neither a Python
      word nor an already indexed base, read as offset 0. */
  function BareTokens(vars: seq<string>, indexed: set<string>): (r: seq<Token>)
    ensures forall k :: 0 <= k < |r| ==> r[k].text == r[k].base && r[k].offset == 0
    ensures Bases(r) == Without(vars, Keywords + indexed)
  {
    if |vars| == 0 then []
    else
      var init, v := vars[..|vars| - 1], vars[|vars| - 1];
      assert vars == init + [v];
      WithoutSnoc(init, v, Keywords + indexed);
      var r := BareTokens(init, indexed) + (if v in Keywords + indexed then [] else [Token(v, v, 0)]);
      assert Bases(r) == Bases(BareTokens(init, indexed)) + (if v in Keywords + indexed then [] else [v]);
      r
  }

  /** Places `t` before the first element no longer than it: ahead of the
      equally long tokens that follow it in the input, which keeps the sort
      stable. */
  function InsertByLength(t: Token, s: seq<Token>): (r: seq<Token>)
    ensures multiset(r) == multiset([t] + s)
  {
    if |s| == 0 || |s[0].text| <= |t.text| then [t] + s
    else
      assert s == [s[0]] + s[1..];
      [s[0]] + InsertByLength(t, s[1..])
  }

  /** `tokens.sort(key=lambda t: -len(t[0]))`, a stable sort. */
  function SortByLength(ts: seq<Token>): (r: seq<Token>)
    ensures multiset(r) == multiset(ts)
  {
    if |ts| == 0 then []
    else
      assert ts == [ts[0]] + ts[1..];
      InsertByLength(ts[0], SortByLength(ts[1..]))
  }

  predicate LongestFirst(s: seq<Token>) {
    forall i, j :: 0 <= i < j < |s| ==> |s[i].text| >= |s[j].text|
  }

  /** The tokens of a given length, in order. */
  function OfLength(s: seq<Token>, n: nat): (r: seq<Token>)
    ensures forall k :: 0 <= k < |r| ==> |r[k].text| == n
  {
    if |s| == 0 then []
    else (if |s[0].text| == n then [s[0]] else []) + OfLength(s[1..], n)
  }

  lemma InsertByLengthElems(t: Token, s: seq<Token>)
    ensures forall x :: x in InsertByLength(t, s) ==> x == t || x in s
  {
    forall x | x in InsertByLength(t, s) ensures x == t || x in s {
      assert x in multiset(InsertByLength(t, s));
      assert x in multiset([t] + s);
    }
  }

  lemma {:induction false} InsertByLengthSorted(t: Token, s: seq<Token>)
    requires LongestFirst(s)
    ensures LongestFirst(InsertByLength(t, s))
  {
    if |s| > 0 && |s[0].text| > |t.text| {
      var r' := InsertByLength(t, s[1..]);
      InsertByLengthSorted(t, s[1..]);
      InsertByLengthElems(t, s[1..]);
      var r := [s[0]] + r';
      assert r == InsertByLength(t, s);
      forall i, j | 0 <= i < j < |r| ensures |r[i].text| >= |r[j].text| {
        if i == 0 {
          assert r[j] == r'[j - 1] && r'[j - 1] in r';
        } else {
          assert r[i] == r'[i - 1] && r[j] == r'[j - 1];
        }
      }
    }
  }

  lemma OfLengthCons(x: Token, s: seq<Token>, n: nat)
    ensures OfLength([x] + s, n) == (if |x.text| == n then [x] else []) + OfLength(s, n)
  {
    assert ([x] + s)[1..] == s;
  }

  lemma {:induction false} InsertByLengthStable(t: Token, s: seq<Token>, n: nat)
    ensures OfLength(InsertByLength(t, s), n) == OfLength([t] + s, n)
  {
    if |s| > 0 && |s[0].text| > |t.text| {
      var x, rest := s[0], s[1..];
      var r' := InsertByLength(t, rest);
      assert InsertByLength(t, s) == [x] + r';
      InsertByLengthStable(t, rest, n);
      OfLengthCons(x, r', n);
      OfLengthCons(t, rest, n);
      assert [x] + rest == s;
      OfLengthCons(t, s, n);
      OfLengthCons(x, rest, n);
      calc {
        OfLength(InsertByLength(t, s), n);
        (if |x.text| == n then [x] else []) + ((if |t.text| == n then [t] else []) + OfLength(rest, n));
        { SwapOfLength(x, t, n, OfLength(rest, n)); }
        (if |t.text| == n then [t] else []) + ((if |x.text| == n then [x] else []) + OfLength(rest, n));
        OfLength([t] + s, n);
      }
    }
  }

  /** Two tokens of different lengths never both have length `n`, so which is
      picked first does not matter. */
  lemma SwapOfLength(x: Token, t: Token, n: nat, z: seq<Token>)
    requires |x.text| != |t.text|
    ensures (if |x.text| == n then [x] else []) + ((if |t.text| == n then [t] else []) + z) ==
            (if |t.text| == n then [t] else []) + ((if |x.text| == n then [x] else []) + z)
  {
  }

  /** The sort orders longest first and, among equally long tokens, keeps the
      input order: for every length the tokens of that length appear in the
      same order as in the input. */
  lemma {:induction false} SortByLengthStable(ts: seq<Token>)
    ensures LongestFirst(SortByLength(ts))
    ensures forall n: nat :: OfLength(SortByLength(ts), n) == OfLength(ts, n)
  {
    if |ts| > 0 {
      SortByLengthStable(ts[1..]);
      InsertByLengthSorted(ts[0], SortByLength(ts[1..]));
      forall n: nat ensures OfLength(SortByLength(ts), n) == OfLength(ts, n) {
        InsertByLengthStable(ts[0], SortByLength(ts[1..]), n);
        OfLengthCons(ts[0], SortByLength(ts[1..]), n);
        OfLengthCons(ts[0], ts[1..], n);
        assert [ts[0]] + ts[1..] == ts;
      }
    }
  }

  /** `_compile_tokens`: every indexed reference of the whole expression,
      then every bare identifier of the literal-free text that is not a
      Python word or an indexed base, all sorted longest first. Nothing is
      de-duplicated. */
  function CompileTokens(expr: string): (r: seq<Token>)
    ensures multiset(r) == multiset(IndexedTokens(expr) + BareTokens(BoundedIdents(StripStrings(expr)), Elems(Bases(IndexedTokens(expr)))))
    ensures NonEmptyTexts(r)
  {
    var indexed := IndexedTokens(expr);
    var bare := BareTokens(BoundedIdents(StripStrings(expr)), Elems(Bases(indexed)));
    assert NonEmptyTexts(indexed);
    BareNonEmpty(BoundedIdents(StripStrings(expr)), Elems(Bases(indexed)));
    assert NonEmptyTexts(indexed + bare);
    PermutedNonEmpty(SortByLength(indexed + bare), indexed + bare);
    SortByLength(indexed + bare)
  }

  /** No token's text is empty, so replacing it is well defined. */
  predicate NonEmptyTexts(ts: seq<Token>) {
    forall k :: 0 <= k < |ts| ==> |ts[k].text| > 0
  }

  /** A bare token is one of the identifiers it comes from. */
  lemma BareNonEmpty(vars: seq<string>, indexed: set<string>)
    requires forall k :: 0 <= k < |vars| ==> IsIdentifier(vars[k])
    ensures NonEmptyTexts(BareTokens(vars, indexed))
  {
    var bare := BareTokens(vars, indexed);
    forall k | 0 <= k < |bare| ensures |bare[k].text| > 0 {
      assert Bases(bare)[k] in Elems(Without(vars, Keywords + indexed));
      var q :| 0 <= q < |vars| && vars[q] == bare[k].base;
    }
  }

  /** Non-empty texts survive a permutation. */
  lemma PermutedNonEmpty(a: seq<Token>, b: seq<Token>)
    requires multiset(a) == multiset(b) && NonEmptyTexts(b)
    ensures NonEmptyTexts(a)
  {
    forall k | 0 <= k < |a| ensures |a[k].text| > 0 {
      assert a[k] in multiset(b);
      var m :| 0 <= m < |b| && b[m] == a[k];
    }
  }

  // ------------------------------------------------------------------
  // _evaluate_expr
  // ------------------------------------------------------------------

  /** `str(n)` for a natural number. */
  function NatDigits(n: nat): (r: string)
    ensures |r| > 0 && forall k :: 0 <= k < |r| ==> IsDigit(r[k])
    ensures DigitsValue(r) == n
    ensures |r| == 1 || r[0] != '0'
  {
    var d := [('0' as int + n % 10) as char];
    if n < 10 then
      assert DigitsValue(d) == DigitsValue(d[..0]) * 10 + n;
      d
    else
      var p := NatDigits(n / 10);
      var r := p + d;
      assert r[..|r| - 1] == p && r[0] == p[0];
      assert |p| == 1 ==> DigitsValue(p) == DigitsValue(p[..0]) * 10 + ((p[0] as int) - ('0' as int));
      r
  }

  /** The text a cell value is substituted as: a string quoted (as `repr`
      writes one without escapes), a number in decimal, `None` for a missing
      value. */
  function Literal(v: Value): (r: string)
    ensures v.Str? ==> |r| == |v.s| + 2 && r[0] == '\'' && r[|r| - 1] == '\'' && r[1..|r| - 1] == v.s
    ensures v.Num? && v.n >= 0 ==> forall k :: 0 <= k < |r| ==> IsDigit(r[k])
    ensures v.Num? && v.n >= 0 ==> DigitsValue(r) == v.n
    ensures v.Num? && v.n < 0 ==>
              && |r| > 1 && r[0] == '-'
              && (forall k :: 0 <= k < |r[1..]| ==> IsDigit(r[1..][k]))
              && DigitsValue(r[1..]) == -v.n
    ensures v.Num? ==> var ds := if v.n < 0 then r[1..] else r; |ds| > 0 && (|ds| == 1 || ds[0] != '0')
  {
    match v
    case Str(s) => "'" + s + "'"
    case Num(n) =>
      if n < 0 then
        var ds := NatDigits(-n);
        assert ("-" + ds)[1..] == ds;
        "-" + ds
      else NatDigits(n)
    case Null => "None"
  }

  /** Whether `pat` occurs in `s` at position `i`. */
  predicate OccursAt(s: string, pat: string, i: nat) {
    i + |pat| <= |s| && s[i..i + |pat|] == pat
  }

  /** `s.replace(pat, rep)`: every non-overlapping occurrence, scanning left
      to right. */
  function ReplaceAll(s: string, pat: string, rep: string): (r: string)
    requires |pat| > 0
    decreases |s|
  {
    if |s| < |pat| then s
    else if s[..|pat|] == pat then rep + ReplaceAll(s[|pat|..], pat, rep)
    else [s[0]] + ReplaceAll(s[1..], pat, rep)
  }

  /** Replacing a text that does not occur changes nothing. */
  lemma {:induction false} ReplaceAbsent(s: string, pat: string, rep: string)
    requires |pat| > 0 && forall i :: 0 <= i <= |s| ==> !OccursAt(s, pat, i)
    ensures ReplaceAll(s, pat, rep) == s
    decreases |s|
  {
    if |s| >= |pat| {
      assert !OccursAt(s, pat, 0);
      forall i | 0 <= i <= |s[1..]| ensures !OccursAt(s[1..], pat, i) {
        assert !OccursAt(s, pat, i + 1);
        if i + |pat| <= |s[1..]| {
          assert s[1..][i..i + |pat|] == s[i + 1..i + 1 + |pat|];
        }
      }
      ReplaceAbsent(s[1..], pat, rep);
    }
  }

  /** `str.replace` replaces the first occurrence, then carries on scanning
      after it: the text before it is untouched. */
  lemma {:induction false} ReplaceFirst(s: string, pat: string, rep: string, i: nat)
    requires |pat| > 0 && OccursAt(s, pat, i)
    requires forall j :: 0 <= j < i ==> !OccursAt(s, pat, j)
    ensures ReplaceAll(s, pat, rep) == s[..i] + rep + ReplaceAll(s[i + |pat|..], pat, rep)
    decreases i
  {
    if i == 0 {
      ReplaceHit(s, pat, rep);
    } else {
      ShiftOccurs(s, pat, i);
      ReplaceFirst(s[1..], pat, rep, i - 1);
      assert s[1..][i - 1 + |pat|..] == s[i + |pat|..];
      ReplaceAfterMiss(s, pat, rep, i);
    }
  }

  /** A first occurrence past the start: the first character is kept and the
      rest is the shorter string's replacement. */
  lemma ReplaceAfterMiss(s: string, pat: string, rep: string, i: nat)
    requires |pat| > 0 && 0 < i && i + |pat| <= |s| && !OccursAt(s, pat, 0)
    requires ReplaceAll(s[1..], pat, rep) == s[1..][..i - 1] + rep + ReplaceAll(s[i + |pat|..], pat, rep)
    ensures ReplaceAll(s, pat, rep) == s[..i] + rep + ReplaceAll(s[i + |pat|..], pat, rep)
  {
    ReplaceMiss(s, pat, rep);
    assert s[..i] == [s[0]] + s[1..][..i - 1];
    Reassoc([s[0]], s[1..][..i - 1], rep, ReplaceAll(s[i + |pat|..], pat, rep));
  }

  lemma Reassoc<T>(c: seq<T>, a: seq<T>, b: seq<T>, x: seq<T>)
    ensures c + (a + b + x) == (c + a) + b + x
  {
  }

  /** An occurrence at the start is replaced. */
  lemma ReplaceHit(s: string, pat: string, rep: string)
    requires |pat| > 0 && OccursAt(s, pat, 0)
    ensures ReplaceAll(s, pat, rep) == s[..0] + rep + ReplaceAll(s[|pat|..], pat, rep)
  {
    assert s[..|pat|] == pat;
  }

  /** A start that is not an occurrence is kept and the scan moves on. */
  lemma ReplaceMiss(s: string, pat: string, rep: string)
    requires |pat| > 0 && |s| > |pat| && !OccursAt(s, pat, 0)
    ensures ReplaceAll(s, pat, rep) == [s[0]] + ReplaceAll(s[1..], pat, rep)
  {
    assert s[..|pat|] != pat;
  }

  /** Dropping the first character shifts every occurrence left by one. */
  lemma ShiftOccurs(s: string, pat: string, i: nat)
    requires 0 < i && OccursAt(s, pat, i)
    requires forall j :: 0 <= j < i ==> !OccursAt(s, pat, j)
    ensures OccursAt(s[1..], pat, i - 1)
    ensures forall j :: 0 <= j < i - 1 ==> !OccursAt(s[1..], pat, j)
  {
    var t := s[1..];
    assert t[i - 1..i - 1 + |pat|] == s[i..i + |pat|];
    forall j | 0 <= j < i - 1 ensures !OccursAt(t, pat, j) {
      assert !OccursAt(s, pat, j + 1);
      assert t[j..j + |pat|] == s[j + 1..j + 1 + |pat|];
    }
  }

  /** Replacing a text by itself changes nothing. */
  lemma {:induction false} ReplaceSelf(s: string, pat: string)
    requires |pat| > 0
    ensures ReplaceAll(s, pat, pat) == s
    decreases |s|
  {
    if |s| >= |pat| {
      if s[..|pat|] == pat {
        ReplaceSelf(s[|pat|..], pat);
        assert s == s[..|pat|] + s[|pat|..];
      } else {
        ReplaceSelf(s[1..], pat);
        assert s == [s[0]] + s[1..];
      }
    }
  }

  /** A token's row `row + offset` lies outside the table. */
  predicate OutOfRange(t: Token, row: int, height: nat) {
    row + t.offset < 0 || row + t.offset >= height
  }

  /** The cell of column `c` at row `i`. */
  function Cell(t: Table, c: string, i: int): Value
    requires ValidTable(t) && c in t.cells && 0 <= i < t.height
  {
    t.cells[c][i]
  }

  /** The substitution loop of `_evaluate_expr`: for each token in order,
      an out-of-range row ends the evaluation (the function returns `None`),
      a missing column raises, and otherwise every occurrence of the token
      text is replaced by the cell's literal. */
  function Substitute(ts: seq<Token>, text: string, row: int, t: Table): (r: Result<Option<string>, Error>)
    requires ValidTable(t)
    requires forall k :: 0 <= k < |ts| ==> |ts[k].text| > 0
    ensures r.Failure? ==> r.error.MissingColumn? && r.error.name !in t.cells
    ensures (forall k :: 0 <= k < |ts| ==> ts[k].base in t.cells) ==> r.Success?
    ensures (forall k :: 0 <= k < |ts| ==> ts[k].base in t.cells) ==>
              (r.value.Some? <==> forall k :: 0 <= k < |ts| ==> !OutOfRange(ts[k], row, t.height))
  {
    if |ts| == 0 then Success(Some(text))
    else
      var tk := ts[0];
      var i := row + tk.offset;
      if i < 0 || i >= t.height then Success(None)
      else if tk.base !in t.cells then Failure(MissingColumn(tk.base))
      else
        assert forall k :: 0 <= k < |ts[1..]| ==> ts[1..][k] == ts[k + 1];
        Substitute(ts[1..], ReplaceAll(text, tk.text, Literal(Cell(t, tk.base, i))), row, t)
  }

  /** Every token's cell literal, paired with the token text it replaces. */
  function Bindings(ts: seq<Token>, row: int, t: Table): (b: seq<(string, string)>)
    requires ValidTable(t)
    requires forall k :: 0 <= k < |ts| ==> ts[k].base in t.cells && !OutOfRange(ts[k], row, t.height)
    ensures |b| == |ts|
    ensures forall k :: 0 <= k < |ts| ==> b[k].0 == ts[k].text
  {
    if |ts| == 0 then []
    else
      assert forall k :: 0 <= k < |ts[1..]| ==> ts[1..][k] == ts[k + 1];
      assert !OutOfRange(ts[0], row, t.height);
      [(ts[0].text, Literal(Cell(t, ts[0].base, row + ts[0].offset)))] + Bindings(ts[1..], row, t)
  }

  /** Applies `str.replace` for each pair in turn. */
  function ReplaceInOrder(text: string, subs: seq<(string, string)>): string
    requires forall k :: 0 <= k < |subs| ==> |subs[k].0| > 0
    decreases |subs|
  {
    if |subs| == 0 then text
    else ReplaceInOrder(ReplaceAll(text, subs[0].0, subs[0].1), subs[1..])
  }

  /** With every token inside the table and every column present, the
      substituted text is the expression with each token's text replaced by
      its cell's literal, one token after another in the compiled order. */
  lemma {:induction false} SubstituteText(ts: seq<Token>, text: string, row: int, t: Table)
    requires ValidTable(t)
    requires forall k :: 0 <= k < |ts| ==> |ts[k].text| > 0
    requires forall k :: 0 <= k < |ts| ==> ts[k].base in t.cells && !OutOfRange(ts[k], row, t.height)
    ensures Substitute(ts, text, row, t) == Success(Some(ReplaceInOrder(text, Bindings(ts, row, t))))
  {
    if |ts| > 0 {
      var tk := ts[0];
      var text' := ReplaceAll(text, tk.text, Literal(Cell(t, tk.base, row + tk.offset)));
      SubstituteStep(ts, text, row, t);
      BindingsStep(ts, text, row, t);
      SubstituteText(ts[1..], text', row, t);
    }
  }

  /** Replacing in order by every binding is replacing by the first, then by
      the rest. */
  lemma BindingsStep(ts: seq<Token>, text: string, row: int, t: Table)
    requires ValidTable(t) && |ts| > 0
    requires forall k :: 0 <= k < |ts| ==> |ts[k].text| > 0
    requires forall k :: 0 <= k < |ts| ==> ts[k].base in t.cells && !OutOfRange(ts[k], row, t.height)
    ensures forall k :: 0 <= k < |ts[1..]| ==> ts[1..][k].base in t.cells && !OutOfRange(ts[1..][k], row, t.height)
    ensures ReplaceInOrder(text, Bindings(ts, row, t))
      == ReplaceInOrder(ReplaceAll(text, ts[0].text, Literal(Cell(t, ts[0].base, row + ts[0].offset))), Bindings(ts[1..], row, t))
  {
    assert forall k :: 0 <= k < |ts[1..]| ==> ts[1..][k] == ts[k + 1];
  }

  /** A token inside the table whose column exists is replaced, and the
      loop goes on with the rest. */
  lemma SubstituteStep(ts: seq<Token>, text: string, row: int, t: Table)
    requires ValidTable(t) && |ts| > 0
    requires forall k :: 0 <= k < |ts| ==> |ts[k].text| > 0
    requires ts[0].base in t.cells && !OutOfRange(ts[0], row, t.height)
    ensures forall k :: 0 <= k < |ts[1..]| ==> |ts[1..][k].text| > 0
    ensures Substitute(ts, text, row, t)
      == Substitute(ts[1..], ReplaceAll(text, ts[0].text, Literal(Cell(t, ts[0].base, row + ts[0].offset))), row, t)
  {
    assert forall k :: 0 <= k < |ts[1..]| ==> ts[1..][k] == ts[k + 1];
  }

  /** A token outside the table leaves no text to evaluate. */
  lemma {:induction false} SubstituteOutOfRange(ts: seq<Token>, text: string, row: int, t: Table, k: nat)
    requires ValidTable(t)
    requires forall k :: 0 <= k < |ts| ==> |ts[k].text| > 0
    requires k < |ts| && OutOfRange(ts[k], row, t.height)
    ensures Substitute(ts, text, row, t).Failure? || Substitute(ts, text, row, t).value.None?
  {
    var tk := ts[0];
    var i := row + tk.offset;
    if 0 <= i < t.height && tk.base in t.cells {
      var rest := ts[1..];
      assert rest[k - 1] == ts[k];
      assert forall j :: 0 <= j < |rest| ==> rest[j] == ts[j + 1];
      SubstituteOutOfRange(rest, ReplaceAll(text, tk.text, Literal(Cell(t, tk.base, i))), row, t, k - 1);
    }
  }

  lemma SubstituteAnyOutOfRange(ts: seq<Token>, text: string, row: int, t: Table)
    requires ValidTable(t)
    requires forall k :: 0 <= k < |ts| ==> |ts[k].text| > 0
    ensures (exists k :: 0 <= k < |ts| && OutOfRange(ts[k], row, t.height)) ==>
              Substitute(ts, text, row, t).Failure? || Substitute(ts, text, row, t).value.None?
  {
    if k :| 0 <= k < |ts| && OutOfRange(ts[k], row, t.height) {
      SubstituteOutOfRange(ts, text, row, t, k);
    }
  }

  /** `_evaluate_expr(expr, row, df, …)` with Python's `eval` as the oracle
      `eval` (`None` when it raises): any token outside the table makes the
      result falsy, an exception makes it `False`. */
  function EvaluateExpr(expr: string, row: int, t: Table, eval: string -> Option<bool>): (r: Result<bool, Error>)
    requires ValidTable(t)
    ensures (exists k :: 0 <= k < |CompileTokens(expr)| && OutOfRange(CompileTokens(expr)[k], row, t.height)) ==>
              r != Success(true)
    ensures (forall k :: 0 <= k < |CompileTokens(expr)| ==> CompileTokens(expr)[k].base in t.cells) ==> r.Success?
    ensures r.Failure? ==> r.error.MissingColumn? && r.error.name !in t.cells
    ensures r == Success(true) ==> exists e :: eval(e) == Some(true)
    ensures var s := Substitute(CompileTokens(expr), expr, row, t);
              s.Failure? ==> r == Failure(s.error)
    ensures var s := Substitute(CompileTokens(expr), expr, row, t);
              s == Success(None) ==> r == Success(false)
    ensures var s := Substitute(CompileTokens(expr), expr, row, t);
              s.Success? && s.value.Some? ==> r == Success(eval(s.value.value) == Some(true))
  {
    var ts := CompileTokens(expr);
    SubstituteAnyOutOfRange(ts, expr, row, t);
    var sub :- Substitute(ts, expr, row, t);
    match sub
    case None => Success(false)
    case Some(e) =>
      var b := eval(e).GetOr(false);
      assert b ==> eval(e) == Some(true);
      Success(b)
  }
}

=== FILE: data_model.dfy ===
/** The design dictionaries the core consumes, the trial table the converter
    labels, and the failures both directions can raise. Optional fields are
    `Option`s: `None` stands for a missing key (or a `None` value, which the
    source treats the same way wherever it reads the field with `.get`). */
module DataModel {
  import opened Wrappers

  /** A level's `weight` entry: missing (the builders then write 1), `None`, or an integer. */
  datatype Weight = Absent | Null | Int(n: int)

  /** One level dictionary: `name`, optional `weight`, optional `expr`. A level
      without `expr` is static; with one it is derived. */
  datatype LevelSpec = LevelSpec(name: Option<string>, weight: Weight, expr: Option<string>)

  datatype FactorSpec = FactorSpec(name: Option<string>, levels: Option<seq<LevelSpec>>)

  /** A crossing whose first element is a factor name (a single crossing block)
      or a list of names (several blocks). */
  datatype Crossing = Flat(names: seq<string>) | Nested(blocks: seq<seq<string>>)

  datatype DesignSpec = DesignSpec(factors: Option<seq<FactorSpec>>, crossing: Option<Crossing>)

  /** Python truthiness of an optional string field: present and non-empty. */
  predicate Given(o: Option<string>) {
    o.Some? && o.value != ""
  }

  /** A level as the converter reads it: `lv["name"]` and, for a derived
      level, `lv["expr"]`. */
  datatype ConvLevel = ConvLevel(name: string, expr: Option<string>)

  /** A factor as the converter reads it: `f["name"]` and `f["levels"]`. */
  datatype ConvFactor = ConvFactor(name: string, levels: seq<ConvLevel>)

  /** A cell of the trial table: a string, a number, or `None`. */
  datatype Value = Str(s: string) | Num(n: int) | Null

  /** A column-oriented trial table: column names in order, their cells, and
      the number of rows (trials), indexed `0 .. height - 1`. */
  datatype Table = Table(columns: seq<string>, cells: map<string, seq<Value>>, height: nat)

  /** Column names are distinct, are exactly the keys of `cells`, and every
      column has one cell per row. */
  predicate ValidTable(t: Table) {
    && (forall i, j :: 0 <= i < j < |t.columns| ==> t.columns[i] != t.columns[j])
    && (forall c :: c in t.cells ==> c in t.columns)
    && (forall i :: 0 <= i < |t.columns| ==> t.columns[i] in t.cells)
    && (forall c :: c in t.cells ==> |t.cells[c]| == t.height)
  }

  datatype Error =
    | LevelNameMissing                 // a static level without a name
    | LevelNameOrExprMissing           // a derived level without a name or expression
    | NoNegativeOffset                 // `max()` of an empty sequence when sizing a window
    | FactorNameMissing
    | FactorLevelsMissing
    | FactorsMissing
    | CrossingMissing
    | CyclicFactors(names: seq<string>)          // raised by the builder's sort
    | CyclicDerivedFactors(names: seq<string>)   // raised by the converter's sort
    | MissingColumn(name: string)                // a static factor's column, or a referenced one, is absent
    | ExprKeyMissing                             // a level without `expr` inside a derived factor
    | Unorderable                                // `sorted()` over values of different kinds
    | LevelMismatch(column: string, found: seq<Value>, expected: seq<Value>)
}

=== FILE: divergences.dfy ===
/** Where the forward direction (the builder), the backward direction (the
    converter) and the schema rules read the same design differently, and
    where they provably agree. */
module Divergences {
  import opened Wrappers
  import opened Seqs
  import opened Lexer
  import opened DataModel
  import opened Graph
  import opened BuilderExpr
  import opened BuilderLevel
  import opened BuilderDesign
  import opened ConvertOrder
  import opened ConvertTokens
  import opened SchemaExpr
  import opened Examples

  // ------------------------------------------------------------------
  // Expressions without brackets: the three readings agree
  // ------------------------------------------------------------------

  lemma {:induction false} NoBracketNoTokens(s: string, i: nat)
    requires i <= |s| && forall k :: 0 <= k < |s| ==> s[k] != '['
    ensures IndexedTokensFrom(s, i) == []
    decreases |s| - i
  {
    if i < |s| {
      NoBracketNoTokens(s, i + 1);
    }
  }

  lemma {:induction false} NoBracketNoBases(s: string, i: nat)
    requires i <= |s| && forall k :: 0 <= k < |s| ==> s[k] != '['
    ensures IndexedBasesFrom(s, i) == []
    decreases |s| - i
  {
    if i < |s| {
      NoBracketNoBases(s, i + 1);
    }
  }

  /** Stripping literals writes no bracket. */
  lemma StripNoBracket(expr: string)
    requires forall k :: 0 <= k < |expr| ==> expr[k] != '['
    ensures forall k :: 0 <= k < |StripStrings(expr)| ==> StripStrings(expr)[k] != '['
  {
    StripFromChars(expr, 0);
    assert expr[0..] == expr;
  }

  /** Permuting tokens does not change the set of their bases. */
  lemma PermutedBases(r: seq<Token>, q: seq<Token>)
    requires multiset(r) == multiset(q)
    ensures Elems(Bases(r)) == Elems(Bases(q))
  {
    forall x | x in Elems(Bases(r)) ensures x in Elems(Bases(q)) {
      var k :| 0 <= k < |r| && Bases(r)[k] == x;
      assert r[k] in multiset(q);
      var m :| 0 <= m < |q| && q[m] == r[k];
      assert Bases(q)[m] == x;
    }
    forall x | x in Elems(Bases(q)) ensures x in Elems(Bases(r)) {
      var k :| 0 <= k < |q| && Bases(q)[k] == x;
      assert q[k] in multiset(r);
      var m :| 0 <= m < |r| && r[m] == q[k];
      assert Bases(r)[m] == x;
    }
  }

  /** For an expression without brackets in which no identifier directly
      follows a digit, the builder's within-trial dependencies, the window
      builder's names, the dependencies the converter's sort reads and the
      bases of the converter's substitution tokens all name the same factors. */
  lemma ReferenceSetsAgree(expr: string)
    requires forall k :: 0 <= k < |expr| ==> expr[k] != '['
    requires NoIdentAfterDigit(StripStrings(expr))
    ensures Elems(VarsWindow(expr)) == Elems(VarsWithin(expr))
    ensures ExprBases(expr) == Success(VarsWithin(expr))
    ensures Elems(Bases(CompileTokens(expr))) == Elems(VarsWithin(expr))
  {
    var s := StripStrings(expr);
    StripNoBracket(expr);
    NoBracketNoBases(s, 0);
    ScannersAgree(s);
    NoBracketNoTokens(expr, 0);
    assert !HasNegBracket(expr);
    var bare := BareTokens(BoundedIdents(s), Elems(Bases(IndexedTokens(expr))));
    assert Elems(Bases(IndexedTokens(expr))) == {};
    assert IndexedTokens(expr) + bare == bare;
    PermutedBases(CompileTokens(expr), bare);
  }

  // ------------------------------------------------------------------
  // An identifier right after a digit: `x>1e5`
  // ------------------------------------------------------------------

  lemma ExponentChars(e: string)
    requires e == "x>1e5"
    ensures StripStrings(e) == e
    ensures Idents(e) == ["x", "e5"]
  {
    StripPlain(e, 0, 5);
    assert StripFrom(e, 5) == [];
    IdentsWord(e, 3, 5);
    assert e[3..5] == "e5";
    IdentsSkip(e, 1, 3);
    IdentsWord(e, 0, 1);
    assert e[0..1] == "x";
  }

  lemma ExponentBounded(e: string)
    requires e == "x>1e5"
    ensures BoundedIdents(e) == ["x"]
    ensures IndexedTokens(e) == []
  {
    BoundedSkip(e, 4, 5);
    assert BoundedIdentsFrom(e, 3) == BoundedIdentsFrom(e, 4);
    BoundedSkip(e, 1, 3);
    BoundedWord(e, 0, 1);
    assert e[0..1] == "x";
    NoBracketNoTokens(e, 0);
  }

  /** The builder reads the exponent of `1e5` as a factor named `e5`, which
      its sort then cannot place; the converter's `\b`-delimited scan does not. */
  lemma ExponentRead(e: string)
    requires e == "x>1e5"
    ensures VarsWithin(e) == ["x", "e5"]
    ensures CompileTokens(e) == [Token("x", "x", 0)]
  {
    ExponentChars(e);
    ExponentBounded(e);
    ExponentVars(["x", "e5"]);
    ExponentTokens(e);
  }

  lemma ExponentVars(ids: seq<string>)
    requires ids == ["x", "e5"]
    ensures Without(Dedup(ids), Keywords) == ids
  {
    assert Distinct(ids);
    DedupOfDistinct(ids);
    assert "x" !in Keywords && "e5" !in Keywords;
    calc {
      Without(ids, Keywords);
      { assert ids == ["x"] + ["e5"]; }
      Without(["x"] + ["e5"], Keywords);
      { WithoutSnoc(["x"], "e5", Keywords); }
      Without(["x"], Keywords) + ["e5"];
      { assert [] + ["x"] == ["x"]; WithoutSnoc([], "x", Keywords); }
      ["x"] + ["e5"];
    }
  }

  lemma ExponentTokens(e: string)
    requires BoundedIdents(StripStrings(e)) == ["x"] && IndexedTokens(e) == []
    ensures CompileTokens(e) == [Token("x", "x", 0)]
  {
    assert ["x"] == [] + ["x"];
    WithoutSnoc([], "x", Keywords + {});
    assert BareTokens(["x"], {}) == [Token("x", "x", 0)];
    assert Bases(IndexedTokens(e)) == [];
    assert [] + [Token("x", "x", 0)] == [Token("x", "x", 0)];
  }

  // ------------------------------------------------------------------
  // Indexing only the current trial: `color[0]==word[0]`
  // ------------------------------------------------------------------

  lemma CurrentOnlyChars(e: string)
    requires e == "color[0]==word[0]"
    ensures forall k :: 0 <= k < |e| ==> e[k] != '-'
    ensures !IsSpace(e[0])
    ensures e[5] == '[' && e[6] != ']' && e[7] == ']'
  {
  }

  /** The schema accepts `color[0]==word[0]` as a window expression and the
      builder dispatches it to the window builder, which raises (no negative
      offset); the converter does not count its factor as a window factor. */
  lemma CurrentOnlyIndexing(e: string)
    requires e == "color[0]==word[0]"
    ensures WindowValid(Text(e)) && !WithinValid(Text(e))
    ensures LevelBuild(LevelSpec(Some("both"), Absent, Some(e))) == Failure(NoNegativeOffset)
    ensures !IsWindowFactor(ConvFactor("both_current", [ConvLevel("both", Some(e))]))
  {
    CurrentOnlyChars(e);
    HasIndexingChars(e);
    CurrentOnlyBuild(e);
    assert !HasNegBracket(e);
  }

  lemma CurrentOnlyBuild(e: string)
    requires e == "color[0]==word[0]"
    requires HasIndexing(e)
    ensures LevelBuild(LevelSpec(Some("both"), Absent, Some(e))) == Failure(NoNegativeOffset)
  {
    IntsCurrent(e);
    BracketIntsFound(e);
    NoPastNoWindow(e);
  }

  // ------------------------------------------------------------------
  // The two topological sorts break ties differently
  // ------------------------------------------------------------------

  /** a, then b reading a, then c: the builder's pass takes b as soon as a is
      placed, the converter's round waits for the next round. Both orders are
      topological. */
  lemma SortsDiffer(g: seq<Entry>)
    requires g == [Entry("a", {}), Entry("b", {"a"}), Entry("c", {})]
    ensures DistinctNames(g)
    ensures TopoOrder(g) == Success(["a", "b", "c"])
    ensures SortNames(g) == Success(["a", "c", "b"])
  {
    BuilderTakesAll(g);
    ConverterWaits(g);
  }

  lemma BuilderPass(g: seq<Entry>)
    requires g == [Entry("a", {}), Entry("b", {"a"}), Entry("c", {})]
    ensures Pass(g, {}) == (g, [])
  {
    var a, b, c := g[0], g[1], g[2];
    assert Pass([], {}) == ([], []);
    assert Pass([a], {}) == ([a], []) by {
      assert [a][..0] == [];
      assert [] + [a] == [a];
    }
    assert Pass([a, b], {}) == ([a, b], []) by {
      assert [a, b][..1] == [a];
      assert Names([a]) == ["a"];
      assert "a" in Elems(Names([a]));
      assert [a] + [b] == [a, b];
    }
    assert g[..2] == [a, b];
    assert [a, b] + [c] == g;
  }

  /** The preconditions the loops of both sorts need, for this graph. */
  lemma ExampleGraph(g: seq<Entry>)
    requires g == [Entry("a", {}), Entry("b", {"a"}), Entry("c", {})]
    ensures DistinctNames(g) && Names(g) == ["a", "b", "c"]
    ensures NameSet(g) == {"a", "b", "c"}
    ensures forall k :: 0 <= k < |g| ==> g[k] in g
  {
    NameSetIsElems(g);
  }

  lemma ExampleDepsFirst(g: seq<Entry>, o: seq<string>)
    requires g == [Entry("a", {}), Entry("b", {"a"}), Entry("c", {})]
    requires o == [] || o == ["a", "b", "c"] || o == ["a", "c"] || o == ["a", "c", "b"]
    ensures DepsFirst(o, g)
  {
    forall k, i | 0 <= k < |g| && 0 <= i < |o| && o[i] == g[k].name
      ensures g[k].deps <= Elems(o[..i])
    {
      if k == 1 {
        assert o[..i][0] == "a";
      }
    }
  }

  lemma BuilderTakesAll(g: seq<Entry>)
    requires g == [Entry("a", {}), Entry("b", {"a"}), Entry("c", {})]
    ensures DistinctNames(g)
    ensures TopoOrder(g) == Success(["a", "b", "c"])
  {
    BuilderPass(g);
    ExampleGraph(g);
    ExampleDepsFirst(g, ["a", "b", "c"]);
    OnePass(g);
  }

  /** When the first pass takes every entry, the order is the declaration order. */
  lemma OnePass(g: seq<Entry>)
    requires DistinctNames(g) && g != [] && Pass(g, {}) == (g, [])
    requires DepsFirst(Names(g), g)
    ensures TopoOrder(g) == Success(Names(g))
  {
    NameSetIsElems(g);
    assert Elems<string>([]) == {};
    assert [] + Names(g) == Names(g);
    assert NameSet([]) == {};
    assert TopoLoop(g, [], Names(g)) == Success(Names(g));
  }

  lemma ConverterRounds(g: seq<Entry>)
    requires g == [Entry("a", {}), Entry("b", {"a"}), Entry("c", {})]
    ensures Round(g, {}) == ([g[0], g[2]], [g[1]])
    ensures Round([g[1]], {"a", "c"}) == ([g[1]], [])
  {
    var a, b, c := g[0], g[1], g[2];
    assert Round([], {}) == ([], []);
    assert Round([a], {}) == ([a], []) by {
      assert [a][..0] == [];
      assert [] + [a] == [a];
    }
    assert Round([a, b], {}) == ([a], [b]) by {
      assert [a, b][..1] == [a];
      assert [] + [b] == [b];
    }
    assert g[..2] == [a, b];
    assert [a] + [c] == [a, c];
    assert [b][..0] == [];
    assert [] + [b] == [b];
  }

  lemma ConverterWaits(g: seq<Entry>)
    requires g == [Entry("a", {}), Entry("b", {"a"}), Entry("c", {})]
    ensures DistinctNames(g)
    ensures SortNames(g) == Success(["a", "c", "b"])
  {
    ConverterRounds(g);
    ExampleGraph(g);
    var a, b, c := g[0], g[1], g[2];
    RoundNames(g);
    ExampleDepsFirst(g, ["a", "c"]);
    ExampleDepsFirst(g, ["a", "c", "b"]);
    RoundNameSets(g);
    TwoRounds(g, [a, c], [b]);
  }

  lemma RoundNames(g: seq<Entry>)
    requires g == [Entry("a", {}), Entry("b", {"a"}), Entry("c", {})]
    ensures Names([g[0], g[2]]) == ["a", "c"] && Names([g[1]]) == ["b"]
    ensures Names([g[0], g[2]]) + Names([g[1]]) == ["a", "c", "b"]
    ensures Distinct(["a", "c", "b"])
  {
  }

  lemma RoundNameSets(g: seq<Entry>)
    requires g == [Entry("a", {}), Entry("b", {"a"}), Entry("c", {})]
    requires NameSet(g) == {"a", "b", "c"}
    ensures DistinctNames([g[1]]) && forall k :: 0 <= k < |[g[1]]| ==> [g[1]][k] in g
    ensures Elems(["a", "c"]) == {"a", "c"}
    ensures NameSet([g[1]]) == {"b"}
  {
    assert [g[1]][0] == g[1];
    assert forall e :: e in [g[1]] <==> e == g[1];
  }

  /** When the first round leaves `w` and the second takes all of it, the
      order is the first round's names, then the second's. */
  lemma TwoRounds(g: seq<Entry>, t: seq<Entry>, w: seq<Entry>)
    requires DistinctNames(g) && DistinctNames(w)
    requires Round(g, {}) == (t, w) && t != [] && w != []
    requires Round(w, Elems(Names(t))) == (w, [])
    requires forall k :: 0 <= k < |w| ==> w[k] in g
    requires Distinct(Names(t) + Names(w)) && Elems(Names(t)) !! NameSet(w)
    requires Elems(Names(t)) + NameSet(w) == NameSet(g)
    requires DepsFirst(Names(t), g) && DepsFirst(Names(t) + Names(w), g)
    ensures SortNames(g) == Success(Names(t) + Names(w))
  {
    var o := Names(t) + Names(w);
    assert Distinct(Names(t)) by {
      forall i, j | 0 <= i < j < |Names(t)| ensures Names(t)[i] != Names(t)[j] {
        assert o[i] == Names(t)[i] && o[j] == Names(t)[j];
      }
    }
    LastRound(g, w, Names(t));
  }

  /** A round that takes every waiting entry ends the loop. */
  lemma LastRound(g: seq<Entry>, w: seq<Entry>, ordered: seq<string>)
    requires DistinctNames(g) && DistinctNames(w) && Distinct(ordered)
    requires forall k :: 0 <= k < |w| ==> w[k] in g
    requires Elems(ordered) !! NameSet(w) && Elems(ordered) + NameSet(w) == NameSet(g)
    requires DepsFirst(ordered, g)
    requires Distinct(ordered + Names(w)) && DepsFirst(ordered + Names(w), g)
    requires w != [] && Round(w, Elems(ordered)) == (w, [])
    ensures Rounds(g, w, ordered) == Success(ordered + Names(w))
  {
    var o := ordered + Names(w);
    NameSetIsElems(w);
    ElemsConcat(ordered, Names(w));
    assert NameSet([]) == {};
    assert Rounds(g, [], o) == Success(o);
  }
}

=== FILE: examples.dfy ===
/** The examples the source documents (its doctests and docstrings), each
    evaluated on the model. A literal string is walked through the scanners
    in two kinds of steps: lemmas that read off a few character facts of the
    literal, and lemmas that run the scanners on any string with those facts. */
module Examples {
  import opened Wrappers
  import opened Seqs
  import opened Lexer
  import opened DataModel
  import opened BuilderExpr
  import opened BuilderLevel

  /** No quote character in `s[i..j]`. */
  predicate NoQuote(s: string, i: nat, j: nat) {
    i <= j <= |s| && forall k :: i <= k < j ==> !IsQuote(s[k])
  }

  /** No `[` in `s[i..j]`. */
  predicate NoOpen(s: string, i: nat, j: nat) {
    i <= j <= |s| && forall k :: i <= k < j ==> s[k] != '['
  }

  /** A complete literal from `i` to `k`: a quote, no second one of its kind
      before `k`, and the same quote at `k`. */
  predicate LiteralAt(s: string, i: nat, k: int) {
    i < k < |s| && IsQuote(s[i]) && s[k] == s[i] && forall m :: i < m < k ==> s[m] != s[i]
  }

  /** `[-d]` at `i`, one digit. */
  predicate NegDigitAt(s: string, i: nat) {
    i + 4 <= |s| && s[i] == '[' && s[i + 1] == '-' && IsDigit(s[i + 2]) && s[i + 3] == ']'
  }

  /** `[d]` at `i`, one digit. */
  predicate DigitAt(s: string, i: nat) {
    i + 3 <= |s| && s[i] == '[' && IsDigit(s[i + 1]) && s[i + 2] == ']'
  }

  // ------------------------------------------------------------------
  // build_within('color=="red" and word=="green"')
  // ------------------------------------------------------------------

  /** A literal that closes the string, after a quote-free stretch. */
  lemma StripClosing(e: string, i: nat, j: nat)
    requires NoQuote(e, i, j) && LiteralAt(e, j, |e| - 1)
    requires |e| > 0
    ensures StripFrom(e, i) == e[i..j] + " "
  {
    StripLiteral(e, j, |e| - 1);
    assert StripFrom(e, |e|) == [];
    StripPlain(e, i, j);
  }

  /** A quote-free stretch, then a literal from `i` to `k`. */
  lemma StripOpening(e: string, i: nat, k: nat)
    requires NoQuote(e, 0, i) && LiteralAt(e, i, k)
    ensures StripStrings(e) == e[..i] + " " + StripFrom(e, k + 1)
  {
    StripLiteral(e, i, k);
    StripPlain(e, 0, i);
    assert e[0..i] == e[..i];
  }

  lemma RedGreenChars1(e: string)
    requires e == "color==\"red\" and word==\"green\""
    ensures |e| == 30 && NoQuote(e, 0, 7) && e[..7] == "color=="
  {
  }

  lemma RedGreenChars2(e: string)
    requires e == "color==\"red\" and word==\"green\""
    ensures LiteralAt(e, 7, 11)
  {
  }

  lemma RedGreenChars3(e: string)
    requires e == "color==\"red\" and word==\"green\""
    ensures NoQuote(e, 12, 23) && e[12..23] == " and word=="
  {
  }

  lemma RedGreenChars4(e: string)
    requires e == "color==\"red\" and word==\"green\""
    ensures |e| == 30 && LiteralAt(e, 23, 29)
  {
  }

  lemma StripRedGreen(e: string)
    requires e == "color==\"red\" and word==\"green\""
    ensures StripStrings(e) == "color==  and word== "
  {
    RedGreenChars1(e);
    RedGreenChars2(e);
    RedGreenChars3(e);
    RedGreenChars4(e);
    StripClosing(e, 12, 23);
    StripOpening(e, 7, 11);
  }

  lemma IdentsChars1(s: string)
    requires s == "color==  and word== "
    ensures |s| == 20 && WordThenSkip(s, 0, 5, 9) && s[0..5] == "color"
  {
  }

  lemma IdentsChars2(s: string)
    requires s == "color==  and word== "
    ensures WordThenSkip(s, 9, 12, 13) && s[9..12] == "and"
  {
  }

  lemma IdentsChars3(s: string)
    requires s == "color==  and word== "
    ensures |s| == 20 && WordThenSkip(s, 13, 17, 20) && s[13..17] == "word"
  {
  }

  lemma IdentsRedGreen(s: string)
    requires s == "color==  and word== "
    ensures Idents(s) == ["color", "and", "word"]
  {
    IdentsChars1(s);
    IdentsChars2(s);
    IdentsChars3(s);
    assert IdentsFrom(s, 20) == [];
    IdentsWordThenSkip(s, 13, 17, 20);
    IdentsWordThenSkip(s, 9, 12, 13);
    IdentsWordThenSkip(s, 0, 5, 9);
  }

  lemma WithoutKeepDropKeep<T>(a: T, b: T, c: T, bad: set<T>)
    requires a !in bad && b in bad && c !in bad
    ensures Without([a, b, c], bad) == [a, c]
  {
    assert [a] == [] + [a] && [a, b] == [a] + [b] && [a, b, c] == [a, b] + [c];
    WithoutSnoc([], a, bad);
    WithoutSnoc([a], b, bad);
    WithoutSnoc([a, b], c, bad);
  }

  lemma WithoutKeepKeepDrop<T>(a: T, b: T, c: T, bad: set<T>)
    requires a !in bad && b !in bad && c in bad
    ensures Without([a, b, c], bad) == [a, b]
  {
    assert [a] == [] + [a] && [a, b] == [a] + [b] && [a, b, c] == [a, b] + [c];
    WithoutSnoc([], a, bad);
    WithoutSnoc([a], b, bad);
    WithoutSnoc([a, b], c, bad);
  }

  /** Removing the keywords from the scanned names. */
  lemma WithoutAnd(ids: seq<string>)
    requires ids == ["color", "and", "word"]
    ensures Without(Dedup(ids), Keywords) == ["color", "word"]
  {
    assert Distinct(ids);
    DedupOfDistinct(ids);
    WithoutKeepDropKeep("color", "and", "word", Keywords);
  }

  /** Names inside string literals are not factor references, and `and` is a keyword. */
  lemma VarsWithinRedGreen(e: string)
    requires e == "color==\"red\" and word==\"green\""
    ensures VarsWithin(e) == ["color", "word"]
  {
    StripRedGreen(e);
    IdentsRedGreen("color==  and word== ");
    WithoutAnd(["color", "and", "word"]);
  }

  // ------------------------------------------------------------------
  // build_window('color[-1]==word[0] and word[-1]=="green"')
  // ------------------------------------------------------------------

  lemma StripMixed(e: string)
    requires e == "color[-1]==word[0] and word[-1]==\"green\""
    ensures StripStrings(e) == "color[-1]==word[0] and word[-1]== "
  {
    StripLiteral(e, 33, 39);
    assert StripFrom(e, 33) == " ";
    StripPlain(e, 0, 33);
    assert e[0..33] == "color[-1]==word[0] and word[-1]==";
  }

  /** The character classes of `color[-1]==word[0] and word[-1]== ` that the
      scanners look at, in four stretches. */
  predicate MixedPart1(s: string) {
    |s| == 34 && WordThenSkip(s, 0, 5, 11) && s[5] == '['
  }

  predicate MixedPart2(s: string) {
    |s| == 34 && WordThenSkip(s, 11, 15, 19) && s[15] == '[' && !IsWordChar(s[10])
  }

  predicate MixedPart3(s: string) {
    && |s| == 34 && WordThenSkip(s, 19, 22, 23) && !IsWordChar(s[18])
    && IsSpace(s[22]) && !IsSpace(s[23]) && s[23] != '['
  }

  predicate MixedPart4(s: string) {
    |s| == 34 && WordThenSkip(s, 23, 27, 34) && s[27] == '['
  }

  lemma MixedChars1(s: string)
    requires s == "color[-1]==word[0] and word[-1]== "
    ensures MixedPart1(s) && s[0..5] == "color"
  {
  }

  lemma MixedChars2(s: string)
    requires s == "color[-1]==word[0] and word[-1]== "
    ensures MixedPart2(s) && s[11..15] == "word"
  {
    MixedSecondWord(s);
  }

  lemma MixedSecondWord(s: string)
    requires s == "color[-1]==word[0] and word[-1]== "
    ensures s[11..15] == "word"
  {
    assert s[11] == 'w';
    assert s[12] == 'o';
    assert s[13] == 'r';
    assert s[14] == 'd';
  }

  lemma MixedChars3(s: string)
    requires s == "color[-1]==word[0] and word[-1]== "
    ensures MixedPart3(s) && s[19..22] == "and"
  {
  }

  lemma MixedChars4(s: string)
    requires s == "color[-1]==word[0] and word[-1]== "
    ensures MixedPart4(s) && s[23..27] == "word"
  {
  }

  lemma MixedIndexedTail(s: string)
    requires MixedPart2(s) && MixedPart3(s) && MixedPart4(s)
    ensures IndexedBasesFrom(s, 16) == [s[23..27]]
  {
    assert IndexedBasesFrom(s, 34) == [];
    IndexedSkip(s, 28, 34);
    IndexedWord(s, 23, 27);
    IndexedSkip(s, 22, 23);
    IndexedWordSkip(s, 19, 22, 23);
    IndexedSkip(s, 16, 19);
  }

  lemma MixedIndexedMiddle(s: string)
    requires MixedPart2(s)
    ensures IndexedBasesFrom(s, 11) == [s[11..15]] + IndexedBasesFrom(s, 16)
  {
    IndexedWord(s, 11, 15);
  }

  lemma MixedIndexedHead(s: string)
    requires MixedPart1(s)
    ensures IndexedBases(s) == [s[0..5]] + IndexedBasesFrom(s, 11)
  {
    IndexedSkip(s, 6, 11);
    IndexedWord(s, 0, 5);
  }

  lemma MixedBoundedShape(s: string)
    requires MixedPart1(s) && MixedPart2(s) && MixedPart3(s) && MixedPart4(s)
    ensures BoundedIdents(s) == [s[0..5], s[11..15], s[19..22], s[23..27]]
  {
    assert BoundedIdentsFrom(s, 34) == [];
    BoundedWordThenSkip(s, 23, 27, 34);
    BoundedWordThenSkip(s, 19, 22, 23);
    BoundedWordThenSkip(s, 11, 15, 19);
    BoundedWordThenSkip(s, 0, 5, 11);
  }

  lemma IndexedMixed(s: string)
    requires s == "color[-1]==word[0] and word[-1]== "
    ensures IndexedBases(s) == ["color", "word", "word"]
  {
    MixedChars1(s);
    MixedChars2(s);
    MixedChars3(s);
    MixedChars4(s);
    MixedIndexedTail(s);
    MixedIndexedMiddle(s);
    MixedIndexedHead(s);
  }

  lemma BoundedMixed(s: string)
    requires s == "color[-1]==word[0] and word[-1]== "
    ensures BoundedIdents(s) == ["color", "word", "and", "word"]
  {
    MixedChars1(s);
    MixedChars2(s);
    MixedChars3(s);
    MixedChars4(s);
    MixedBoundedShape(s);
  }

  lemma DedupRepeatsPrefix<T>(a: T, b: T)
    requires a != b
    ensures Dedup([a, b, b, a, b]) == [a, b]
  {
    assert Distinct([a, b]);
    DedupOfDistinct([a, b]);
    DedupAbsorb([a, b], [b, a, b]);
    assert [a, b] + [b, a, b] == [a, b, b, a, b];
  }

  /** Two distinct names, then a third one, with repeats in between. */
  lemma DedupRepeats<T>(a: T, b: T, c: T)
    requires a != b && c != a && c != b
    ensures Dedup([a, b, b, a, b, c, b]) == [a, b, c]
  {
    var q := [a, b, b, a, b];
    DedupRepeatsPrefix(a, b);
    DedupSnoc(q, c);
    DedupAbsorb(q + [c], [b]);
    assert [a, b, b, a, b, c, b] == (q + [c]) + [b];
  }

  lemma DedupMixed(ids: seq<string>)
    requires ids == ["color", "word", "word", "color", "word", "and", "word"]
    ensures Dedup(ids) == ["color", "word", "and"]
  {
    DedupRepeats("color", "word", "and");
  }

  lemma WithoutMixed(ids: seq<string>)
    requires ids == ["color", "word", "and"]
    ensures Without(ids, Keywords) == ["color", "word"]
  {
    WithoutKeepKeepDrop("color", "word", "and", Keywords);
  }

  lemma NamesMixed(s: string)
    requires s == "color[-1]==word[0] and word[-1]== "
    ensures Without(Dedup(IndexedBases(s) + BoundedIdents(s)), Keywords) == ["color", "word"]
  {
    IndexedMixed(s);
    BoundedMixed(s);
    var ids := ["color", "word", "word"] + ["color", "word", "and", "word"];
    assert ids == ["color", "word", "word", "color", "word", "and", "word"];
    DedupMixed(ids);
    WithoutMixed(["color", "word", "and"]);
  }

  /** Bracket-preceded names come first; the literal contributes nothing. */
  lemma VarsWindowMixed(e: string)
    requires e == "color[-1]==word[0] and word[-1]==\"green\""
    ensures VarsWindow(e) == ["color", "word"]
  {
    StripMixed(e);
    NamesMixed(StripStrings(e));
  }

  // ------------------------------------------------------------------
  // window widths
  // ------------------------------------------------------------------

  /** `[-d1]` at 5 and `[d2]` at 16, with no other bracket, in 19 characters. */
  lemma OneBackInts(e: string)
    requires |e| == 19 && NoOpen(e, 0, 5) && NegDigitAt(e, 5) && NoOpen(e, 9, 16) && DigitAt(e, 16)
    ensures BracketInts(e) == [('0' as int) - (e[7] as int), (e[17] as int) - ('0' as int)]
  {
    BracketDigit(e, 16);
    assert BracketIntsFrom(e, 19) == [];
    BracketSkip(e, 9, 16);
    BracketNegDigit(e, 5);
    BracketSkip(e, 0, 5);
  }

  lemma PreviousChars1(e: string)
    requires e == "color[-1]==color[0]"
    ensures |e| == 19 && NoOpen(e, 0, 5) && NegDigitAt(e, 5) && e[7] == '1'
  {
  }

  lemma PreviousChars2(e: string)
    requires e == "color[-1]==color[0]"
    ensures NoOpen(e, 9, 16) && DigitAt(e, 16) && e[17] == '0'
  {
  }

  lemma IntsPrevious(e: string)
    requires e == "color[-1]==color[0]"
    ensures BracketInts(e) == [-1, 0]
  {
    PreviousChars1(e);
    PreviousChars2(e);
    OneBackInts(e);
  }

  /** A one-back comparison spans two trials. */
  lemma WidthTwo(e: string)
    requires e == "color[-1]==color[0]"
    ensures BuildWindow(e).Success? && BuildWindow(e).value.width == 2
  {
    IntsPrevious(e);
    assert Negatives([-1, 0]) == [-1];
  }

  /** The second half of `color[-2]==color[0] and color[-1]==color[0]`. */
  lemma TwoBackTail(e: string)
    requires |e| == 43 && NoOpen(e, 19, 29) && NegDigitAt(e, 29) && NoOpen(e, 33, 40) && DigitAt(e, 40)
    ensures BracketIntsFrom(e, 19) == [('0' as int) - (e[31] as int), (e[41] as int) - ('0' as int)]
  {
    BracketDigit(e, 40);
    assert BracketIntsFrom(e, 43) == [];
    BracketSkip(e, 33, 40);
    BracketNegDigit(e, 29);
    BracketSkip(e, 19, 29);
  }

  lemma TwoBackHead(e: string)
    requires |e| == 43 && NoOpen(e, 0, 5) && NegDigitAt(e, 5) && NoOpen(e, 9, 16) && DigitAt(e, 16)
    ensures BracketInts(e) ==
              [('0' as int) - (e[7] as int), (e[17] as int) - ('0' as int)] + BracketIntsFrom(e, 19)
  {
    BracketDigit(e, 16);
    BracketSkip(e, 9, 16);
    BracketNegDigit(e, 5);
    BracketSkip(e, 0, 5);
  }

  lemma TwoBackChars1(e: string)
    requires e == "color[-2]==color[0] and color[-1]==color[0]"
    ensures |e| == 43 && NoOpen(e, 0, 5) && NegDigitAt(e, 5) && e[7] == '2'
  {
  }

  lemma TwoBackChars2(e: string)
    requires e == "color[-2]==color[0] and color[-1]==color[0]"
    ensures NoOpen(e, 9, 16) && DigitAt(e, 16) && e[17] == '0'
  {
  }

  lemma TwoBackChars3(e: string)
    requires e == "color[-2]==color[0] and color[-1]==color[0]"
    ensures NoOpen(e, 19, 29) && NegDigitAt(e, 29) && e[31] == '1'
  {
  }

  lemma TwoBackChars4(e: string)
    requires e == "color[-2]==color[0] and color[-1]==color[0]"
    ensures |e| == 43 && NoOpen(e, 33, 40) && DigitAt(e, 40) && e[41] == '0'
  {
  }

  lemma IntsTwoBack(e: string)
    requires e == "color[-2]==color[0] and color[-1]==color[0]"
    ensures BracketInts(e) == [-2, 0, -1, 0]
  {
    TwoBackChars1(e);
    TwoBackChars2(e);
    TwoBackChars3(e);
    TwoBackChars4(e);
    TwoBackTail(e);
    TwoBackHead(e);
  }

  /** Two back spans three trials. */
  lemma WidthThree(e: string)
    requires e == "color[-2]==color[0] and color[-1]==color[0]"
    ensures BuildWindow(e).Success? && BuildWindow(e).value.width == 3
  {
    IntsTwoBack(e);
    assert Negatives([-2, 0, -1, 0]) == [-2, -1];
    assert MaxMagnitude([-2, -1]) == 2;
  }

  lemma IntsCurrent(e: string)
    requires e == "color[0]==word[0]"
    ensures BracketInts(e) == [0, 0]
  {
    BracketDigit(e, 14);
    assert BracketIntsFrom(e, 17) == [];
    BracketSkip(e, 8, 14);
    BracketDigit(e, 5);
    BracketSkip(e, 0, 5);
  }

  /** Indexing only the current trial leaves `max()` nothing to size the window by. */
  lemma NoPastNoWindow(e: string)
    requires e == "color[0]==word[0]"
    ensures BuildWindow(e) == Failure(NoNegativeOffset)
  {
    IntsCurrent(e);
  }

  // ------------------------------------------------------------------
  // level_builder({"name": "switch", "expr": "color[-1]!=color[0]"})
  // ------------------------------------------------------------------

  lemma SwitchChars1(e: string)
    requires e == "color[-1]!=color[0]"
    ensures |e| == 19 && NoQuote(e, 0, 19)
  {
  }

  lemma SwitchChars2(e: string)
    requires e == "color[-1]!=color[0]"
    ensures WordThenSkip(e, 0, 5, 11) && e[5] == '[' && e[0..5] == "color"
  {
  }

  lemma SwitchChars3(e: string)
    requires e == "color[-1]!=color[0]"
    ensures WordThenSkip(e, 11, 16, 19) && e[16] == '[' && !IsWordChar(e[10]) && e[11..16] == "color"
  {
  }

  lemma SwitchScanned(s: string)
    requires |s| == 19 && NoQuote(s, 0, 19)
    requires WordThenSkip(s, 0, 5, 11) && s[5] == '['
    requires WordThenSkip(s, 11, 16, 19) && s[16] == '[' && !IsWordChar(s[10])
    ensures StripStrings(s) == s
    ensures IndexedBases(s) == [s[0..5], s[11..16]]
    ensures BoundedIdents(s) == [s[0..5], s[11..16]]
  {
    StripQuoteFree(s);
    assert IndexedBasesFrom(s, 19) == [];
    IndexedSkip(s, 17, 19);
    IndexedWord(s, 11, 16);
    IndexedSkip(s, 6, 11);
    IndexedWord(s, 0, 5);
    assert BoundedIdentsFrom(s, 19) == [];
    BoundedWordThenSkip(s, 11, 16, 19);
    BoundedWordThenSkip(s, 0, 5, 11);
  }

  /** One name, indexed twice and read twice: it is kept once. */
  lemma OneNameFourTimes(x: string)
    requires x !in Keywords
    ensures Without(Dedup([x, x] + [x, x]), Keywords) == [x]
  {
    DedupAbsorb([x], [x, x, x]);
    assert [x, x] + [x, x] == [x] + [x, x, x];
    assert Dedup([x]) == [x] by { assert [x][..0] == []; }
    WithoutSnoc([], x, Keywords);
    assert [] + [x] == [x];
  }

  lemma SwitchVars(e: string)
    requires e == "color[-1]!=color[0]"
    ensures VarsWindow(e) == ["color"]
  {
    SwitchChars1(e);
    SwitchChars2(e);
    SwitchChars3(e);
    SwitchScanned(e);
    OneNameFourTimes("color");
  }

  lemma SwitchBrackets1(e: string)
    requires e == "color[-1]!=color[0]"
    ensures |e| == 19 && NoOpen(e, 0, 5) && NegDigitAt(e, 5) && e[7] == '1'
  {
  }

  lemma SwitchBrackets2(e: string)
    requires e == "color[-1]!=color[0]"
    ensures NoOpen(e, 9, 16) && DigitAt(e, 16) && e[17] == '0'
  {
  }

  lemma SwitchInts(e: string)
    requires e == "color[-1]!=color[0]"
    ensures BracketInts(e) == [-1, 0]
  {
    SwitchBrackets1(e);
    SwitchBrackets2(e);
    OneBackInts(e);
  }

  /** The documented switch level: a window over two trials reading `color`. */
  lemma SwitchLevel(e: string)
    requires e == "color[-1]!=color[0]"
    ensures var r := LevelBuild(LevelSpec(Some("switch"), Absent, Some(e)));
      && r.Success?
      && r.value.code.name == "switch"
      && r.value.code.pred.Window?
      && r.value.code.pred.width == 2
      && r.value.deps == ["color"]
  {
    SwitchInts(e);
    BracketIntsFound(e);
    assert Negatives([-1, 0]) == [-1];
    SwitchVars(e);
  }
}

=== FILE: graph.dfy ===
/** Dependency graphs shared by the two topological sorts: a sequence of
    entries (a name and the names it depends on) in dictionary insertion
    order, what it means to order them, and the evidence a sort leaves when
    it gets stuck. */
module Graph {
  import opened Seqs

  datatype Entry = Entry(name: string, deps: set<string>)

  function Names(g: seq<Entry>): (r: seq<string>)
    ensures |r| == |g|
    ensures forall k :: 0 <= k < |g| ==> r[k] == g[k].name
  {
    if |g| == 0 then [] else [g[0].name] + Names(g[1..])
  }

  function NameSet(g: seq<Entry>): set<string> {
    set e | e in g :: e.name
  }

  /** Dictionary keys: no name occurs twice. */
  predicate DistinctNames(g: seq<Entry>) {
    Distinct(Names(g))
  }

  /** `o` lists every name of `g` exactly once, and each name after all the
      names it depends on. */
  predicate IsTopoOrder(o: seq<string>, g: seq<Entry>) {
    && Distinct(o)
    && Elems(o) == NameSet(g)
    && DepsFirst(o, g)
  }

  /** Every name of `o` that is a name of `g` comes after all its dependencies. */
  predicate DepsFirst(o: seq<string>, g: seq<Entry>) {
    forall k, i :: 0 <= k < |g| && 0 <= i < |o| && o[i] == g[k].name ==> g[k].deps <= Elems(o[..i])
  }

  /** A non-empty set of names none of which can come first: each depends on
      something outside the names of `g` that are not in the set. */
  predicate Stuck(g: seq<Entry>, s: set<string>) {
    && s != {}
    && s <= NameSet(g)
    && forall k :: 0 <= k < |g| && g[k].name in s ==> !(g[k].deps <= NameSet(g) - s)
  }

  /** The position of the first element of `o` that lies in `s`. */
  function FirstIn(o: seq<string>, s: set<string>): (i: nat)
    requires exists j :: 0 <= j < |o| && o[j] in s
    ensures i < |o| && o[i] in s
    ensures forall j :: 0 <= j < i ==> o[j] !in s
  {
    if o[0] in s then 0
    else
      var j :| 0 <= j < |o| && o[j] in s;
      assert o[1..][j - 1] == o[j];
      1 + FirstIn(o[1..], s)
  }

  /** A stuck set rules out every topological order: the cycle (or the
      undeclared dependency) is real. */
  lemma StuckNoOrder(g: seq<Entry>, s: set<string>, o: seq<string>)
    requires Stuck(g, s)
    ensures !IsTopoOrder(o, g)
  {
    if IsTopoOrder(o, g) {
      var x :| x in s;
      assert x in NameSet(g);
      assert x in Elems(o);
      var i := FirstIn(o, s);
    }
  }

  /** Every name of a dependencies-first prefix stays outside each stuck set:
      the names before position `i` are outside it, so the entry at `i` has
      all its dependencies outside it too, and a stuck set cannot hold it. */
  lemma {:induction false} OrderedNotStuck(g: seq<Entry>, o: seq<string>, s: set<string>, i: nat)
    requires DepsFirst(o, g) && Elems(o) <= NameSet(g) && Stuck(g, s) && i < |o|
    ensures forall j :: 0 <= j <= i ==> o[j] !in s
    decreases i
  {
    if i > 0 {
      OrderedNotStuck(g, o, s, i - 1);
    }
    assert o[i] in Elems(o);
    var e :| e in g && e.name == o[i];
    var k :| 0 <= k < |g| && g[k] == e;
    assert g[k].deps <= Elems(o[..i]);
    forall x | x in Elems(o[..i]) ensures x in NameSet(g) - s {
      var j :| 0 <= j < i && o[..i][j] == x;
      assert o[j] == x && o[j] in Elems(o);
    }
  }

  /** When the names ordered so far put dependencies first and the rest
      remain, a stuck set lies among the remaining names: the remaining set
      is the largest stuck set. */
  lemma StuckWithinRemaining(g: seq<Entry>, rem: seq<Entry>, ordered: seq<string>, s: set<string>)
    requires DepsFirst(ordered, g) && Elems(ordered) + NameSet(rem) == NameSet(g)
    requires Stuck(g, s)
    ensures s <= Elems(Names(rem))
  {
    NameSetIsElems(rem);
    if |ordered| > 0 {
      OrderedNotStuck(g, ordered, s, |ordered| - 1);
    }
    forall x | x in Elems(ordered) ensures x !in s {
      var j :| 0 <= j < |ordered| && ordered[j] == x;
    }
  }

  /** `StuckWithinRemaining` for every stuck set at once. */
  lemma AllStuckWithinRemaining(g: seq<Entry>, rem: seq<Entry>, ordered: seq<string>)
    requires DepsFirst(ordered, g) && Elems(ordered) + NameSet(rem) == NameSet(g)
    ensures forall s :: Stuck(g, s) ==> s <= Elems(Names(rem))
  {
    forall s | Stuck(g, s) ensures s <= Elems(Names(rem)) {
      StuckWithinRemaining(g, rem, ordered, s);
    }
  }

  lemma NamesSnoc(g: seq<Entry>, e: Entry)
    ensures Names(g + [e]) == Names(g) + [e.name]
  {
  }

  lemma NameSetSnoc(g: seq<Entry>, e: Entry)
    ensures NameSet(g + [e]) == NameSet(g) + {e.name}
  {
    assert forall x :: x in g + [e] <==> x in g || x == e;
  }

  lemma NameSetIsElems(g: seq<Entry>)
    ensures NameSet(g) == Elems(Names(g))
  {
    forall x | x in Elems(Names(g)) ensures x in NameSet(g) {
      var k :| 0 <= k < |g| && Names(g)[k] == x;
      assert g[k] in g;
    }
    forall x | x in NameSet(g) ensures x in Elems(Names(g)) {
      var e :| e in g && e.name == x;
      var k :| 0 <= k < |g| && g[k] == e;
      assert Names(g)[k] == x;
    }
  }

  /** In a sequence with distinct names, the last name is not among the others. */
  lemma DistinctNamesSnoc(g: seq<Entry>, e: Entry)
    ensures DistinctNames(g + [e]) <==> DistinctNames(g) && e.name !in NameSet(g)
  {
    NamesSnoc(g, e);
    NameSetIsElems(g);
    var n := Names(g + [e]);
    assert n[..|g|] == Names(g);
    if DistinctNames(g + [e]) {
      assert forall k :: 0 <= k < |g| ==> Names(g)[k] == n[k] && n[k] != n[|g|];
    }
  }

  /** With distinct names, an entry is determined by its name. */
  lemma EntryByName(g: seq<Entry>, e: Entry, k: nat)
    requires DistinctNames(g) && e in g && k < |g| && g[k].name == e.name
    ensures g[k] == e
  {
    var m :| 0 <= m < |g| && g[m] == e;
    assert Names(g)[m] == Names(g)[k];
  }

  /** When every remaining entry waits on a name not yet ordered, the
      remaining names form a stuck set. */
  lemma StuckRemaining(g: seq<Entry>, rem: seq<Entry>, ordered: seq<string>)
    requires DistinctNames(g) && |rem| > 0
    requires forall k :: 0 <= k < |rem| ==> rem[k] in g
    requires Elems(ordered) !! NameSet(rem) && Elems(ordered) + NameSet(rem) == NameSet(g)
    requires forall k :: 0 <= k < |rem| ==> !(rem[k].deps <= Elems(ordered))
    ensures Stuck(g, NameSet(rem))
  {
    assert rem[0] in rem && rem[0].name in NameSet(rem);
    assert NameSet(g) - NameSet(rem) == Elems(ordered);
    forall k | 0 <= k < |g| && g[k].name in NameSet(rem)
      ensures !(g[k].deps <= NameSet(g) - NameSet(rem))
    {
      var e :| e in rem && e.name == g[k].name;
      var m :| 0 <= m < |rem| && rem[m] == e;
      EntryByName(g, e, k);
      assert !(rem[m].deps <= Elems(ordered));
    }
  }

  /** Appending names whose dependencies are all already ordered keeps
      dependencies first. */
  lemma ExtendReady(g: seq<Entry>, o: seq<string>, t: seq<Entry>)
    requires DistinctNames(g)
    requires forall k :: 0 <= k < |t| ==> t[k] in g && t[k].deps <= Elems(o)
    requires DepsFirst(o, g)
    ensures DepsFirst(o + Names(t), g)
  {
    var o' := o + Names(t);
    forall k, i | 0 <= k < |g| && 0 <= i < |o'| && o'[i] == g[k].name
      ensures g[k].deps <= Elems(o'[..i])
    {
      if i < |o| {
        assert o'[i] == o[i];
        PrefixKept(o, Names(t), i);
      } else {
        var j := i - |o|;
        assert t[j].name == g[k].name;
        EntryByName(g, t[j], k);
        PrefixElems(o, Names(t), i);
      }
    }
  }

  /** Appending leaves the slices inside the original alone. */
  lemma PrefixKept<T>(a: seq<T>, b: seq<T>, i: nat)
    requires i <= |a|
    ensures (a + b)[..i] == a[..i]
  {
  }

  /** A sequence that starts with `a + b` starts with `a`. */
  lemma PrefixShorter<T>(v: seq<T>, a: seq<T>, b: seq<T>)
    requires |a + b| <= |v| && v[..|a + b|] == a + b
    ensures |a| <= |v| && v[..|a|] == a
  {
    assert v[..|a|] == (a + b)[..|a|];
  }

  /** A slice reaching past `a` holds every element of `a`. */
  lemma PrefixElems<T>(a: seq<T>, b: seq<T>, i: nat)
    requires |a| <= i <= |a| + |b|
    ensures Elems(a) <= Elems((a + b)[..i])
  {
    forall x | x in Elems(a) ensures x in Elems((a + b)[..i]) {
      var q :| 0 <= q < |a| && a[q] == x;
      assert (a + b)[..i][q] == x;
    }
  }
}

=== FILE: lexer.dfy ===
/** Hand-written equivalents of the regular expressions and string methods the
    expression machinery relies on. Every scanner mirrors `re.findall` /
    `re.finditer`: it tries a match at the current position, consumes it on
    success and otherwise moves one character to the right. */
module Lexer {
  import opened Wrappers
  import opened Seqs

  predicate IsLetter(c: char) { 'A' <= c <= 'Z' || 'a' <= c <= 'z' }
  predicate IsDigit(c: char) { '0' <= c <= '9' }
  /** `[A-Za-z_]` */
  predicate IsIdentStart(c: char) { IsLetter(c) || c == '_' }
  /** `[A-Za-z0-9_]`, also used for `\w` when testing `\b` */
  predicate IsWordChar(c: char) { IsIdentStart(c) || IsDigit(c) }
  predicate IsQuote(c: char) { c == '"' || c == '\'' }

  /** The characters Python's `str.isspace` (and so `\s` and `str.strip()`) accept. */
  predicate IsSpace(c: char) {
    || '\t' <= c <= '\r'
    || '\U{1C}' <= c <= ' '
    || c == '\U{85}' || c == '\U{A0}' || c == '\U{1680}'
    || '\U{2000}' <= c <= '\U{200A}'
    || c == '\U{2028}' || c == '\U{2029}' || c == '\U{202F}' || c == '\U{205F}' || c == '\U{3000}'
  }

  /** A string of the shape `[A-Za-z_][A-Za-z0-9_]*`. */
  predicate IsIdentifier(x: string) {
    |x| > 0 && IsIdentStart(x[0]) && forall k :: 0 < k < |x| ==> IsWordChar(x[k])
  }

  /** The Python words both the builder and the converter refuse to treat as
      factor references. */
  const Keywords: set<string> := {"and", "or", "not", "in", "is", "True", "False", "None"}

  /** End of the longest run of word characters starting at `i`. */
  function WordEnd(s: string, i: nat): (j: nat)
    requires i <= |s|
    ensures i <= j <= |s|
    ensures forall k :: i <= k < j ==> IsWordChar(s[k])
    ensures j == |s| || !IsWordChar(s[j])
    decreases |s| - i
  {
    if i < |s| && IsWordChar(s[i]) then WordEnd(s, i + 1) else i
  }

  /** End of the longest run of whitespace starting at `i`. */
  function SpaceEnd(s: string, i: nat): (j: nat)
    requires i <= |s|
    ensures i <= j <= |s|
    ensures forall k :: i <= k < j ==> IsSpace(s[k])
    ensures j == |s| || !IsSpace(s[j])
    decreases |s| - i
  {
    if i < |s| && IsSpace(s[i]) then SpaceEnd(s, i + 1) else i
  }

  /** End of the longest run of digits starting at `i`. */
  function DigitEnd(s: string, i: nat): (j: nat)
    requires i <= |s|
    ensures i <= j <= |s|
    ensures forall k :: i <= k < j ==> IsDigit(s[k])
    ensures j == |s| || !IsDigit(s[j])
    decreases |s| - i
  {
    if i < |s| && IsDigit(s[i]) then DigitEnd(s, i + 1) else i
  }

  lemma IdentifierSlice(s: string, i: nat)
    requires i < |s| && IsIdentStart(s[i])
    ensures IsIdentifier(s[i..WordEnd(s, i)])
  {
    var j := WordEnd(s, i);
    assert forall k :: 0 < k < j - i ==> s[i..j][k] == s[i + k];
  }

  // ------------------------------------------------------------------
  // string literals
  // ------------------------------------------------------------------

  /** First position at or after `j` holding `q`, or `|s|`. */
  function NextQuote(s: string, j: nat, q: char): (k: nat)
    requires j <= |s|
    ensures j <= k <= |s|
    ensures k < |s| ==> s[k] == q
    ensures forall m :: j <= m < k ==> s[m] != q
    decreases |s| - j
  {
    if j == |s| || s[j] == q then j else NextQuote(s, j + 1, q)
  }

  /** `re.sub(r"(\"[^\"]*\"|'[^']*')", " ", s[i..])`: every complete quoted literal
      becomes one space; a quote without a partner stays. */
  function StripFrom(s: string, i: nat): (r: string)
    requires i <= |s|
    ensures |r| <= |s| - i
    decreases |s| - i
  {
    if i == |s| then []
    else if IsQuote(s[i]) && NextQuote(s, i + 1, s[i]) < |s| then
      " " + StripFrom(s, NextQuote(s, i + 1, s[i]) + 1)
    else
      [s[i]] + StripFrom(s, i + 1)
  }

  /** Stripping only writes spaces and characters of the input. */
  lemma {:induction false} StripFromChars(s: string, i: nat)
    requires i <= |s|
    ensures forall k :: 0 <= k < |StripFrom(s, i)| ==> StripFrom(s, i)[k] == ' ' || StripFrom(s, i)[k] in s[i..]
    decreases |s| - i
  {
    if i < |s| {
      if IsQuote(s[i]) && NextQuote(s, i + 1, s[i]) < |s| {
        StripFromChars(s, NextQuote(s, i + 1, s[i]) + 1);
        SuffixElems(s, i, NextQuote(s, i + 1, s[i]) + 1);
      } else {
        StripFromChars(s, i + 1);
        SuffixElems(s, i, i + 1);
      }
    }
  }

  lemma SuffixElems(s: string, i: nat, j: nat)
    requires i <= j <= |s|
    ensures forall x :: x in s[j..] ==> x in s[i..]
  {
    assert s[i..] == s[i..j] + s[j..];
  }

  /** No quote character is followed later by the same quote character: no
      complete literal is left. */
  predicate NoLiteral(r: string) {
    forall i, j :: 0 <= i < j < |r| && IsQuote(r[i]) ==> r[j] != r[i]
  }

  lemma {:induction false} StripFromLeavesNoLiteral(s: string, i: nat)
    requires i <= |s|
    ensures NoLiteral(StripFrom(s, i))
    decreases |s| - i
  {
    if i < |s| {
      if IsQuote(s[i]) && NextQuote(s, i + 1, s[i]) < |s| {
        StripFromLeavesNoLiteral(s, NextQuote(s, i + 1, s[i]) + 1);
      } else {
        var rest := StripFrom(s, i + 1);
        StripFromLeavesNoLiteral(s, i + 1);
        StripFromChars(s, i + 1);
        if IsQuote(s[i]) {
          assert s[i] !in s[i + 1..] by {
            forall m | i + 1 <= m < |s| ensures s[m] != s[i] { }
          }
          assert forall k :: 0 <= k < |rest| ==> rest[k] != s[i];
        }
        assert StripFrom(s, i) == [s[i]] + rest;
      }
    }
  }

  function StripStrings(s: string): (r: string)
    ensures |r| <= |s|
  {
    StripFrom(s, 0)
  }

  /** After stripping, no complete string literal is left. */
  lemma StripStringsLeavesNoLiteral(s: string)
    ensures NoLiteral(StripStrings(s))
  {
    StripFromLeavesNoLiteral(s, 0);
  }

  /** Replacing the literals leaves a literal-free string unchanged, so
      stripping twice is stripping once. */
  lemma {:induction false} StripFromNoLiteral(s: string, i: nat)
    requires i <= |s| && NoLiteral(s)
    ensures StripFrom(s, i) == s[i..]
    decreases |s| - i
  {
    if i < |s| {
      StripFromNoLiteral(s, i + 1);
      assert s[i..] == [s[i]] + s[i + 1..];
    }
  }

  lemma StripStringsIdempotent(s: string)
    ensures StripStrings(StripStrings(s)) == StripStrings(s)
  {
    StripStringsLeavesNoLiteral(s);
    StripFromNoLiteral(StripStrings(s), 0);
  }

  // ------------------------------------------------------------------
  // identifier scanners
  // ------------------------------------------------------------------

  /** `re.findall(r"[A-Za-z_][A-Za-z0-9_]*", s[i..])`: an identifier may start
      right after a digit (`1e5` yields `e5`). */
  function IdentsFrom(s: string, i: nat): (r: seq<string>)
    requires i <= |s|
    ensures forall k :: 0 <= k < |r| ==> IsIdentifier(r[k])
    decreases |s| - i
  {
    if i == |s| then []
    else if IsIdentStart(s[i]) then
      IdentifierSlice(s, i);
      [s[i..WordEnd(s, i)]] + IdentsFrom(s, WordEnd(s, i))
    else IdentsFrom(s, i + 1)
  }

  function Idents(s: string): seq<string> {
    IdentsFrom(s, 0)
  }

  /** `\b` holds before position `i`, which holds a word character. */
  predicate BoundaryBefore(s: string, i: nat)
    requires i <= |s|
  {
    i == 0 || !IsWordChar(s[i - 1])
  }

  /** `re.findall(r"\b([A-Za-z_][A-Za-z0-9_]*)\b", s[i..])` (with `\w` read as
      ASCII): an identifier must not continue a run of word characters. */
  function BoundedIdentsFrom(s: string, i: nat): (r: seq<string>)
    requires i <= |s|
    ensures forall k :: 0 <= k < |r| ==> IsIdentifier(r[k])
    decreases |s| - i
  {
    if i == |s| then []
    else if IsIdentStart(s[i]) && BoundaryBefore(s, i) then
      IdentifierSlice(s, i);
      [s[i..WordEnd(s, i)]] + BoundedIdentsFrom(s, WordEnd(s, i))
    else BoundedIdentsFrom(s, i + 1)
  }

  function BoundedIdents(s: string): seq<string> {
    BoundedIdentsFrom(s, 0)
  }

  /** `re.findall(r"([A-Za-z_][A-Za-z0-9_]*)\s*\[", s[i..])`: the names written
      directly before an opening bracket. */
  function IndexedBasesFrom(s: string, i: nat): (r: seq<string>)
    requires i <= |s|
    ensures forall k :: 0 <= k < |r| ==> IsIdentifier(r[k])
    decreases |s| - i
  {
    if i == |s| then []
    else if IsIdentStart(s[i]) && SpaceEnd(s, WordEnd(s, i)) < |s| && s[SpaceEnd(s, WordEnd(s, i))] == '[' then
      IdentifierSlice(s, i);
      [s[i..WordEnd(s, i)]] + IndexedBasesFrom(s, SpaceEnd(s, WordEnd(s, i)) + 1)
    else IndexedBasesFrom(s, i + 1)
  }

  function IndexedBases(s: string): seq<string> {
    IndexedBasesFrom(s, 0)
  }

  /** No identifier character other than a digit directly follows a digit. On
      such strings the two identifier scanners agree. */
  predicate NoIdentAfterDigit(s: string) {
    forall k :: 0 < k < |s| && IsDigit(s[k - 1]) ==> !IsIdentStart(s[k])
  }

  lemma {:induction false} ScannersAgreeFrom(s: string, i: nat)
    requires i <= |s| && NoIdentAfterDigit(s)
    requires i == 0 || i == |s| || !IsWordChar(s[i - 1]) || IsDigit(s[i - 1]) || !IsWordChar(s[i])
    ensures IdentsFrom(s, i) == BoundedIdentsFrom(s, i)
    decreases |s| - i
  {
    if i < |s| {
      if IsIdentStart(s[i]) {
        assert BoundaryBefore(s, i);
        ScannersAgreeFrom(s, WordEnd(s, i));
      } else {
        ScannersAgreeFrom(s, i + 1);
      }
    }
  }

  /** Where no identifier follows a digit, `\b` changes nothing. */
  lemma ScannersAgree(s: string)
    requires NoIdentAfterDigit(s)
    ensures Idents(s) == BoundedIdents(s)
  {
    ScannersAgreeFrom(s, 0);
  }

  // ------------------------------------------------------------------
  // bracketed integers
  // ------------------------------------------------------------------

  /** The value of a string of decimal digits, as `int()` reads it. */
  function DigitsValue(ds: string): (n: nat)
    requires forall k :: 0 <= k < |ds| ==> IsDigit(ds[k])
  {
    if |ds| == 0 then 0
    else
      assert IsDigit(ds[|ds| - 1]);
      DigitsValue(ds[..|ds| - 1]) * 10 + ((ds[|ds| - 1] as int) - ('0' as int))
  }

  /** An integer written inside brackets and the position just after `]`. */
  datatype OffsetMatch = OffsetMatch(value: int, end: nat)

  /** `t` is a whole `-?\d+` and `int(t)` is `v`. */
  predicate SignedIntText(t: string, v: int) {
    if |t| > 0 && t[0] == '-' then
      |t| > 1 && (forall k :: 1 <= k < |t| ==> IsDigit(t[k])) && -v == DigitsValue(t[1..])
    else
      |t| > 0 && (forall k :: 0 <= k < |t| ==> IsDigit(t[k])) && v == DigitsValue(t)
  }

  /** A match of `-?\d+\]` at position `i`. */
  function SignedIntAt(s: string, i: nat): (m: Option<OffsetMatch>)
    requires i <= |s|
    ensures m.Some? ==> i < m.value.end <= |s| && s[m.value.end - 1] == ']'
  {
    var neg := i < |s| && s[i] == '-';
    var d := if neg then i + 1 else i;
    var e := DigitEnd(s, d);
    if d < e < |s| && s[e] == ']' then
      var v: int := DigitsValue(s[d..e]);
      Some(OffsetMatch(if neg then -v else v, e + 1))
    else None
  }

  /** Any `-?\d+` followed by `]` at `i` is the match `SignedIntAt` finds:
      the digits stop at the first non-digit, so the `]` cannot be elsewhere. */
  lemma SignedIntExact(s: string, i: nat, e: nat, v: int)
    requires i < e <= |s| && s[e - 1] == ']' && SignedIntText(s[i..e - 1], v)
    ensures SignedIntAt(s, i) == Some(OffsetMatch(v, e))
  {
    var t := s[i..e - 1];
    var d := if t[0] == '-' then i + 1 else i;
    assert forall k :: d <= k < e - 1 ==> IsDigit(s[k]) by {
      forall k | d <= k < e - 1 ensures IsDigit(s[k]) {
        assert s[k] == t[k - i];
      }
    }
    DigitEndAt(s, d, e - 1);
    assert s[d..e - 1] == (if t[0] == '-' then t[1..] else t);
  }

  /** `\[-?\d+\]` occupies exactly `s[m..e]`, its integer being `v`. */
  predicate BracketedIntAt(s: string, m: nat, e: nat, v: int) {
    m + 1 < e <= |s| && s[m] == '[' && s[e - 1] == ']' && SignedIntText(s[m + 1..e - 1], v)
  }

  /** `SignedIntAt` after a `[` reads a bracketed integer ... */
  lemma BracketedFromSigned(s: string, m: nat, e: nat, v: int)
    requires m < |s| && s[m] == '[' && SignedIntAt(s, m + 1) == Some(OffsetMatch(v, e))
    ensures BracketedIntAt(s, m, e, v)
  {
  }

  /** ... and every bracketed integer is the one it reads. */
  lemma SignedFromBracketed(s: string, m: nat, e: nat, v: int)
    requires BracketedIntAt(s, m, e, v)
    ensures OffsetAt(s, m) && SignedIntAt(s, m + 1) == Some(OffsetMatch(v, e))
  {
    SignedIntExact(s, m + 1, e, v);
  }

  lemma AllSignedFromBracketed(s: string, m: nat)
    ensures forall e: nat, v: int :: BracketedIntAt(s, m, e, v) ==>
              OffsetAt(s, m) && SignedIntAt(s, m + 1) == Some(OffsetMatch(v, e))
  {
    forall e: nat, v: int | BracketedIntAt(s, m, e, v)
      ensures OffsetAt(s, m) && SignedIntAt(s, m + 1) == Some(OffsetMatch(v, e))
    {
      SignedFromBracketed(s, m, e, v);
    }
  }

  /** The match of `\[(-?\d+)\]` at `m`, if any: its integer and the position
      after its `]`. There is at most one. */
  function BracketAt(s: string, m: nat): (r: Option<OffsetMatch>)
    requires m <= |s|
    ensures r.Some? ==> BracketedIntAt(s, m, r.value.end, r.value.value)
    ensures forall e: nat, v: int :: BracketedIntAt(s, m, e, v) ==> r == Some(OffsetMatch(v, e))
  {
    AllSignedFromBracketed(s, m);
    if m < |s| && s[m] == '[' then
      var r := SignedIntAt(s, m + 1);
      if r.Some? then
        BracketedFromSigned(s, m, r.value.end, r.value.value);
        r
      else r
    else None
  }

  /** A match of `\[-?\d+\]` starting at position `i`. */
  predicate OffsetAt(s: string, i: nat)
    requires i <= |s|
  {
    i < |s| && s[i] == '[' && SignedIntAt(s, i + 1).Some?
  }

  /** `[int(k) for k in re.findall(r"\[(-?\d+)\]", s[i..])]` */
  function BracketIntsFrom(s: string, i: nat): (r: seq<int>)
    requires i <= |s|
    decreases |s| - i
  {
    if i == |s| then []
    else if OffsetAt(s, i) then
      [SignedIntAt(s, i + 1).value.value] + BracketIntsFrom(s, SignedIntAt(s, i + 1).value.end)
    else BracketIntsFrom(s, i + 1)
  }

  function BracketInts(s: string): seq<int> {
    BracketIntsFrom(s, 0)
  }

  /** `re.search(r"\[-?\d+\]", s)` succeeds. */
  predicate IndexSearch(s: string) {
    exists k :: 0 <= k < |s| && OffsetAt(s, k)
  }

  lemma {:induction false} BracketIntsFromEmpty(s: string, i: nat)
    requires i <= |s|
    ensures BracketIntsFrom(s, i) == [] <==> forall k :: i <= k < |s| ==> !OffsetAt(s, k)
    decreases |s| - i
  {
    if i < |s| && !OffsetAt(s, i) {
      BracketIntsFromEmpty(s, i + 1);
    }
  }

  /** `findall` of the offset pattern finds something exactly when `search` does. */
  lemma BracketIntsFound(s: string)
    ensures BracketInts(s) != [] <==> IndexSearch(s)
  {
    BracketIntsFromEmpty(s, 0);
  }

  // ------------------------------------------------------------------
  // str.strip()
  // ------------------------------------------------------------------

  /** Largest `b <= j` such that `s[b..j]` is all whitespace, but not below `a`. */
  function TrimEnd(s: string, a: nat, j: nat): (b: nat)
    requires a <= j <= |s|
    ensures a <= b <= j
    ensures forall k :: b <= k < j ==> IsSpace(s[k])
    ensures b == a || !IsSpace(s[b - 1])
  {
    if j == a || !IsSpace(s[j - 1]) then j else TrimEnd(s, a, j - 1)
  }

  /** Python's `str.strip()`: drops leading and trailing whitespace. */
  function Strip(s: string): (r: string)
    ensures |r| <= |s|
    ensures r == [] <==> forall k :: 0 <= k < |s| ==> IsSpace(s[k])
    ensures r != [] ==> !IsSpace(r[0]) && !IsSpace(r[|r| - 1])
    ensures exists a, b ::
              && 0 <= a <= b <= |s| && r == s[a..b]
              && (forall k :: 0 <= k < a ==> IsSpace(s[k]))
              && (forall k :: b <= k < |s| ==> IsSpace(s[k]))
  {
    var a := SpaceEnd(s, 0);
    var b := TrimEnd(s, a, |s|);
    s[a..b]
  }

  /** A string with no surrounding whitespace is its own strip. */
  lemma StripNoop(s: string)
    requires s == [] || (!IsSpace(s[0]) && !IsSpace(s[|s| - 1]))
    ensures Strip(s) == s
  {
  }

  // ------------------------------------------------------------------
  // scanning steps, used to evaluate the scanners on concrete strings
  // ------------------------------------------------------------------

  lemma WordEndAt(s: string, i: nat, j: nat)
    requires i <= j <= |s|
    requires forall k :: i <= k < j ==> IsWordChar(s[k])
    requires j == |s| || !IsWordChar(s[j])
    ensures WordEnd(s, i) == j
  {
  }
  lemma DigitEndAt(s: string, i: nat, j: nat)
    requires i <= j <= |s|
    requires forall k :: i <= k < j ==> IsDigit(s[k])
    requires j == |s| || !IsDigit(s[j])
    ensures DigitEnd(s, i) == j
  {
  }


  /** A stretch without quotes is copied through by `StripFrom`. */
  lemma {:induction false} StripPlain(s: string, i: nat, j: nat)
    requires i <= j <= |s|
    requires forall k :: i <= k < j ==> !IsQuote(s[k])
    ensures StripFrom(s, i) == s[i..j] + StripFrom(s, j)
    decreases j - i
  {
    if i < j {
      StripStep(s, i);
      StripPlain(s, i + 1, j);
      SliceCons(s, i, j);
      ConcatAssoc([s[i]], s[i + 1..j], StripFrom(s, j));
    }
  }

  /** A character that opens no literal is copied. */
  lemma StripStep(s: string, i: nat)
    requires i < |s| && !IsQuote(s[i])
    ensures StripFrom(s, i) == [s[i]] + StripFrom(s, i + 1)
  {
  }

  lemma SliceCons(s: string, i: nat, j: nat)
    requires i < j <= |s|
    ensures s[i..j] == [s[i]] + s[i + 1..j]
  {
  }

  /** A string without quotes strips to itself. */
  lemma StripQuoteFree(s: string)
    requires forall k :: 0 <= k < |s| ==> !IsQuote(s[k])
    ensures StripStrings(s) == s
  {
    StripPlain(s, 0, |s|);
    assert StripFrom(s, |s|) == [];
    assert s[0..|s|] + [] == s;
  }

  /** A string that opens with a complete literal ending at `k` and has no
      quote after it strips to a space followed by the rest. */
  lemma StripLeadingLiteral(s: string, k: nat)
    requires 0 < k < |s| && IsQuote(s[0]) && s[k] == s[0]
    requires forall m :: 0 < m < k ==> s[m] != s[0]
    requires forall m :: k < m < |s| ==> !IsQuote(s[m])
    ensures StripStrings(s) == " " + s[k + 1..]
  {
    StripLiteral(s, 0, k);
    StripPlain(s, k + 1, |s|);
    assert StripFrom(s, |s|) == [];
    assert s[k + 1..|s|] + [] == s[k + 1..];
  }

  /** A complete literal from `i` to `k` becomes one space. */
  lemma StripLiteral(s: string, i: nat, k: nat)
    requires i < k < |s| && IsQuote(s[i]) && s[k] == s[i]
    requires forall m :: i < m < k ==> s[m] != s[i]
    ensures StripFrom(s, i) == " " + StripFrom(s, k + 1)
  {
    assert NextQuote(s, i + 1, s[i]) == k;
  }

  lemma {:induction false} IdentsSkip(s: string, i: nat, j: nat)
    requires i <= j <= |s|
    requires forall k :: i <= k < j ==> !IsIdentStart(s[k])
    ensures IdentsFrom(s, i) == IdentsFrom(s, j)
    decreases j - i
  {
    if i < j {
      IdentsSkip(s, i + 1, j);
    }
  }

  lemma IdentsWord(s: string, i: nat, j: nat)
    requires i < j <= |s| && IsIdentStart(s[i])
    requires forall k :: i <= k < j ==> IsWordChar(s[k])
    requires j == |s| || !IsWordChar(s[j])
    ensures IdentsFrom(s, i) == [s[i..j]] + IdentsFrom(s, j)
  {
    WordEndAt(s, i, j);
  }

  lemma {:induction false} BoundedSkip(s: string, i: nat, j: nat)
    requires i <= j <= |s|
    requires forall k :: i <= k < j ==> !IsIdentStart(s[k])
    ensures BoundedIdentsFrom(s, i) == BoundedIdentsFrom(s, j)
    decreases j - i
  {
    if i < j {
      BoundedSkip(s, i + 1, j);
    }
  }

  lemma BoundedWord(s: string, i: nat, j: nat)
    requires i < j <= |s| && IsIdentStart(s[i]) && BoundaryBefore(s, i)
    requires forall k :: i <= k < j ==> IsWordChar(s[k])
    requires j == |s| || !IsWordChar(s[j])
    ensures BoundedIdentsFrom(s, i) == [s[i..j]] + BoundedIdentsFrom(s, j)
  {
    WordEndAt(s, i, j);
  }

  /** A word from `i` to `j`, then characters up to `m` that start no identifier. */
  predicate WordThenSkip(s: string, i: nat, j: nat, m: nat) {
    && i < j <= m <= |s| && IsIdentStart(s[i])
    && (forall k :: i <= k < j ==> IsWordChar(s[k]))
    && (j == |s| || !IsWordChar(s[j]))
    && (forall k :: j <= k < m ==> !IsIdentStart(s[k]))
  }

  lemma BoundedWordThenSkip(s: string, i: nat, j: nat, m: nat)
    requires WordThenSkip(s, i, j, m) && BoundaryBefore(s, i)
    ensures BoundedIdentsFrom(s, i) == [s[i..j]] + BoundedIdentsFrom(s, m)
  {
    BoundedSkip(s, j, m);
    BoundedWord(s, i, j);
  }

  lemma IdentsWordThenSkip(s: string, i: nat, j: nat, m: nat)
    requires WordThenSkip(s, i, j, m)
    ensures IdentsFrom(s, i) == [s[i..j]] + IdentsFrom(s, m)
  {
    IdentsSkip(s, j, m);
    IdentsWord(s, i, j);
  }

  /** No position of a stretch of non-identifier characters starts an indexed name. */
  lemma {:induction false} IndexedSkip(s: string, i: nat, j: nat)
    requires i <= j <= |s|
    requires forall k :: i <= k < j ==> !IsIdentStart(s[k])
    ensures IndexedBasesFrom(s, i) == IndexedBasesFrom(s, j)
    decreases j - i
  {
    if i < j {
      IndexedSkip(s, i + 1, j);
    }
  }

  lemma SpaceEndAt(s: string, i: nat, j: nat)
    requires i <= j <= |s|
    requires forall k :: i <= k < j ==> IsSpace(s[k])
    requires j == |s| || !IsSpace(s[j])
    ensures SpaceEnd(s, i) == j
  {
  }

  /** A word whose following whitespace (from `j` to `m`) does not lead to `[`
      is no indexed name, nor is any of its suffixes. */
  lemma {:induction false} IndexedWordSkip(s: string, i: nat, j: nat, m: nat)
    requires i <= j <= m <= |s|
    requires forall k :: i <= k < j ==> IsWordChar(s[k])
    requires j == |s| || !IsWordChar(s[j])
    requires forall k :: j <= k < m ==> IsSpace(s[k])
    requires m == |s| || (!IsSpace(s[m]) && s[m] != '[')
    ensures IndexedBasesFrom(s, i) == IndexedBasesFrom(s, j)
    decreases j - i
  {
    if i < j {
      WordEndAt(s, i, j);
      SpaceEndAt(s, j, m);
      IndexedWordSkip(s, i + 1, j, m);
    }
  }

  /** A word directly followed by `[` is an indexed name. */
  lemma IndexedWord(s: string, i: nat, j: nat)
    requires i < j < |s| && IsIdentStart(s[i]) && s[j] == '['
    requires forall k :: i <= k < j ==> IsWordChar(s[k])
    ensures IndexedBasesFrom(s, i) == [s[i..j]] + IndexedBasesFrom(s, j + 1)
  {
    WordEndAt(s, i, j);
  }

  lemma {:induction false} BracketSkip(s: string, i: nat, j: nat)
    requires i <= j <= |s|
    requires forall k :: i <= k < j ==> s[k] != '['
    ensures BracketIntsFrom(s, i) == BracketIntsFrom(s, j)
    decreases j - i
  {
    if i < j {
      BracketSkip(s, i + 1, j);
    }
  }

  lemma DigitEndOne(s: string, i: nat)
    requires i + 2 <= |s| && IsDigit(s[i]) && s[i + 1] == ']'
    ensures DigitEnd(s, i) == i + 1
  {
    assert DigitEnd(s, i + 1) == i + 1;
  }

  lemma DigitsValueOne(c: char)
    requires IsDigit(c)
    ensures DigitsValue([c]) == (c as int) - ('0' as int)
  {
    assert [c][..0] == [];
  }

  /** `d]` with one digit `d`. */
  lemma SignedDigit(s: string, i: nat)
    requires i + 2 <= |s| && IsDigit(s[i]) && s[i + 1] == ']'
    ensures SignedIntAt(s, i) == Some(OffsetMatch((s[i] as int) - ('0' as int), i + 2))
  {
    DigitEndOne(s, i);
    assert s[i..i + 1] == [s[i]];
    DigitsValueOne(s[i]);
  }

  /** `-d]` with one digit `d`. */
  lemma SignedNegDigit(s: string, i: nat)
    requires i + 3 <= |s| && s[i] == '-' && IsDigit(s[i + 1]) && s[i + 2] == ']'
    ensures SignedIntAt(s, i) == Some(OffsetMatch(('0' as int) - (s[i + 1] as int), i + 3))
  {
    DigitEndOne(s, i + 1);
    assert s[i + 1..i + 2] == [s[i + 1]];
    DigitsValueOne(s[i + 1]);
  }

  /** `[d]` with one digit `d`. */
  lemma BracketDigit(s: string, i: nat)
    requires i + 3 <= |s| && s[i] == '[' && IsDigit(s[i + 1]) && s[i + 2] == ']'
    ensures BracketIntsFrom(s, i) == [(s[i + 1] as int) - ('0' as int)] + BracketIntsFrom(s, i + 3)
  {
    SignedDigit(s, i + 1);
  }

  /** `[-d]` with one digit `d`. */
  lemma BracketNegDigit(s: string, i: nat)
    requires i + 4 <= |s| && s[i] == '[' && s[i + 1] == '-' && IsDigit(s[i + 2]) && s[i + 3] == ']'
    ensures BracketIntsFrom(s, i) == [('0' as int) - (s[i + 2] as int)] + BracketIntsFrom(s, i + 4)
  {
    SignedNegDigit(s, i + 1);
  }
}

=== FILE: schema_design.dfy ===
/** The cross-field rule of the design schema: every name a crossing block
    lists must be the name of a declared factor. */
module SchemaDesign {
  import opened Seqs

  /** The factor dictionaries' names, in order (`f["name"]` for each factor). */
  type FactorNames = seq<string>

  /** `all(n in names for n in block)`, scanned left to right. */
  predicate BlockDeclared(names: set<string>, block: seq<string>)
    decreases |block|
  {
    |block| == 0 || (block[0] in names && BlockDeclared(names, block[1..]))
  }

  /** `all(all(...) for block in data["crossing"])`, scanned left to right. */
  predicate BlocksDeclared(names: set<string>, crossing: seq<seq<string>>)
    decreases |crossing|
  {
    |crossing| == 0 || (BlockDeclared(names, crossing[0]) && BlocksDeclared(names, crossing[1..]))
  }

  /** The constraint: collect the declared names into a set, then check every block. */
  predicate CrossingDeclared(factors: FactorNames, crossing: seq<seq<string>>) {
    BlocksDeclared(Elems(factors), crossing)
  }

  lemma {:induction false} BlockDeclaredAll(names: set<string>, block: seq<string>)
    ensures BlockDeclared(names, block) <==> forall k :: 0 <= k < |block| ==> block[k] in names
    decreases |block|
  {
    if |block| > 0 {
      BlockDeclaredAll(names, block[1..]);
      assert forall k :: 1 <= k < |block| ==> block[k] == block[1..][k - 1];
    }
  }

  lemma {:induction false} BlocksDeclaredAll(names: set<string>, crossing: seq<seq<string>>)
    ensures BlocksDeclared(names, crossing) <==>
              forall b, k :: 0 <= b < |crossing| && 0 <= k < |crossing[b]| ==> crossing[b][k] in names
    decreases |crossing|
  {
    if |crossing| > 0 {
      BlockDeclaredAll(names, crossing[0]);
      BlocksDeclaredAll(names, crossing[1..]);
      assert forall b :: 1 <= b < |crossing| ==> crossing[b] == crossing[1..][b - 1];
    }
  }

  /** The constraint accepts exactly when every name of every block is one of
      the factors' names. */
  lemma CrossingDeclaredIff(factors: FactorNames, crossing: seq<seq<string>>)
    ensures CrossingDeclared(factors, crossing) <==>
              forall b, k :: 0 <= b < |crossing| && 0 <= k < |crossing[b]| ==> crossing[b][k] in factors
  {
    BlocksDeclaredAll(Elems(factors), crossing);
  }

  /** An empty crossing, and empty blocks, are accepted whatever the factors. */
  lemma EmptyBlocksAccepted(factors: FactorNames, crossing: seq<seq<string>>)
    requires forall b :: 0 <= b < |crossing| ==> crossing[b] == []
    ensures CrossingDeclared(factors, crossing)
  {
    CrossingDeclaredIff(factors, crossing);
  }

  /** Only the set of factor names matters: their order and repetitions do not. */
  lemma NamesOnly(f1: FactorNames, f2: FactorNames, crossing: seq<seq<string>>)
    requires Elems(f1) == Elems(f2)
    ensures CrossingDeclared(f1, crossing) == CrossingDeclared(f2, crossing)
  {
  }

  /** Declaring more factors never turns acceptance into rejection. */
  lemma MoreFactorsAccepted(f1: FactorNames, f2: FactorNames, crossing: seq<seq<string>>)
    requires Elems(f1) <= Elems(f2)
    requires CrossingDeclared(f1, crossing)
    ensures CrossingDeclared(f2, crossing)
  {
    CrossingDeclaredIff(f1, crossing);
    CrossingDeclaredIff(f2, crossing);
    forall b, k | 0 <= b < |crossing| && 0 <= k < |crossing[b]|
      ensures crossing[b][k] in f2
    {
      assert crossing[b][k] in Elems(f1);
    }
  }

  /** The schema's example design: factors color, word, congruency and
      congruency_transition, crossed as [[color, congruency], [congruency_transition]]. */
  lemma ExampleCrossingAccepted()
    ensures CrossingDeclared(["color", "word", "congruency", "congruency_transition"],
                             [["color", "congruency"], ["congruency_transition"]])
  {
    var fs := ["color", "word", "congruency", "congruency_transition"];
    CrossingDeclaredIff(fs, [["color", "congruency"], ["congruency_transition"]]);
    assert fs[0] == "color" && fs[2] == "congruency" && fs[3] == "congruency_transition";
  }

  /** A crossing naming an undeclared factor is rejected. */
  lemma UndeclaredRejected(factors: FactorNames, crossing: seq<seq<string>>, b: nat, k: nat)
    requires b < |crossing| && k < |crossing[b]| && crossing[b][k] !in factors
    ensures !CrossingDeclared(factors, crossing)
  {
    CrossingDeclaredIff(factors, crossing);
  }
}

=== FILE: schema_expr.dfy ===
/** The two expression rules of the design schema: a within-trial expression
    must not index trials, a window expression must. Both reject anything that
    is not a string and any string that is empty after stripping whitespace. */
module SchemaExpr {
  import opened Lexer

  /** The value a schema rule receives: a string, or anything else. */
  datatype Field = Text(s: string) | NotText

  // ------------------------------------------------------------------
  // re.compile(r"\[[^\]]+\]").search
  // ------------------------------------------------------------------

  /** First position at or after `j` holding `]`, or `|s|` when there is none. */
  function CloseFrom(s: string, j: nat): (e: nat)
    requires j <= |s|
    ensures j <= e <= |s|
    ensures e < |s| ==> s[e] == ']'
    ensures forall k :: j <= k < e ==> s[k] != ']'
    decreases |s| - j
  {
    if j == |s| || s[j] == ']' then j else CloseFrom(s, j + 1)
  }

  /** The pattern matches at `i`: a `[`, a run of one or more characters
      other than `]` (greedy; backing off never helps, since the character
      after a shorter run is not `]`), then `]`. */
  predicate IndexMatchAt(s: string, i: nat)
    requires i < |s|
  {
    s[i] == '[' && var e := CloseFrom(s, i + 1); i + 1 < e < |s|
  }

  /** `search` tries every start position from `i` on. */
  predicate SearchFrom(s: string, i: nat)
    requires i <= |s|
    decreases |s| - i
  {
    i < |s| && (IndexMatchAt(s, i) || SearchFrom(s, i + 1))
  }

  /** `_has_indexing`. */
  predicate HasIndexing(s: string) {
    SearchFrom(s, 0)
  }

  /** A `[` at `i`, a `]` at `j`, at least one character between them and
      no `]` among those: a substring the pattern matches exactly. */
  predicate BracketPair(s: string, i: int, j: int) {
    && 0 <= i && i + 1 < j < |s|
    && s[i] == '[' && s[j] == ']'
    && forall k :: i < k < j ==> s[k] != ']'
  }

  lemma MatchAtPair(s: string, i: nat)
    requires i < |s|
    ensures IndexMatchAt(s, i) <==> exists j :: BracketPair(s, i, j)
  {
    if IndexMatchAt(s, i) {
      assert BracketPair(s, i, CloseFrom(s, i + 1));
    }
    if j :| BracketPair(s, i, j) {
      var e := CloseFrom(s, i + 1);
      assert e <= j;
      assert e != i + 1;
    }
  }

  lemma {:induction false} SearchFromPair(s: string, i: nat)
    requires i <= |s|
    ensures SearchFrom(s, i) <==> exists p, j :: i <= p && BracketPair(s, p, j)
    decreases |s| - i
  {
    if i < |s| {
      SearchFromPair(s, i + 1);
      MatchAtPair(s, i);
      if p, j :| i <= p && BracketPair(s, p, j) {
        if p > i {
          assert exists p', j' :: i + 1 <= p' && BracketPair(s, p', j');
        }
      }
    }
  }

  /** `_has_indexing` holds exactly when the string contains a `[`, then some
      character other than `]`, then (anywhere later) a `]`. */
  lemma HasIndexingChars(s: string)
    ensures HasIndexing(s) <==>
              exists i, j :: 0 <= i && i + 1 < j < |s| && s[i] == '[' && s[i + 1] != ']' && s[j] == ']'
  {
    SearchFromPair(s, 0);
    if i, j :| 0 <= i && i + 1 < j < |s| && s[i] == '[' && s[i + 1] != ']' && s[j] == ']' {
      var e := CloseFrom(s, i + 1);
      assert e <= j;
      assert BracketPair(s, i, e);
    }
    if p, j :| 0 <= p && BracketPair(s, p, j) {
      assert s[p + 1] != ']';
    }
  }

  /** A string without any `[` has no indexing. */
  lemma NoBracketNoIndexing(s: string)
    requires forall k :: 0 <= k < |s| ==> s[k] != '['
    ensures !HasIndexing(s)
  {
    HasIndexingChars(s);
  }

  // ------------------------------------------------------------------
  // the two rules
  // ------------------------------------------------------------------

  /** `bool(v.strip())`: something other than whitespace remains. */
  predicate NonBlank(s: string) {
    Strip(s) != []
  }

  /** `WithinExpr.validate`. */
  predicate WithinValid(v: Field) {
    v.Text? && NonBlank(v.s) && !HasIndexing(v.s)
  }

  /** `WindowExpr.validate`. */
  predicate WindowValid(v: Field) {
    v.Text? && NonBlank(v.s) && HasIndexing(v.s)
  }

  /** No value satisfies both rules, and a non-blank string satisfies exactly
      one; nothing else satisfies either. */
  lemma RulesPartition(v: Field)
    ensures !(WithinValid(v) && WindowValid(v))
    ensures WithinValid(v) || WindowValid(v) <==> v.Text? && exists k :: 0 <= k < |v.s| && !IsSpace(v.s[k])
  {
  }

  /** Empty and whitespace-only strings, and non-strings, are rejected by both rules. */
  lemma BlankRejected(v: Field)
    requires v.NotText? || forall k :: 0 <= k < |v.s| ==> IsSpace(v.s[k])
    ensures !WithinValid(v) && !WindowValid(v)
  {
  }

  /** The within rule's own example satisfies it and not the window rule. */
  lemma WithinRuleExample()
    ensures WithinValid(Text("color==word"))
    ensures !WindowValid(Text("color==word"))
  {
    var w := "color==word";
    assert !IsSpace(w[0]);
    NoBracketNoIndexing(w);
  }

  /** A string with a `[`, one character other than `]`, and a `]` in a row,
      and a first character that is not whitespace, passes the window rule
      and fails the within rule. */
  lemma BracketedValid(x: string, i: nat)
    requires i + 2 < |x| && x[i] == '[' && x[i + 1] != ']' && x[i + 2] == ']'
    requires !IsSpace(x[0])
    ensures WindowValid(Text(x)) && !WithinValid(Text(x))
  {
    HasIndexingChars(x);
    RulesPartition(Text(x));
  }

  lemma WindowExampleChars(x: string)
    requires x == "color[0]==word[-1]"
    ensures |x| == 18 && !IsSpace(x[0]) && x[5] == '[' && x[6] != ']' && x[7] == ']'
  {
  }

  /** The window rule's own example satisfies it and not the within rule. */
  lemma WindowRuleExample()
    ensures WindowValid(Text("color[0]==word[-1]"))
    ensures !WithinValid(Text("color[0]==word[-1]"))
  {
    WindowExampleChars("color[0]==word[-1]");
    BracketedValid("color[0]==word[-1]", 5);
  }
}

=== FILE: seqs.dfy ===
/** Sequence utilities shared by the builder and the converter: element sets,
    duplicate-freedom, first occurrences, order-preserving de-duplication
    (Python's `dict.fromkeys`) and order-preserving filtering. */
module Seqs {

  function Elems<T(==)>(s: seq<T>): set<T> {
    set x | x in s
  }

  predicate Distinct<T(==)>(s: seq<T>) {
    forall i, j :: 0 <= i < j < |s| ==> s[i] != s[j]
  }

  lemma ConcatAssoc<T>(a: seq<T>, b: seq<T>, c: seq<T>)
    ensures a + (b + c) == (a + b) + c
  {
  }

  lemma ElemsConcat<T>(a: seq<T>, b: seq<T>)
    ensures Elems(a + b) == Elems(a) + Elems(b)
  {
    assert forall x :: x in a + b <==> x in a || x in b;
  }

  /** Every element of `r` occurs in `s`, and whenever `r` lists `x` before
      `y`, `x` occurs in `s` before every occurrence of `y`: `r` follows the
      order of first occurrence in `s`. */
  predicate InFirstOccurrenceOrder<T(==)>(r: seq<T>, s: seq<T>) {
    && (forall i :: 0 <= i < |r| ==> r[i] in s)
    && (forall i, j, q :: 0 <= i < j < |r| && 0 <= q < |s| && s[q] == r[j] ==> r[i] in s[..q])
  }

  /** Appending a new element to the scanned sequence keeps an order, and
      appending it to both extends it. */
  lemma OrderSnoc<T>(t: seq<T>, s: seq<T>, x: T)
    requires InFirstOccurrenceOrder(t, s) && x !in s
    ensures InFirstOccurrenceOrder(t, s + [x])
    ensures InFirstOccurrenceOrder(t + [x], s + [x])
  {
    var w := s + [x];
    forall i, j, q | 0 <= i < j < |t| && 0 <= q < |w| && w[q] == t[j]
      ensures t[i] in w[..q]
    {
      assert t[j] in s;
      assert q < |s| && w[q] == s[q] && w[..q] == s[..q];
    }
    var r := t + [x];
    forall i, j, q | 0 <= i < j < |r| && 0 <= q < |w| && w[q] == r[j]
      ensures r[i] in w[..q]
    {
      assert r[i] == t[i] && t[i] in s;
      if q == |w| - 1 {
        assert w[..q] == s;
      } else {
        assert w[q] == s[q] && w[..q] == s[..q];
        assert j < |t|;
      }
    }
  }

  /** Keeps the first occurrence of every element, in order. */
  function Dedup<T(==)>(s: seq<T>): (r: seq<T>)
    ensures Distinct(r)
    ensures Elems(r) == Elems(s)
    ensures |r| <= |s|
  {
    if |s| == 0 then []
    else
      var init, last := s[..|s| - 1], s[|s| - 1];
      assert s == init + [last];
      ElemsConcat(init, [last]);
      var d := Dedup(init);
      if last in init then d
      else
        ElemsConcat(d, [last]);
        assert last !in Elems(d);
        d + [last]
  }

  /** Keeps the elements not in `bad`, in order. */
  function Without<T(==)>(s: seq<T>, bad: set<T>): (r: seq<T>)
    ensures Elems(r) == Elems(s) - bad
    ensures |r| <= |s|
  {
    if |s| == 0 then []
    else
      var init, last := s[..|s| - 1], s[|s| - 1];
      assert s == init + [last];
      ElemsConcat(init, [last]);
      var w := Without(init, bad);
      var tail := if last in bad then [] else [last];
      ElemsConcat(w, tail);
      w + tail
  }

  lemma DedupSnoc<T>(s: seq<T>, x: T)
    ensures Dedup(s + [x]) == if x in s then Dedup(s) else Dedup(s) + [x]
  {
    assert (s + [x])[..|s|] == s;
  }

  lemma WithoutSnoc<T>(s: seq<T>, x: T, bad: set<T>)
    ensures Without(s + [x], bad) == Without(s, bad) + (if x in bad then [] else [x])
  {
    assert (s + [x])[..|s|] == s;
  }

  /** `Dedup` lists elements in the order of their first occurrence. */
  lemma {:induction false} DedupFirstOccurrence<T>(s: seq<T>, r: seq<T>)
    requires r == Dedup(s)
    ensures InFirstOccurrenceOrder(r, s)
  {
    if |s| > 0 {
      var init, last := s[..|s| - 1], s[|s| - 1];
      assert s == init + [last];
      var d := Dedup(init);
      DedupFirstOccurrence(init, d);
      DedupSnoc(init, last);
      assert r == d || (r == d + [last] && last !in init);
      forall i | 0 <= i < |r| ensures r[i] in s {
        assert r[i] in Elems(r);
      }
      forall i, j, q | 0 <= i < j < |r| && 0 <= q < |s| && s[q] == r[j]
        ensures r[i] in s[..q]
      {
        assert r[i] == d[i] && d[i] in Elems(d);
        if q == |s| - 1 {
          assert s[..q] == init;
        } else {
          assert s[q] == init[q] && s[..q] == init[..q];
          assert j < |d|;
        }
      }
    }
  }

  /** A duplicate-free sequence is its own de-duplication. */
  lemma {:induction false} DedupOfDistinct<T>(s: seq<T>)
    requires Distinct(s)
    ensures Dedup(s) == s
  {
    if |s| > 0 {
      var init := s[..|s| - 1];
      DedupOfDistinct(init);
      assert s[|s| - 1] !in init;
    }
  }

  /** Filtering and de-duplication commute. */
  lemma {:induction false} WithoutDedupCommute<T>(s: seq<T>, bad: set<T>)
    ensures Without(Dedup(s), bad) == Dedup(Without(s, bad))
  {
    if |s| > 0 {
      var init, last := s[..|s| - 1], s[|s| - 1];
      assert s == init + [last];
      WithoutDedupCommute(init, bad);
      WithoutDedupSnoc(init, last, bad);
    }
  }

  lemma WithoutDedupSnoc<T>(init: seq<T>, last: T, bad: set<T>)
    requires Without(Dedup(init), bad) == Dedup(Without(init, bad))
    ensures Without(Dedup(init + [last]), bad) == Dedup(Without(init + [last], bad))
  {
    var d, w := Dedup(init), Without(init, bad);
    DedupSnoc(init, last);
    WithoutSnoc(init, last, bad);
    if last in bad {
      assert Without(init + [last], bad) == w;
      if last !in init {
        WithoutSnoc(d, last, bad);
        assert Without(d + [last], bad) == Without(d, bad);
      }
    } else if last in init {
      assert Dedup(init + [last]) == d;
      assert Without(init + [last], bad) == w + [last];
      assert last in Elems(w);
      DedupSnoc(w, last);
      assert Dedup(w + [last]) == Dedup(w);
    } else {
      assert Dedup(init + [last]) == d + [last];
      assert Without(init + [last], bad) == w + [last];
      WithoutSnoc(d, last, bad);
      assert Without(d + [last], bad) == Without(d, bad) + [last];
      assert last !in Elems(w);
      DedupSnoc(w, last);
      assert Dedup(w + [last]) == Dedup(w) + [last];
    }
  }

  /** Everything drawn from a sequence whose elements all satisfy `p` satisfies `p`. */
  lemma AllFrom<T>(r: seq<T>, s: seq<T>, p: T -> bool)
    requires Elems(r) <= Elems(s)
    requires forall k :: 0 <= k < |s| ==> p(s[k])
    ensures forall k :: 0 <= k < |r| ==> p(r[k])
  {
    forall k | 0 <= k < |r| ensures p(r[k]) {
      assert r[k] in Elems(r);
      var m :| 0 <= m < |s| && s[m] == r[k];
    }
  }

  /** Filtering after de-duplication keeps first-occurrence order among the
      kept elements. */
  lemma WithoutDedupFirstOccurrence<T>(s: seq<T>, bad: set<T>, w: seq<T>, r: seq<T>)
    requires w == Without(s, bad) && r == Without(Dedup(s), bad)
    ensures InFirstOccurrenceOrder(r, w)
  {
    WithoutDedupCommute(s, bad);
    DedupFirstOccurrence(w, r);
  }

  /** Filtering distributes over concatenation. */
  lemma {:induction false} WithoutConcat<T>(a: seq<T>, b: seq<T>, bad: set<T>)
    ensures Without(a + b, bad) == Without(a, bad) + Without(b, bad)
    decreases |b|
  {
    if |b| == 0 {
      assert a + b == a;
    } else {
      var b0, l := b[..|b| - 1], b[|b| - 1];
      var t := if l in bad then [] else [l];
      var wa, wb0 := Without(a, bad), Without(b0, bad);
      assert b == b0 + [l];
      assert a + b == (a + b0) + [l];
      calc {
        Without(a + b, bad);
        Without((a + b0) + [l], bad);
        { WithoutSnoc(a + b0, l, bad); }
        Without(a + b0, bad) + t;
        { WithoutConcat(a, b0, bad); }
        (wa + wb0) + t;
        wa + (wb0 + t);
        { WithoutSnoc(b0, l, bad); }
        wa + Without(b0 + [l], bad);
        wa + Without(b, bad);
      }
    }
  }

  /** Appending elements already present leaves the de-duplication unchanged. */
  lemma {:induction false} DedupAbsorb<T>(s: seq<T>, t: seq<T>)
    requires forall k :: 0 <= k < |t| ==> t[k] in s
    ensures Dedup(s + t) == Dedup(s)
    decreases |t|
  {
    if |t| == 0 {
      assert s + t == s;
    } else {
      var t0, l := t[..|t| - 1], t[|t| - 1];
      assert t == t0 + [l];
      assert s + t == (s + t0) + [l];
      DedupAbsorb(s, t0);
      assert l in s;
      assert l in s + t0;
      DedupSnoc(s + t0, l);
    }
  }

  /** A prefix of a duplicate-free sequence is duplicate-free. */
  lemma DistinctPrefix<T>(a: seq<T>, n: nat)
    requires Distinct(a) && n <= |a|
    ensures Distinct(a[..n])
  {
    forall i, j | 0 <= i < j < n ensures a[..n][i] != a[..n][j] {
      assert a[..n][i] == a[i] && a[..n][j] == a[j];
    }
  }

  lemma DistinctConcat<T>(a: seq<T>, b: seq<T>)
    requires Distinct(a) && Distinct(b) && Elems(a) !! Elems(b)
    ensures Distinct(a + b)
  {
    forall i, j | 0 <= i < j < |a + b| ensures (a + b)[i] != (a + b)[j] {
      if i < |a| && |a| <= j {
        assert (a + b)[i] in Elems(a) && (a + b)[j] in Elems(b);
      }
    }
  }
}

=== FILE: value_order.dfy ===
/** Python's ordering of the cell values the converter hands to `sorted()`:
    strings compare lexicographically by code point, integers numerically,
    and a string against a number, or `None` against anything, raises
    `TypeError`. Any comparison sort must compare some adjacent pair of its
    output, so a list of two or more values that mixes kinds (or holds
    `None`) always makes `sorted()` raise; a list of at most one value is
    returned without a comparison. */
module ValueOrder {
  import opened Wrappers
  import opened Seqs
  import opened DataModel

  // ------------------------------------------------------------------
  // Strings
  // ------------------------------------------------------------------

  /** `a <= b` on Python strings. */
  predicate StrLe(a: string, b: string)
    decreases |a|
  {
    |a| == 0 || (|b| > 0 && (a[0] < b[0] || (a[0] == b[0] && StrLe(a[1..], b[1..]))))
  }

  /** The textbook definition: `a` is a prefix of `b`, or the strings first
      differ at a position where `a` has the smaller code point. */
  predicate LexLe(a: string, b: string) {
    || (|a| <= |b| && a == b[..|a|])
    || exists i :: 0 <= i < |a| && i < |b| && a[..i] == b[..i] && a[i] < b[i]
  }

  lemma {:induction false} StrLeIsLex(a: string, b: string)
    ensures StrLe(a, b) <==> LexLe(a, b)
    decreases |a|
  {
    if |a| > 0 && |b| > 0 {
      StrLeIsLex(a[1..], b[1..]);
      if a[0] == b[0] {
        if LexLe(a[1..], b[1..]) {
          LexLeCons(a, b);
        }
        if LexLe(a, b) {
          LexLeUncons(a, b);
        }
      }
    } else if |a| > 0 {
      assert !LexLe(a, b);
    }
  }

  /** Equal first characters followed by ordered tails are ordered. */
  lemma LexLeCons(a: string, b: string)
    requires |a| > 0 && |b| > 0 && a[0] == b[0] && LexLe(a[1..], b[1..])
    ensures LexLe(a, b)
  {
    if |a[1..]| <= |b[1..]| && a[1..] == b[1..][..|a[1..]|] {
      assert a == [a[0]] + a[1..];
      assert b[..|a|] == [b[0]] + b[1..][..|a[1..]|];
    } else {
      var i :| 0 <= i < |a[1..]| && i < |b[1..]| && a[1..][..i] == b[1..][..i] && a[1..][i] < b[1..][i];
      assert a[..i + 1] == [a[0]] + a[1..][..i];
      assert b[..i + 1] == [b[0]] + b[1..][..i];
      assert a[i + 1] < b[i + 1];
    }
  }

  /** Ordered strings with equal first characters have ordered tails. */
  lemma LexLeUncons(a: string, b: string)
    requires |a| > 0 && |b| > 0 && a[0] == b[0] && LexLe(a, b)
    ensures LexLe(a[1..], b[1..])
  {
    if |a| <= |b| && a == b[..|a|] {
      assert a[1..] == b[1..][..|a[1..]|];
    } else {
      var i :| 0 <= i < |a| && i < |b| && a[..i] == b[..i] && a[i] < b[i];
      assert i > 0;
      assert a[1..][..i - 1] == a[..i][1..];
      assert b[1..][..i - 1] == b[..i][1..];
      assert a[1..][i - 1] < b[1..][i - 1];
    }
  }

  lemma {:induction false} StrLeReflexive(a: string)
    ensures StrLe(a, a)
    decreases |a|
  {
    if |a| > 0 {
      StrLeReflexive(a[1..]);
    }
  }

  lemma {:induction false} StrLeTotal(a: string, b: string)
    ensures StrLe(a, b) || StrLe(b, a)
    decreases |a|
  {
    if |a| > 0 && |b| > 0 && a[0] == b[0] {
      StrLeTotal(a[1..], b[1..]);
    }
  }

  lemma {:induction false} StrLeAntisymmetric(a: string, b: string)
    requires StrLe(a, b) && StrLe(b, a)
    ensures a == b
    decreases |a|
  {
    if |a| > 0 {
      StrLeAntisymmetric(a[1..], b[1..]);
      assert a == [a[0]] + a[1..];
      assert b == [b[0]] + b[1..];
    }
  }

  lemma {:induction false} StrLeTransitive(a: string, b: string, c: string)
    requires StrLe(a, b) && StrLe(b, c)
    ensures StrLe(a, c)
    decreases |a|
  {
    if |a| > 0 && a[0] == b[0] && b[0] == c[0] {
      StrLeTransitive(a[1..], b[1..], c[1..]);
    }
  }

  // ------------------------------------------------------------------
  // Values
  // ------------------------------------------------------------------

  /** All strings or all numbers: the lists `sorted()` accepts. */
  predicate Comparable(s: seq<Value>) {
    || (forall k :: 0 <= k < |s| ==> s[k].Str?)
    || (forall k :: 0 <= k < |s| ==> s[k].Num?)
  }

  /** `a <= b` where Python defines it; `false` where it raises. */
  predicate ValueLe(a: Value, b: Value) {
    if a.Str? && b.Str? then StrLe(a.s, b.s)
    else if a.Num? && b.Num? then a.n <= b.n
    else false
  }

  predicate Sorted(s: seq<Value>) {
    forall i :: 0 < i < |s| ==> ValueLe(s[i - 1], s[i])
  }

  lemma ValueLeTotal(a: Value, b: Value)
    requires (a.Str? && b.Str?) || (a.Num? && b.Num?)
    ensures ValueLe(a, b) || ValueLe(b, a)
  {
    if a.Str? {
      StrLeTotal(a.s, b.s);
    }
  }

  lemma ValueLeTransitive(a: Value, b: Value, c: Value)
    requires ValueLe(a, b) && ValueLe(b, c)
    ensures ValueLe(a, c)
  {
    if a.Str? {
      StrLeTransitive(a.s, b.s, c.s);
    }
  }

  lemma ValueLeAntisymmetric(a: Value, b: Value)
    requires ValueLe(a, b) && ValueLe(b, a)
    ensures a == b
  {
    if a.Str? {
      StrLeAntisymmetric(a.s, b.s);
    }
  }

  /** A permutation of a comparable list is comparable. */
  lemma ComparablePermutation(a: seq<Value>, b: seq<Value>)
    requires Comparable(a) && multiset(a) == multiset(b)
    ensures Comparable(b)
  {
    if forall k :: 0 <= k < |a| ==> a[k].Str? {
      forall k | 0 <= k < |b| ensures b[k].Str? {
        assert b[k] in multiset(a);
      }
    } else {
      forall k | 0 <= k < |b| ensures b[k].Num? {
        assert b[k] in multiset(a);
      }
    }
  }

  /** Sorted by neighbours means sorted pairwise. */
  lemma {:induction false} SortedPairwise(s: seq<Value>, i: nat, j: nat)
    requires Sorted(s) && i < j < |s|
    ensures ValueLe(s[i], s[j])
    decreases j - i
  {
    if i + 1 < j {
      SortedPairwise(s, i + 1, j);
      ValueLeTransitive(s[i], s[i + 1], s[j]);
    }
  }

  // ------------------------------------------------------------------
  // Sorting
  // ------------------------------------------------------------------

  function Insert(x: Value, s: seq<Value>): (r: seq<Value>)
    ensures multiset(r) == multiset(s) + multiset{x}
    ensures |r| == |s| + 1
    ensures r[0] == x || (|s| > 0 && r[0] == s[0])
  {
    if |s| == 0 || ValueLe(x, s[0]) then [x] + s
    else
      assert s == [s[0]] + s[1..];
      [s[0]] + Insert(x, s[1..])
  }

  lemma {:induction false} InsertSorted(x: Value, s: seq<Value>)
    requires Comparable([x] + s) && Sorted(s)
    ensures Sorted(Insert(x, s))
  {
    if |s| > 0 && !ValueLe(x, s[0]) {
      var t := s[1..];
      assert ([x] + s)[1] == s[0];
      assert forall k :: 0 <= k < |[x] + t| ==> ([x] + t)[k] == ([x] + s)[if k == 0 then 0 else k + 1];
      InsertSorted(x, t);
      assert ([x] + s)[0] == x;
      ValueLeTotal(x, s[0]);
      var r := Insert(x, t);
      assert r[0] == x || r[0] == t[0];
      assert Insert(x, s) == [s[0]] + r;
    }
  }

  /** Insertion sort on values. */
  function SortSeq(s: seq<Value>): (r: seq<Value>)
    ensures multiset(r) == multiset(s)
    ensures |r| == |s|
  {
    if |s| == 0 then []
    else
      assert s == [s[0]] + s[1..];
      Insert(s[0], SortSeq(s[1..]))
  }

  lemma {:induction false} SortSorted(s: seq<Value>)
    requires Comparable(s)
    ensures Sorted(SortSeq(s))
  {
    if |s| > 0 {
      assert s == [s[0]] + s[1..];
      assert forall k :: 0 <= k < |s[1..]| ==> s[1..][k] == s[k + 1];
      SortSorted(s[1..]);
      var r := SortSeq(s[1..]);
      assert multiset([s[0]] + r) == multiset(s);
      ComparablePermutation(s, [s[0]] + r);
      InsertSorted(s[0], r);
    }
  }

  /** A comparable list has exactly one sorted arrangement. */
  lemma {:induction false} SortedUnique(a: seq<Value>, b: seq<Value>)
    requires Comparable(a) || |a| <= 1
    requires Sorted(a) && Sorted(b) && multiset(a) == multiset(b)
    ensures a == b
  {
    assert |a| == |multiset(a)| == |b|;
    if |a| == 1 {
      assert b[0] in multiset(a);
    } else if |a| > 1 {
      SortedHeads(a, b);
      TailPermutation(a, b);
      SubComparable(a, a[1..]);
      SortedUnique(a[1..], b[1..]);
      assert a == [a[0]] + a[1..] && b == [b[0]] + b[1..];
    }
  }

  /** Removing equal heads keeps a permutation a permutation, and a sorted
      list's tail sorted. */
  lemma TailPermutation(a: seq<Value>, b: seq<Value>)
    requires |a| > 0 && |b| > 0 && a[0] == b[0] && multiset(a) == multiset(b)
    ensures multiset(a[1..]) == multiset(b[1..]) && multiset(a[1..]) <= multiset(a)
    ensures Sorted(a) ==> Sorted(a[1..])
    ensures Sorted(b) ==> Sorted(b[1..])
  {
    HeadTail(a);
    HeadTail(b);
    SortedTail(a);
    SortedTail(b);
  }

  /** A list's multiset is its head's plus its tail's. */
  lemma HeadTail(a: seq<Value>)
    requires |a| > 0
    ensures multiset(a[1..]) == multiset(a) - multiset{a[0]}
    ensures multiset(a[1..]) <= multiset(a)
  {
    assert a == [a[0]] + a[1..];
    assert multiset(a) == multiset{a[0]} + multiset(a[1..]);
  }

  lemma SortedTail(a: seq<Value>)
    requires |a| > 0
    ensures Sorted(a) ==> Sorted(a[1..])
  {
    if Sorted(a) {
      forall i | 0 < i < |a[1..]| ensures ValueLe(a[1..][i - 1], a[1..][i]) {
        assert a[1..][i - 1] == a[i] && a[1..][i] == a[i + 1];
      }
    }
  }

  /** Two sorted arrangements of one comparable list start alike. */
  lemma SortedHeads(a: seq<Value>, b: seq<Value>)
    requires Comparable(a) && Sorted(a) && Sorted(b) && multiset(a) == multiset(b)
    requires |a| > 0 && |b| > 0
    ensures a[0] == b[0]
  {
    ComparablePermutation(a, b);
    assert a[0] in multiset(b) && b[0] in multiset(a);
    var i :| 0 <= i < |a| && a[i] == b[0];
    var j :| 0 <= j < |b| && b[j] == a[0];
    if i > 0 {
      SortedPairwise(a, 0, i);
    } else {
      StrLeOrEq(a[0]);
    }
    if j > 0 {
      SortedPairwise(b, 0, j);
    } else {
      StrLeOrEq(b[0]);
    }
    ValueLeAntisymmetric(a[0], b[0]);
  }

  /** A sub-multiset of a comparable list is comparable. */
  lemma SubComparable(a: seq<Value>, b: seq<Value>)
    requires Comparable(a) && multiset(b) <= multiset(a)
    ensures Comparable(b)
  {
    if forall k :: 0 <= k < |a| ==> a[k].Str? {
      forall k | 0 <= k < |b| ensures b[k].Str? {
        assert b[k] in multiset(a);
      }
    } else {
      forall k | 0 <= k < |b| ensures b[k].Num? {
        assert b[k] in multiset(a);
      }
    }
  }

  /** A string or number is `<=` itself. */
  lemma StrLeOrEq(v: Value)
    requires v.Str? || v.Num?
    ensures ValueLe(v, v)
  {
    if v.Str? {
      StrLeReflexive(v.s);
    }
  }

  /** `sorted(s)`. */
  function PySorted(s: seq<Value>): (r: Result<seq<Value>, Error>)
    ensures r.Success? <==> |s| <= 1 || Comparable(s)
    ensures r.Failure? ==> r.error == Unorderable
    ensures r.Success? ==> Sorted(r.value) && multiset(r.value) == multiset(s)
  {
    if |s| <= 1 then Success(s)
    else if Comparable(s) then
      SortSorted(s);
      Success(SortSeq(s))
    else Failure(Unorderable)
  }

  // ------------------------------------------------------------------
  // Distinctness under permutation
  // ------------------------------------------------------------------

  lemma {:induction false} DistinctCount<T>(s: seq<T>, x: T)
    requires Distinct(s)
    ensures multiset(s)[x] <= 1
  {
    if |s| > 0 {
      var init := s[..|s| - 1];
      assert s == init + [s[|s| - 1]];
      DistinctCount(init, x);
      if x == s[|s| - 1] {
        assert x !in init;
      }
    }
  }

  lemma DistinctPermutation<T>(a: seq<T>, b: seq<T>)
    requires Distinct(a) && multiset(a) == multiset(b)
    ensures Distinct(b)
  {
    forall i, j | 0 <= i < j < |b| ensures b[i] != b[j] {
      if b[i] == b[j] {
        assert b == b[..j] + b[j..];
        assert b[i] in multiset(b[..j]) && b[j] in multiset(b[j..]);
        DistinctCount(a, b[i]);
        assert false;
      }
    }
  }

  // ------------------------------------------------------------------
  // `dict(zip(a, b))`
  // ------------------------------------------------------------------

  /** `{src: dst for src, dst in zip(a, b)}`: a later pair overwrites an
      earlier one with the same key. */
  function ZipMap(a: seq<Value>, b: seq<Value>): (m: map<Value, Value>)
    requires |a| == |b|
    ensures m.Keys == Elems(a)
  {
    if |a| == 0 then map[]
    else
      var n := |a| - 1;
      assert a == a[..n] + [a[n]];
      ElemsConcat(a[..n], [a[n]]);
      ZipMap(a[..n], b[..n])[a[n] := b[n]]
  }

  /** Over duplicate-free keys, the map sends `a[i]` to `b[i]`. */
  lemma {:induction false} ZipMapAt(a: seq<Value>, b: seq<Value>, i: nat)
    requires |a| == |b| && Distinct(a) && i < |a|
    ensures a[i] in ZipMap(a, b) && ZipMap(a, b)[a[i]] == b[i]
  {
    var n := |a| - 1;
    var a', b' := a[..n], b[..n];
    assert ZipMap(a, b) == ZipMap(a', b')[a[n] := b[n]];
    if i < n {
      assert a[i] != a[n];
      DistinctPrefix(a, n);
      assert a'[i] == a[i] && b'[i] == b[i];
      ZipMapAt(a', b', i);
    }
  }
}

=== FILE: wrappers.dfy ===
/** Failure-compatible wrappers used throughout the model: `Option` for values a
    dictionary may lack, `Result` for operations that raise in the original program. */
module Wrappers {

  datatype Option<+T> = None | Some(value: T) {
    /** The value, or `default` when absent. */
    function GetOr(default: T): T {
      match this
      case Some(v) => v
      case None => default
    }
  }

  datatype Result<+T, +E> = Success(value: T) | Failure(error: E) {
    predicate IsFailure() {
      Failure?
    }

    function PropagateFailure<U>(): Result<U, E>
      requires Failure?
    {
      Failure(error)
    }

    function Extract(): T
      requires Success?
    {
      value
    }
  }
}
